=== FILE: README.md ===
# CompatibilityManager: the AppCompatFlags codec and the settings state machine

CompatibilityManager edits the per-application AppCompatFlags strings that
Windows keeps in the registry. Each string is a line of space-separated
tokens, such as `~ WIN7RTM 256COLOR GDIDPISCALING DPIUNAWARE RUNASADMIN`.
This project models two parts of the program in Dafny: the codec that turns
settings into tokens and back, and the view-model layer that edits those
settings.

The codec:

- **Token vocabulary.** Three closed enums: `CompatibilityMode`, `ColorMode`
  and `DPIScaling`. There is also a 3-bit `[Flags]` set, `OtherFlags`.
  - Each enum's token table is a constant sequence in declaration order.
  - The tables come from explicit per-member metadata: name, `Browsable` and
    `Description`. No reflection is involved.
  - The description rule: a non-browsable member gives `""`, otherwise its
    `Description` text, otherwise its name.
- **Two decoder revisions.**
  - The token-list decoder (`EnumServices.FromRegistryString`) scans the table
    from the highest value down. It takes the first entry whose words are all
    in the caller's list and removes those words from the list.
  - The older substring decoder (`EnumHelpers.FromRegistryString`) takes the
    last entry whose token occurs anywhere in the string.
- **Encoders.** The flag-set encoder, and the whole-line encoder with its
  Windows 8 tilde.
- **OS version classification.**

The view models:

- **`SettingsViewModel`**, one application's settings.
  - Raw enum and flag fields.
  - Nullable checkboxes that gate what the getters show.
  - `SetEnumProperty`, which brings back the last-used value when an empty enum
    box is ticked.
  - `SetFlagProperty`, `Clear`, `AddFlag`, `RemoveFlag`, the registry-string
    constructor and `ReloadFromRegistryString`.
- **`AggregatedSettingsViewModel`**, several applications edited at once.
  - It aggregates the members' common values, using the per-bit intersection
    for flags.
  - A box that is ticked over an empty value is collapsed to indeterminate.
  - Every property write is fanned out to all members.
- **`CompatibilityViewModel`**, the older two-state checkbox panel.
- **`ObservableRangeCollection.AddRange`**.

Modelling choices:

- **Prism's `SetProperty(ref storage, value, onChanged)`** means: assign, and
  run the callback only if the value differs.
  - A record's public setters are one `Set(w, store)` method.
  - `w` is a `Write` that names the property and carries the value.
  - `Assign` is the specification function of `Set`.
- **`Properties.Settings.Default`** holds the last-used enum values. It is a
  `LastUsedSettings` object that the setters read and save.
- **The aggregate's overridden `SetProperty`** sends every write to each
  member before storing it itself. This includes the writes made inside
  `SetEnumProperty`, `SetFlagProperty` and `OnSettingsChanged`.
  - `ChildWrites` lists what a member receives, and `AssignAll` applies that
    list.
  - Because `SetFlagProperty` on the aggregate writes `OtherFlags`, ticking or
    unticking a flag box there overwrites every member's whole flag set. The
    written value is the aggregate's own flags with that bit changed.
  - This is modelled as written. `FlagBoxOverwrites` states it in general and
    `RunAsAdministratorDropsOtherBits` gives a concrete case.
- **A visible change that is not marked.** Ticking an unticked enum box marks
  the record changed, because the box value itself changes (`ChangedMark`).
  Re-ticking a box that is already ticked over an empty value does not.
  `SetEnumProperty` writes the backing field by reference, so the getter now
  shows the last-used value, but `OnSettingsChanged` runs only when the box
  value changes, and here it does not (`RetickFillsUnmarked`).

Points where the model follows the code closely:

- **Unticked enums keep their value.** An unticked box does not reset its
  enum: the raw value stays stored, and only the gated getter
  (`SettingsViewModel.cs:42-90`) shows `None`. `Clear` therefore leaves the
  raw enums in place (`ClearedState`, `EnumBoxWrite`).
- **Two wrappers call the substring decoder.** The only overload of
  `EnumServices.FromRegistryString` takes a `ref List<string>`
  (`EnumServices.cs:77`). The compatibility-mode and color wrappers
  (`CompatibilityMode.cs:40-43`, `ColorMode.cs:33-36`) pass a whole string, which
  matches the signature of the substring decoder in `EnumHelpers.cs`, so they are
  modelled on it. The DPI wrapper passes a word list and is modelled on the
  token-list decoder.
- **Two collaborators are parameters, not modelled.** The whole-line decoder and the
  five-argument encoder that `SettingsViewModel` calls
  (`SettingsViewModel.cs:185`, `:271`) are not part of this model. They are
  function parameters (`decode`, `encode`).
  - `RegistryServices.ReadEnums` and `DecodeLine` show that a line made by the
    four-argument encoder carries every enum value in a form the token-list
    decoder can read back.
  - That is a property of the encoder, not a model of the missing decoder.
- **Other revisions of the same helpers.** `EnumHelpers.cs:26-57` and
  `EnumExtensions.cs:24-30` repeat the description rule, the table builder
  and the lookup of `EnumServices.cs`. They are modelled once, in
  `EnumServices`.

## Model

Some plain definitions have no row of their own, because the rows of the lemmas
about them carry their meaning:

- the nullable version tests `OSVersionServices.IsWindows8OrAbove` and
  `IsWindowsVistaOrAbove` (`OSVersionServices.cs:19-20`) are covered by
  `Windows8OrAboveIs`, `WindowsVistaOrAboveIs`, `Windows8ImpliesVista` and
  `Windows8OrAboveByNumber`;
- the gated getters `Settings.CompatibilityMode()`, `ColorMode()` and
  `DPIScaling()` (`SettingsViewModel.cs:42-90`) are covered by `EnumBoxWrite`,
  `Load`, `ReloadShowsLoaded`, `RetickFillsUnmarked` and
  `SettingsViewModel.ToRegistryString`.

| member | source | states |
|---|---|---|
| `EnumServices.GetDescription` | CompatibilityManager/Services/EnumServices.cs:34-42 | A non-browsable member's token is `""`. A browsable member's token is its `Description` text when it has one, and its name otherwise, so the `Description` wins over the name. A browsable member with a non-empty name and no empty `Description` gets a non-empty token |
| `EnumServices.LookupGivesDescription` | CompatibilityManager/Services/EnumServices.cs:44-71 | Over distinct members the built table has distinct keys, each member is a key, and looking it up gives that member's description |
| `EnumServices.GetDescriptions` | CompatibilityManager/Services/EnumServices.cs:48-59 | The loop builds exactly one entry per member, in `Enum.GetValues` order, each keyed by the member with its description |
| `EnumServices.ToRegistryString` | CompatibilityManager/Services/EnumServices.cs:65-71 | The token returned is the value's own entry in the table (the lookup's precondition is that the key is present) |
| `EnumServices.MatchIndex` | CompatibilityManager/Services/EnumServices.cs:87-97 | The reverse scan finds the highest entry all of whose words are present, and no entry above it fully matches |
| `EnumServices.FromRegistryString` | CompatibilityManager/Services/EnumServices.cs:77-105 | The imperative decoder (the `match &=` loop, then `Remove` of each word) returns the value and remaining list that `Decode` specifies |
| `EnumServices.AllWordsPresent` | CompatibilityManager/Services/EnumServices.cs:89-95 | The `match &=` loop: the entry matches exactly when every word of its description is among the substrings |
| `EnumServices.RemoveWords` | CompatibilityManager/Services/EnumServices.cs:97-100 | The `Remove` loop takes out the first occurrence of each word of the description, in order |
| `EnumServices.DecodeEntry` | CompatibilityManager/Services/EnumServices.cs:87-102 | Among words foreign to the table, an entry's words decode to that entry and are removed, leaving the other words in their order |
| `EnumServices.DecodeForeign` | CompatibilityManager/Services/EnumServices.cs:103-104 | A list with no word of the table decodes to the default and is left unchanged |
| `EnumServices.DecodeEmptyWord` | CompatibilityManager/Services/EnumServices.cs:87-104 | The single empty word, which the default's empty token splits into, decodes to the default and is used up |
| `EnumServices.DecodeDefault` | CompatibilityManager/Services/EnumServices.cs:87-104 | The decoder returns the default iff no non-default entry fully matches, and then at most one empty-string entry leaves the list |
| `EnumHelpers.FromRegistryString` | CompatibilityManager/Enums/EnumHelpers.cs:62-73 | With no token contained in the string the result is the default; otherwise it is the key of an entry whose token is contained, and no later entry's token is contained |
| `EnumHelpers.LastContained` | CompatibilityManager/Enums/EnumHelpers.cs:65-66 | The index found is the last entry whose token occurs in the string, and no later entry's token occurs in it |
| `EnumHelpers.DecodesToDefault` | CompatibilityManager/Enums/EnumHelpers.cs:65-67 | Because the default's `""` occurs in every string, the substring decoder returns the default iff no other entry's token occurs |
| `EnumHelpers.DecodesEntry` | CompatibilityManager/Enums/EnumHelpers.cs:62-73 | An entry's own token decodes back to it when no later token occurs inside it |
| `Strings.Contains` | CompatibilityManager/Enums/EnumHelpers.cs:65 | `string.Contains` holds iff the second string occurs at some offset of the first |
| `Strings.RemoveFirst` | CompatibilityManager/Services/EnumServices.cs:100 | `List.Remove` drops only the first occurrence and keeps the rest in order, and leaves the list as it is when the item is absent |
| `Strings.Split` | CompatibilityManager/Services/EnumServices.cs:91 | `Split(null)` gives at least one piece, and every piece is free of whitespace |
| `Strings.SplitJoinWords` | CompatibilityManager/Enums/OtherFlags.cs:30 | Joining words with single spaces and splitting again gives the words back |
| `CompatibilityModeServices.DescriptionsFromFields` | CompatibilityManager/Enums/CompatibilityMode.cs:7-27 | The constant table is the one the description rule builds from the members' attributes |
| `CompatibilityModeServices.Ordinal` | CompatibilityManager/Enums/CompatibilityMode.cs:7-19 | Declaration order None, WIN95 … WIN8RTM is the table order, so each member sits at its own index |
| `CompatibilityModeServices.KeysDistinct` | CompatibilityManager/Enums/CompatibilityMode.cs:7-19 | Each member occurs once in the table |
| `CompatibilityModeServices.TokensAreWords` | CompatibilityManager/Enums/CompatibilityMode.cs:9-18 | Every token is a single word, and only `None`'s token is empty |
| `CompatibilityModeServices.ToRegistryString` | CompatibilityManager/Enums/CompatibilityMode.cs:32-35 | The token is the mode's table entry, is `""` iff the mode is `None`, and is one word |
| `CompatibilityModeServices.TokenIsName` | CompatibilityManager/Enums/CompatibilityMode.cs:10-18 | Every non-`None` mode encodes as its own name, e.g. `WIN7RTM` as `"WIN7RTM"` |
| `CompatibilityModeServices.TokensDistinct` | CompatibilityManager/Enums/CompatibilityMode.cs:10-18 | The tokens are pairwise distinct |
| `CompatibilityModeServices.TokensSeparated` | CompatibilityManager/Enums/CompatibilityMode.cs:10-18 | No higher entry's words are all found among a lower non-`None` entry's words, so the reverse scan cannot stop at a mode above the one present |
| `CompatibilityModeServices.DecodesEmptyWord` | CompatibilityManager/Enums/CompatibilityMode.cs:9 | `None`'s empty token, as a word list, decodes to `None` and is used up |
| `CompatibilityModeServices.DecodesAmong` | CompatibilityManager/Enums/CompatibilityMode.cs:7-19 | Among foreign words, the token-list decoder finds the mode's token and removes it, or yields `None` and removes nothing |
| `CompatibilityModeServices.FromRegistryString` | CompatibilityManager/Enums/CompatibilityMode.cs:40-43 | The decoded mode's token occurs in the string, and no token of a later mode does |
| `CompatibilityModeServices.RoundTrip` | CompatibilityManager/Enums/CompatibilityMode.cs:32-43 | Decoding any mode's token with the substring decoder yields that mode |
| `CompatibilityModeServices.DecodesToNone` | CompatibilityManager/Enums/CompatibilityMode.cs:40-43 | The decoder yields `None` iff no non-`None` token occurs in the string |
| `ColorModeServices.DescriptionsFromFields` | CompatibilityManager/Enums/ColorMode.cs:7-20 | The table is built by the description rule, and `COLOR256`'s token is its `Description` and not its name |
| `ColorModeServices.Ordinal` | CompatibilityManager/Enums/ColorMode.cs:7-12 | Each member sits at its declaration index in the table |
| `ColorModeServices.ToRegistryString` | CompatibilityManager/Enums/ColorMode.cs:25-28 | A table lookup: `None` gives `""`, `COLOR256` gives `"256COLOR"` and `COLOR16BIT` gives `"BITCOLOR"` |
| `ColorModeServices.FromRegistryString` | CompatibilityManager/Enums/ColorMode.cs:33-36 | The decoded color mode's token occurs in the string, and no token of a later mode does |
| `ColorModeServices.RoundTrip` | CompatibilityManager/Enums/ColorMode.cs:25-36 | Decoding any color mode's token yields that mode |
| `ColorModeServices.DecodesDescriptions` | CompatibilityManager/Enums/ColorMode.cs:33-36 | `"BITCOLOR"` decodes to `COLOR16BIT` and `"256COLOR"` decodes to `COLOR256` |
| `ColorModeServices.DecodesToNone` | CompatibilityManager/Enums/ColorMode.cs:33-36 | The result is `None` iff neither token occurs in the string |
| `ColorModeServices.DecodesEmptyWord` | CompatibilityManager/Enums/ColorMode.cs:9 | `None`'s empty token, as a word list, decodes to `None` and is used up |
| `ColorModeServices.DecodesAmong` | CompatibilityManager/Enums/ColorMode.cs:7-12 | Among foreign words, the token-list decoder finds and removes the mode's token, or yields `None` and removes nothing |
| `ColorModeServices.TokensSeparated` | CompatibilityManager/Enums/ColorMode.cs:10-11 | `BITCOLOR`'s word is not found among `256COLOR`'s, so the reverse scan cannot stop at the wrong mode |
| `DPIScalingServices.DescriptionsFromFields` | CompatibilityManager/Enums/DPIScaling.cs:7-21 | The table is built by the description rule from the members' attributes |
| `DPIScalingServices.Ordinal` | CompatibilityManager/Enums/DPIScaling.cs:7-13 | `GDIDPISCALING` has the highest index, so the reverse scan tests it before `DPIUNAWARE` |
| `DPIScalingServices.ToRegistryString` | CompatibilityManager/Enums/DPIScaling.cs:26-29 | `None` gives `""`, `HIGHDPIAWARE` and `DPIUNAWARE` give their names, and `GDIDPISCALING` gives `"GDIDPISCALING DPIUNAWARE"` |
| `DPIScalingServices.FromRegistryString` | CompatibilityManager/Enums/DPIScaling.cs:34-37 | The `ref` list goes in and comes back without the words used; both results are the token-list decoder's |
| `DPIScalingServices.TokenWords` | CompatibilityManager/Enums/DPIScaling.cs:9-12 | The words of each token, with two words for `GDIDPISCALING` |
| `DPIScalingServices.TokensOverlap` | CompatibilityManager/Enums/DPIScaling.cs:11-12 | `GDIDPISCALING`'s token has `DPIUNAWARE`'s token as one of its words |
| `DPIScalingServices.TokenContained` | CompatibilityManager/Enums/DPIScaling.cs:11-12 | `DPIUNAWARE`'s token is a substring of `GDIDPISCALING`'s |
| `DPIScalingServices.TokensSeparated` | CompatibilityManager/Enums/DPIScaling.cs:10-12 | No higher entry's words are all found among a lower non-`None` entry's words: `GDIDPISCALING`'s two words are not all in `DPIUNAWARE`'s one |
| `DPIScalingServices.DecodesAmong` | CompatibilityManager/Enums/DPIScaling.cs:7-13 | Among foreign words, the decoder finds and removes the value's words, or yields `None` and removes nothing |
| `DPIScalingServices.RoundTrip` | CompatibilityManager/Enums/DPIScaling.cs:26-37 | Each value decodes back from the words of its own token with nothing left over |
| `DPIScalingServices.DecodesOwnWords` | CompatibilityManager/Enums/DPIScaling.cs:26-37 | The non-`None` case of the round trip |
| `DPIScalingServices.DecodesEmptyWord` | CompatibilityManager/Enums/DPIScaling.cs:9 | `None`'s empty token, as a word list, decodes to `None` and is used up |
| `DPIScalingServices.DecodesTwoWordToken` | CompatibilityManager/Enums/DPIScaling.cs:12 | `["GDIDPISCALING", "DPIUNAWARE"]` decodes to `GDIDPISCALING` and the list ends empty |
| `DPIScalingServices.SubstringDecodesTwoWordToken` | CompatibilityManager/Enums/DPIScaling.cs:12 | The substring decoder also reads `"GDIDPISCALING DPIUNAWARE"` as `GDIDPISCALING` and not `DPIUNAWARE` |
| `OtherExtensions.ToRegistryString` | CompatibilityManager/Enums/OtherFlags.cs:22-31 | The loop over the members without `None` collects the tokens of the set flags, and the result is those tokens joined by one space |
| `OtherExtensions.FlagTokensAre` | CompatibilityManager/Enums/OtherFlags.cs:11-28 | The tokens are `640X480`, `DISABLEDXMAXIMIZEDWINDOWEDMODE` and `RUNASADMIN`, each present iff its bit (1, 2, 4) is set, always in that order |
| `OtherExtensions.NoneHasNoTokens` | CompatibilityManager/Enums/OtherFlags.cs:22-31 | The empty set gives no tokens and the empty string |
| `OtherExtensions.TokenIffFlag` | CompatibilityManager/Enums/OtherFlags.cs:26-28 | A flag's token appears iff its bit is set |
| `OtherExtensions.TokensAreWords` | CompatibilityManager/Enums/OtherFlags.cs:12-14 | Every token is a non-empty single word |
| `OtherExtensions.EncodingSplits` | CompatibilityManager/Enums/OtherFlags.cs:30 | For a non-empty set the tokens are separated by exactly one space, with none leading or trailing: splitting gives them back |
| `OtherExtensions.EmptyIffNone` | CompatibilityManager/Enums/OtherFlags.cs:22-31 | The encoding is `""` iff no flag is set |
| `RegistryServices.NonBlank` | CompatibilityManager/Services/RegistryServices.cs:62 | The filter keeps only non-blank parts, every non-blank part survives, and no more parts than it was given |
| `RegistryServices.NonBlankAppend` | CompatibilityManager/Services/RegistryServices.cs:62 | The filter keeps order: filtering a concatenation is the concatenation of the filtered halves |
| `RegistryServices.NonBlankSingle` | CompatibilityManager/Services/RegistryServices.cs:62 | A single part survives iff it is not blank |
| `RegistryServices.PartsBlank` | CompatibilityManager/Services/RegistryServices.cs:56-62 | Each enum part is blank iff its value is `None`, and the flags part iff no flag is set |
| `RegistryServices.SplitNonBlank` | CompatibilityManager/Services/RegistryServices.cs:62-64 | Joining the surviving parts and splitting gives every part's words, in order |
| `RegistryServices.JoinedEmpty` | CompatibilityManager/Services/RegistryServices.cs:56-64 | The joined parts are empty iff every setting is `None`, and are never blank otherwise |
| `RegistryServices.LineSplits` | CompatibilityManager/Services/RegistryServices.cs:62-70 | The line is empty when no part survives the filter. When the joined survivors are not blank, the line splits into `~` (on Windows 8 or above) followed by every part's words |
| `RegistryServices.Line` | CompatibilityManager/Services/RegistryServices.cs:62-70 | No surviving part gives `""`; otherwise the line is not blank. On Windows 8 or above a non-empty line is exactly `"~ "` followed by the survivors joined by spaces; below it is the joined survivors alone |
| `RegistryServices.ToRegistryString` | CompatibilityManager/Services/RegistryServices.cs:54-73 | The line is `""` iff all four settings are `None`. Otherwise it is exactly the non-blank parts joined by single spaces, with `"~ "` in front on Windows 8 or above |
| `RegistryServices.SettingWordsAre` | CompatibilityManager/Services/RegistryServices.cs:56-61 | The words come in the fixed order: compatibility, color, DPI, then flags, each omitted when `None` |
| `RegistryServices.LineWords` | CompatibilityManager/Services/RegistryServices.cs:54-73 | The line is `""` iff every setting is `None`; otherwise its words are the tilde on Windows 8 or above, then each setting's words in order |
| `RegistryServices.AllNoneLine` | CompatibilityManager/Services/RegistryServices.cs:62-67 | All-`None` settings encode to `""` on every platform, never to a lone tilde |
| `RegistryServices.Windows7RTMLine` | CompatibilityManager/Services/RegistryServices.cs:67 | Below Windows 8, `(WIN7RTM, None, None, None)` encodes as `"WIN7RTM"` |
| `RegistryServices.Windows7RTMLineWithTilde` | CompatibilityManager/Services/RegistryServices.cs:66-70 | On Windows 8 or above, the same settings encode as `"~ WIN7RTM"` |
| `RegistryServices.OnlyCompatibilityMode` | CompatibilityManager/Services/RegistryServices.cs:54-73 | With only a mode set, the line is the mode's token, with `"~ "` in front on Windows 8 or above |
| `RegistryServices.DecodeLine` | CompatibilityManager/Services/RegistryServices.cs:54-73 | Reading the line's words with the token-list decoder (mode, then color, then DPI) gives every enum back and leaves only the tilde and the flag tokens |
| `RegistryServices.NonEmptyLineWords` | CompatibilityManager/Services/RegistryServices.cs:62-70 | A line with some setting is non-empty, and its words are the tilde followed by the setting words |
| `OSVersionServices.GetOSVersion` | CompatibilityManager/Services/OSVersionServices.cs:22-41 | It throws `InvalidOperationException` iff the major version is not 10, 6 or 5 |
| `OSVersionServices.ClassifiesVersionNumber` | CompatibilityManager/Services/OSVersionServices.cs:22-41 | Every release is recognised from its own (major, minor): 10 is Windows 10; 6.3, 6.2, 6.1 and 6.0 are 8.1, 8, 7 and Vista; 5.1 is XP; 5.0 is 2000 |
| `OSVersionServices.Monotone` | CompatibilityManager/Services/OSVersionServices.cs:26-38 | Within the known minor versions, a later version number never classifies as an earlier release |
| `OSVersionServices.UnknownMinorIsVista` | CompatibilityManager/Services/OSVersionServices.cs:27-33 | Major 6 with minor 4 or above falls back to Vista, below the 8.1 that minor 3 gives |
| `OSVersionServices.Windows8OrAboveIs` | CompatibilityManager/Services/OSVersionServices.cs:19 | Windows 8 or above holds exactly for 8, 8.1 and 10, and never without a version |
| `OSVersionServices.WindowsVistaOrAboveIs` | CompatibilityManager/Services/OSVersionServices.cs:20 | Vista or above holds for every release but 2000 and XP |
| `OSVersionServices.Windows8ImpliesVista` | CompatibilityManager/Services/OSVersionServices.cs:19-20 | Windows 8 or above implies Vista or above |
| `OSVersionServices.Windows8OrAboveByNumber` | CompatibilityManager/Services/OSVersionServices.cs:19-33 | On a recognised version number, Windows 8 or above means major 10, or major 6 with minor 2 or 3 |
| `SettingsViewModels.BoxFlag` | CompatibilityManager/ViewModels/SettingsViewModel.cs:125-156 | Exactly the three flag checkboxes control a bit |
| `SettingsViewModels.SetEnumProperty` | CompatibilityManager/ViewModels/SettingsViewModel.cs:308-318 | The last-used value replaces the stored one only when ticking over `None`; otherwise nothing changes |
| `SettingsViewModels.SetFlagProperty` | CompatibilityManager/ViewModels/SettingsViewModel.cs:323-330 | Ticking sets the bit, `false` or `null` clears it, and every other bit is unchanged |
| `SettingsViewModels.Load` | CompatibilityManager/ViewModels/SettingsViewModel.cs:177-202 | A blank string gives the defaults and no additional flags. Otherwise the getters show the decoded values, the flags and additional flags are the decoded ones, and each box is ticked iff its enum is set or its bit is on. Nothing is marked changed |
| `SettingsViewModels.ClearedState` | CompatibilityManager/ViewModels/SettingsViewModel.cs:278-287 | After `Clear` all six boxes are `false`, all bits clear, `IsCleared` holds with the empty flag list, the raw enums stay, and the record is marked changed |
| `SettingsViewModels.Pick` | CompatibilityManager/ViewModels/SettingsViewModel.cs:250-252 | The value a reload writes is the loaded one or the current one, the loaded one whenever it is set, and `None` only when both are |
| `SettingsViewModels.Assign` | CompatibilityManager/ViewModels/SettingsViewModel.cs:42-156 | A write changes an enum only through its own setter or its box, the flags only through their setter or a flag box, and a box only through its own setter, which leaves it at the value written; only the explicit `HasChanged` write can lower the mark |
| `SettingsViewModels.SettingsViewModel.constructor` | CompatibilityManager/ViewModels/SettingsViewModel.cs:171-175 | A new record has every value `None`, every box `false`, no additional flag and nothing changed |
| `SettingsViewModels.SettingsViewModel.FromRegistryString` | CompatibilityManager/ViewModels/SettingsViewModel.cs:177-202 | The registry-string constructor leaves the record in the state `Load` describes |
| `SettingsViewModels.SettingsViewModel.Set` | CompatibilityManager/ViewModels/SettingsViewModel.cs:42-156 | A write through a public setter gives the state `Assign` describes. The enum setters save the value written as last used |
| `SettingsViewModels.SettingsViewModel.Clear` | CompatibilityManager/ViewModels/SettingsViewModel.cs:278-287 | The six box setters and a new empty collection leave the record in `ClearedState` with no additional flag; the last-used values are unchanged |
| `SettingsViewModels.SettingsViewModel.ReloadFromRegistryString` | CompatibilityManager/ViewModels/SettingsViewModel.cs:245-266 | The setters copy in the record built from the string, giving `Reloaded` with the loaded additional flags and the three written enums saved as last used |
| `SettingsViewModels.SettingsViewModel.WriteValues` | CompatibilityManager/ViewModels/SettingsViewModel.cs:250-254 | The first half of a reload writes the picked enums, the loaded flags and the additional flags |
| `SettingsViewModels.SettingsViewModel.WriteBoxes` | CompatibilityManager/ViewModels/SettingsViewModel.cs:257-262 | The second half writes the six loaded boxes, each seeing the enum the first half wrote |
| `SettingsViewModels.SettingsViewModel.AddFlag` | CompatibilityManager/ViewModels/SettingsViewModel.cs:289-293 | One empty additional flag is appended and the record is marked changed |
| `SettingsViewModels.SettingsViewModel.RemoveFlag` | CompatibilityManager/ViewModels/SettingsViewModel.cs:295-299 | The first occurrence of the flag is removed and the record is marked changed |
| `SettingsViewModels.EnumBoxWrite` | CompatibilityManager/ViewModels/SettingsViewModel.cs:92-123 | Ticking an enum box shows the stored value, or the last-used one if none is stored. Unticking shows `None` but keeps the raw value. Nothing else but the changed mark moves |
| `SettingsViewModels.FlagBoxWrite` | CompatibilityManager/ViewModels/SettingsViewModel.cs:125-156 | A flag box write turns its bit on iff the box is ticked, keeps every other bit, and changes no other field but the box and the changed mark |
| `SettingsViewModels.ChangedMark` | CompatibilityManager/ViewModels/SettingsViewModel.cs:239-243 | Only the explicit `HasChanged` write lowers the mark; a changed value or any new additional-flag collection raises it |
| `SettingsViewModels.ReloadShowsLoaded` | CompatibilityManager/ViewModels/SettingsViewModel.cs:245-266 | After a reload the getters, flags and boxes agree with what was loaded and nothing is marked changed. Where the loaded enum is `None`, the value the record showed before the reload stays stored behind the unticked box |
| `SettingsViewModels.FlagsRestored` | CompatibilityManager/ViewModels/SettingsViewModel.cs:260-262 | Re-applying each flag box that agrees with its bit leaves the flag set unchanged |
| `SettingsViewModels.SettingsViewModel.ToRegistryString` | CompatibilityManager/ViewModels/SettingsViewModel.cs:268-272 | The encoder gets the gated getters: an enum behind an unticked box is passed as `None` whatever is stored |
| `SettingsViewModels.RetickFillsUnmarked` | CompatibilityManager/ViewModels/SettingsViewModel.cs:92-101 | Re-ticking a ticked compatibility box over an empty value makes the getter show the last-used mode, which it did not before, and leaves the changed mark as it was |
| `SettingsViewModels.ClearedEncodesNothing` | CompatibilityManager/ViewModels/SettingsViewModel.cs:268-272 | A cleared record hands the encoder only `None` values and no additional flag |
| `AggregatedSettingsViewModels.Aggregate` | CompatibilityManager/ViewModels/AggregatedSettingsViewModel.cs:66-71 | The result is the common value when all members agree, else the default, and then two members differ |
| `AggregatedSettingsViewModels.IntersectionPerBit` | CompatibilityManager/ViewModels/AggregatedSettingsViewModel.cs:73-82 | A bit is in the aggregated flags iff every member has it |
| `AggregatedSettingsViewModels.AggregateFlags` | CompatibilityManager/ViewModels/AggregatedSettingsViewModel.cs:73-82 | The loop over the flag values computes the per-bit intersection of the members' flags |
| `AggregatedSettingsViewModels.Collapse` | CompatibilityManager/ViewModels/AggregatedSettingsViewModel.cs:40-56 | The box is kept or becomes `null`; it is ticked only over a present value, and it changes only when it was ticked over an absent one |
| `AggregatedSettingsViewModels.States` | CompatibilityManager/ViewModels/AggregatedSettingsViewModel.cs:29 | The members' states, in the collection's order |
| `AggregatedSettingsViewModels.AggregatedShows` | CompatibilityManager/ViewModels/AggregatedSettingsViewModel.cs:26-37 | For each of the compatibility mode, color mode and DPI scaling, the aggregate shows the value all members show, or `None` when two differ, and it has exactly the flags all members have |
| `AggregatedSettingsViewModels.AggregatedBoxesShow` | CompatibilityManager/ViewModels/AggregatedSettingsViewModel.cs:39-56 | Both ways for each of the six boxes. A box has a value only when every member has it, and is ticked only over a value that is there. A value every member has is kept unless it is ticked over an absent value, and members that disagree give `null` |
| `AggregatedSettingsViewModels.AggregateStates` | CompatibilityManager/ViewModels/AggregatedSettingsViewModel.cs:33-56 | The aggregated enums, the flags from the imperative per-bit loop and the collapsed boxes together are exactly `Aggregated` of the members' states |
| `AggregatedSettingsViewModels.AggregatedSettingsViewModel.constructor` | CompatibilityManager/ViewModels/AggregatedSettingsViewModel.cs:26-60 | With no members every field keeps its initial value. Otherwise the storage is `Aggregated` of the members' states and the additional flags are `null` |
| `AggregatedSettingsViewModels.AggregatedSettingsViewModel.SetChildrenProperty` | CompatibilityManager/ViewModels/AggregatedSettingsViewModel.cs:110-114 | Each member receives the write through its public setter |
| `AggregatedSettingsViewModels.AggregatedSettingsViewModel.Set` | CompatibilityManager/ViewModels/AggregatedSettingsViewModel.cs:116-126 | Each member receives `ChildWrites` in order, each sent to all members, before the aggregate stores the write as a single record would |
| `AggregatedSettingsViewModels.AggregatedSettingsViewModel.FanOut` | CompatibilityManager/ViewModels/AggregatedSettingsViewModel.cs:110-126 | Each child write goes to every member in turn, so every member ends with all the child writes applied in order |
| `AggregatedSettingsViewModels.AggregatedSettingsViewModel.Clear` | CompatibilityManager/ViewModels/AggregatedSettingsViewModel.cs:88-101 | Every member ends in `ClearedState` of its old record with an empty additional-flag list. The aggregate's own record is `ClearedState` of its old one, except that it is marked changed only if it already was or some box moved. The additional flags and the last-used values are unchanged |
| `AggregatedSettingsViewModels.UntickAllBoxes` | CompatibilityManager/ViewModels/AggregatedSettingsViewModel.cs:88-95 | The six unticks on one record give every box `false`, no flag and the enums kept, marked changed iff it was or some box moved |
| `AggregatedSettingsViewModels.AggregatedSettingsViewModel.UntickStep` | CompatibilityManager/ViewModels/AggregatedSettingsViewModel.cs:90-95 | Unticking one box on the aggregate unticks it, clears its bit and marks the aggregate changed iff the box moved; it unticks the box on every member, keeps the boxes already unticked and every member's enums, and leaves the last-used values alone |
| `AggregatedSettingsViewModels.AggregatedSettingsViewModel.UntickEnumBoxes` | CompatibilityManager/ViewModels/AggregatedSettingsViewModel.cs:90-92 | The three enum boxes end unticked on the aggregate and on every member; the aggregate is the three unticks applied in turn, the members keep their enums and the last-used values stay |
| `AggregatedSettingsViewModels.AggregatedSettingsViewModel.UntickFlagBoxes` | CompatibilityManager/ViewModels/AggregatedSettingsViewModel.cs:93-95 | With the enum boxes already unticked, all six boxes end unticked, the three bits are clear on the aggregate, and every member's flags equal the aggregate's; the aggregate is the three unticks applied in turn and the members keep their enums |
| `AggregatedSettingsViewModels.AggregatedSettingsViewModel.ClearMemberFlags` | CompatibilityManager/ViewModels/AggregatedSettingsViewModel.cs:97-100 | Every member gets a new, empty additional-flag collection and is marked changed, and nothing else moves; the last-used values stay |
| `AggregatedSettingsViewModels.SaveIrrelevant` | CompatibilityManager/ViewModels/AggregatedSettingsViewModel.cs:110-114 | A child write does the same whether or not the aggregate's write has been saved as last used |
| `AggregatedSettingsViewModels.SaveStays` | CompatibilityManager/ViewModels/AggregatedSettingsViewModel.cs:116-126 | The child writes leave the last-used values at the old ones or at the aggregate's write saved |
| `AggregatedSettingsViewModels.UntickFansOut` | CompatibilityManager/ViewModels/AggregatedSettingsViewModel.cs:116-126 | Unticking on the aggregate unticks the member's box and keeps its other boxes. A flag box replaces the member's flags with the aggregate's minus that bit |
| `AggregatedSettingsViewModels.FlagBoxOverwrites` | CompatibilityManager/ViewModels/SettingsViewModel.cs:323-330 | On the aggregate, a flag box write replaces every member's whole flag set with the aggregate's, that bit set or cleared, and the member's box takes the value |
| `AggregatedSettingsViewModels.RunAsAdministratorDropsOtherBits` | CompatibilityManager/ViewModels/AggregatedSettingsViewModel.cs:116-126 | Example: a member at 640x480 beside one that is not loses 640x480 when "run as administrator" is ticked on the pair, while its 640x480 box stays ticked |
| `AggregatedSettingsViewModels.EnumBoxFansOut` | CompatibilityManager/ViewModels/SettingsViewModel.cs:308-318 | Ticking the compatibility box on an aggregate with no mode makes every member show the last-used mode, whatever it stored. On an aggregate with a mode, a member shows its stored mode, or the last-used one when it has none. Unticking hides every member's mode and keeps it stored. No flag changes |
| `AggregatedSettingsViewModels.ValueFansOut` | CompatibilityManager/ViewModels/AggregatedSettingsViewModel.cs:122-126 | A value written on the aggregate reaches every member, and every member is marked changed when the aggregate's own value changed |
| `CompatibilityViewModels.BoxFlag` | CompatibilityManager/ViewModels/CompatibilityViewModel.cs:33-52 | Exactly the three flag boxes toggle a bit |
| `CompatibilityViewModels.Toggled` | CompatibilityManager/ViewModels/CompatibilityViewModel.cs:12-59 | After a checkbox setter the box holds the value written |
| `CompatibilityViewModels.CompatibilityViewModel.constructor` | CompatibilityManager/ViewModels/CompatibilityViewModel.cs:8-68 | The implicit constructor: a new panel has every box `false`, every enum `None` and no flag, so the boxes agree with the values |
| `CompatibilityViewModels.CompatibilityViewModel.SetChecked` | CompatibilityManager/ViewModels/CompatibilityViewModel.cs:12-59 | Any of the seven checkbox setters leaves the panel in the state `Toggled` describes |
| `CompatibilityViewModels.CompatibilityViewModel.StoreChecked` | CompatibilityManager/ViewModels/CompatibilityViewModel.cs:12-59 | `SetProperty` assigns the box's backing field and nothing else |
| `CompatibilityViewModels.CompatibilityViewModel.RunCallback` | CompatibilityManager/ViewModels/CompatibilityViewModel.cs:12-52 | The box's `onChanged` action: unticking an enum box resets its enum, a flag box runs `SetFlag` with its bit, and `HKLMChecked` has no action |
| `CompatibilityViewModels.Callback` | CompatibilityManager/ViewModels/CompatibilityViewModel.cs:12-52 | The `onChanged` actions change only the enums and `OtherFlags`, never a box |
| `CompatibilityViewModels.UntickResetsEnum` | CompatibilityManager/ViewModels/CompatibilityViewModel.cs:16-30 | Unticking a ticked enum box sets its enum to `None`, and nothing but that box and enum changes |
| `CompatibilityViewModels.EnumKeptUnlessUnticked` | CompatibilityManager/ViewModels/CompatibilityViewModel.cs:16-30 | Ticking an enum box, or unticking one that is already unticked, leaves the enum unchanged |
| `CompatibilityViewModels.FlagBoxOnlyTouchesFlags` | CompatibilityManager/ViewModels/CompatibilityViewModel.cs:37-51 | A flag box setter changes no enum. `OtherFlags` becomes `SetFlag` with the box's own bit, or stays when the box does not change |
| `CompatibilityViewModels.OtherBoxesKept` | CompatibilityManager/ViewModels/CompatibilityViewModel.cs:12-59 | A checkbox setter leaves every other checkbox as it was |
| `CompatibilityViewModels.HKLMIsStorage` | CompatibilityManager/ViewModels/CompatibilityViewModel.cs:54-59 | `HKLMChecked` is plain storage: only its own field changes |
| `CompatibilityViewModels.ToggledStaysCoherent` | CompatibilityManager/ViewModels/CompatibilityViewModel.cs:12-52 | Given a `SetFlag` that sets or clears just its bit, every setter keeps the invariant: unticked enum boxes have `None` enums and each flag box is ticked iff its bit is set |
| `CompatibilityViewModels.ToggledIdempotent` | CompatibilityManager/ViewModels/CompatibilityViewModel.cs:12-59 | Setting the same box to the same value twice is the same as setting it once |
| `ObservableRangeCollections.ObservableRangeCollection.constructor` | CompatibilityManager/Utils/ObservableRangeCollection.cs:20 | The parameterless constructor gives an empty list |
| `ObservableRangeCollections.ObservableRangeCollection.From` | CompatibilityManager/Utils/ObservableRangeCollection.cs:27-34 | The constructors from a list or a collection copy its elements in order |
| `ObservableRangeCollections.ObservableRangeCollection.AddRange` | CompatibilityManager/Utils/ObservableRangeCollection.cs:39-52 | A null collection throws `ArgumentNullException("collection")` and changes nothing. An empty one changes nothing. Otherwise the items are appended at the end in order, existing items are unchanged, and `Count` grows by the number added |
| `ObservableRangeCollections.ObservableRangeCollection.ClearItems` | CompatibilityManager/Utils/ObservableRangeCollection.cs:57-60 | The list becomes empty |

## Left out

- Registry and filesystem I/O, dialogs, elevation and `SendNotifyMessage` are outside the codec and the state machine.
  - The running system's version number is a parameter of `GetOSVersion`.
  - "Is Windows 8 or above" is a parameter of the line encoder.
- The `OSVersionServices` static initialiser, which throws when `GetOSVersion` throws, is not modelled: the failure is the `Failure` result of `GetOSVersion`.
- Reflection-based attribute lookup is replaced by constant per-member metadata.
  - The `ArgumentException` for a non-enum type argument (`TEnumTypeCheck`, and the checks at the top of `GetDescription`) cannot arise: every table here is built for an enum.
- `Dictionary` enumeration order is taken to be insertion order, which is `Enum.GetValues` order.
  - `Dictionary.Add` throwing on a repeated key is excluded by the `GetDescriptions` precondition that the members are distinct.
- The whole-line decoder and the five-argument encoder that `SettingsViewModel` calls are parameters. Their bodies are not part of this model.
- The `SetFlag` extension that `CompatibilityViewModel` calls is a parameter for the same reason. `LawfulSetter` states what its callers need of it.
- `Properties.Settings.Default.Save()` persistence is not modelled. Only the last-used values it holds are, as an object.
- Property-change notifications, `RaisePropertyChanged`, `DelegateCommand` and `CheckReentrancy` produce no state the model keeps. The `EventAggregator` subscriptions of the registry-string constructor are left out for the same reason.
- AggregatedSettingsViewModels.AggregatedSettingsViewModel.constructor: ends after the checkboxes and leaves out the `SubscribeEvents()` call at `AggregatedSettingsViewModel.cs:59`. As written that call cannot succeed. `SubscribeEvents` is `private` in `SettingsViewModel.cs:211`, so a subclass cannot call it. Even if it could, `base()` is the parameterless constructor (`SettingsViewModel.cs:171-175`), which never sets `eventAggregator` (only `SettingsViewModel.cs:182` does), so `eventAggregator.GetEvent` would throw `NullReferenceException` on every non-empty member list.
- Additional flags are strings.
  - `AdditionalFlagViewModel` objects, their reference identity and the `FlagChanged` event are left out.
  - `RemoveFlag` removes by value, so the model cannot tell apart two equal flags that the source holds as different objects.
- The aggregate's member collection is a lazy LINQ query in the application. Here it is a fixed sequence of distinct record references.
- The aggregate's inherited `AddFlag`, `RemoveFlag` and `ReloadFromRegistryString`, and `ToRegistryString` on it, are not modelled as separate operations.
  - With `null` additional flags they would throw.
  - No code in the files modelled here calls them on an aggregate. `AddCommand` does exist on the aggregate, because the parameterless base constructor creates it (`SettingsViewModel.cs:171-175`). It is reachable through `DisplayedSettings` unless exactly one application is selected (`MainViewModel.cs:53-58`). If the view invokes it, `AddFlag` (`SettingsViewModel.cs:289-293`) throws `NullReferenceException` on the `null` collection.
- `ObservableRangeCollection`'s constructors throw `ArgumentNullException` on a null argument. That case is not modelled, since a sequence cannot be null; `AddRange` models its null case.
- `CompatibilityViewModel`'s auto-properties (`CompatibilityMode`, `ColorMode`, `DPIScaling`, `OtherFlags`) are plain public fields. Assigning one directly can break `Coherent`, as it can in the source.
- `AggregatedSettingsViewModels.EnumBoxFansOut` states the fan-out of an enum box for the compatibility-mode box only. The color and DPI boxes go through the same `SetEnumProperty` path, and the general facts about them are in `UntickFansOut` and `ValueFansOut`.

=== FILE: aggregated_settings_view_model.dfy ===
/**
 * The settings record shown for several selected applications at once. It
 * starts from the members' common values and sends every property write on
 * to each member before storing it itself. Its own storage has the fields
 * of a single record; it has no additional-flag list of its own once it has
 * members.
 */
module AggregatedSettingsViewModels {
  import opened Wrappers
  import opened SettingsViewModels
  import CM = CompatibilityModeServices
  import Color = ColorModeServices
  import DPI = DPIScalingServices
  import Flags = OtherExtensions

  /** `Aggregate`: the members' common value when they all agree, else the type's default. */
  function Aggregate<T(==)>(xs: seq<T>, default: T): (r: T)
    requires xs != []
    ensures (forall i :: 0 <= i < |xs| ==> xs[i] == r)
      || (r == default && exists i :: 0 <= i < |xs| && xs[i] != xs[0])
  {
    if forall i :: 0 <= i < |xs| ==> xs[i] == xs[0] then xs[0] else default
  }

  /** The flags every one of `xs` has. */
  function Intersection(xs: seq<Flags.OtherFlags>): Flags.OtherFlags
    requires xs != []
  {
    if |xs| == 1 then xs[0] else xs[0] & Intersection(xs[1..])
  }

  /** `xs` all have every bit of `flag`. */
  predicate AllHave(xs: seq<Flags.OtherFlags>, flag: Flags.OtherFlags) {
    forall i :: 0 <= i < |xs| ==> Flags.HasFlag(xs[i], flag)
  }

  /** A bit is in the intersection exactly when every member has it. */
  lemma {:induction false} IntersectionPerBit(xs: seq<Flags.OtherFlags>, flag: Flags.OtherFlags)
    requires xs != []
    ensures Flags.HasFlag(Intersection(xs), flag) <==> AllHave(xs, flag)
  {
    if |xs| > 1 {
      IntersectionPerBit(xs[1..], flag);
      assert AllHave(xs, flag) <==> Flags.HasFlag(xs[0], flag) && AllHave(xs[1..], flag) by {
        if Flags.HasFlag(xs[0], flag) && AllHave(xs[1..], flag) {
          forall i | 1 <= i < |xs| ensures Flags.HasFlag(xs[i], flag) {
            assert xs[i] == xs[1..][i - 1];
          }
        }
      }
    }
  }

  /** Two flag sets are equal when they agree on each of the three bits. */
  lemma SameBits(a: Flags.OtherFlags, b: Flags.OtherFlags)
    requires Flags.HasFlag(a, Flags.RESOLUTION640X480) == Flags.HasFlag(b, Flags.RESOLUTION640X480)
    requires Flags.HasFlag(a, Flags.DISABLEDXMAXIMIZEDWINDOWEDMODE) == Flags.HasFlag(b, Flags.DISABLEDXMAXIMIZEDWINDOWEDMODE)
    requires Flags.HasFlag(a, Flags.RUNASADMIN) == Flags.HasFlag(b, Flags.RUNASADMIN)
    ensures a == b
  {
  }

  /**
   * `AggregateFlags`: for each flag value in declaration order, keep it when
   * the first member and every member have it; the result is the
   * intersection of the members' flags.
   */
  method AggregateFlags(xs: seq<Flags.OtherFlags>) returns (aggregatedValue: Flags.OtherFlags)
    requires xs != []
    ensures aggregatedValue == Intersection(xs)
  {
    var firstValue := xs[0];
    aggregatedValue := Flags.None;
    var values := [Flags.None, Flags.RESOLUTION640X480, Flags.DISABLEDXMAXIMIZEDWINDOWEDMODE, Flags.RUNASADMIN];
    for k := 0 to |values|
      invariant forall f :: f in values[1..] ==>
        (Flags.HasFlag(aggregatedValue, f) <==> f in values[..k] && AllHave(xs, f))
    {
      var flag := values[k];
      var all := true;
      for i := 0 to |xs|
        invariant all <==> AllHave(xs[..i], flag)
      {
        assert xs[..i + 1] == xs[..i] + [xs[i]];
        all := all && Flags.HasFlag(xs[i], flag);
      }
      assert xs[..|xs|] == xs;
      if Flags.HasFlag(firstValue, flag) && all {
        aggregatedValue := aggregatedValue | flag;
      }
    }
    assert values[..|values|] == values;
    assert Flags.RESOLUTION640X480 in values[1..] && Flags.DISABLEDXMAXIMIZEDWINDOWEDMODE in values[1..];
    assert Flags.RUNASADMIN in values[1..];
    IntersectionPerBit(xs, Flags.RESOLUTION640X480);
    IntersectionPerBit(xs, Flags.DISABLEDXMAXIMIZEDWINDOWEDMODE);
    IntersectionPerBit(xs, Flags.RUNASADMIN);
    SameBits(aggregatedValue, Intersection(xs));
  }

  /** A ticked aggregated box whose value came out empty shows as indeterminate. */
  function Collapse(checked: Option<bool>, present: bool): (r: Option<bool>)
    ensures r == checked || r == Option.None
    ensures IsTicked(r) ==> present
    ensures r != checked ==> IsTicked(checked) && !present
  {
    if IsTicked(checked) && !present then Option.None else checked
  }

  /** The members' gated compatibility modes. */
  function ModesOf(states: seq<Settings>): (r: seq<CM.CompatibilityMode>)
    ensures |r| == |states| && forall i :: 0 <= i < |states| ==> r[i] == states[i].CompatibilityMode()
  {
    seq(|states|, i requires 0 <= i < |states| => states[i].CompatibilityMode())
  }

  /** The members' gated colour modes. */
  function ColorsOf(states: seq<Settings>): (r: seq<Color.ColorMode>)
    ensures |r| == |states| && forall i :: 0 <= i < |states| ==> r[i] == states[i].ColorMode()
  {
    seq(|states|, i requires 0 <= i < |states| => states[i].ColorMode())
  }

  /** The members' gated DPI scalings. */
  function ScalingsOf(states: seq<Settings>): (r: seq<DPI.DPIScaling>)
    ensures |r| == |states| && forall i :: 0 <= i < |states| ==> r[i] == states[i].DPIScaling()
  {
    seq(|states|, i requires 0 <= i < |states| => states[i].DPIScaling())
  }

  /** The members' flag sets. */
  function FlagsOf(states: seq<Settings>): (r: seq<Flags.OtherFlags>)
    ensures |r| == |states| && forall i :: 0 <= i < |states| ==> r[i] == states[i].otherFlags
  {
    seq(|states|, i requires 0 <= i < |states| => states[i].otherFlags)
  }

  /** The members' values of one box. */
  function BoxesOf(states: seq<Settings>, box: Checkbox): (r: seq<Option<bool>>)
    ensures |r| == |states| && forall i :: 0 <= i < |states| ==> r[i] == states[i].Checked(box)
  {
    seq(|states|, i requires 0 <= i < |states| => states[i].Checked(box))
  }

  /** The aggregated value behind a box is there: an enum other than `None`, or the box's bit. */
  predicate Present(r: Settings, box: Checkbox) {
    match box
    case CompatibilityModeBox => r.compatibilityMode != CM.None
    case ColorModeBox => r.colorMode != Color.None
    case DPIScalingBox => r.dpiScaling != DPI.None
    case _ => Flags.HasFlag(r.otherFlags, BoxFlag(box))
  }

  /**
   * The aggregate's own storage after construction from the members'
   * states: the common gated enum or `None`, the common flags, and each
   * box the common box value, indeterminate when the members disagree or
   * the box is ticked over an empty value.
   */
  function Aggregated(states: seq<Settings>): (r: Settings)
    requires states != []
  {
    AggregatedWith(states, Intersection(FlagsOf(states)))
  }

  /**
   * Lines 33-56 of the constructor: the three enums aggregated, the flags
   * by the imperative intersection, then the six collapsed boxes.
   */
  method AggregateStates(states: seq<Settings>) returns (r: Settings)
    requires states != []
    ensures r == Aggregated(states)
  {
    var flags := AggregateFlags(FlagsOf(states));
    r := AggregatedWith(states, flags);
  }

  /** The aggregated storage, given the aggregated flags. */
  function AggregatedWith(states: seq<Settings>, flags: Flags.OtherFlags): Settings
    requires states != []
  {
    var values := Settings(Aggregate(ModesOf(states), CM.None), Aggregate(ColorsOf(states), Color.None),
                           Aggregate(ScalingsOf(states), DPI.None), flags,
                           Option.None, Option.None, Option.None, Option.None, Option.None, Option.None, false);
    values.(compatibilityModeChecked := AggregatedBox(states, values, CompatibilityModeBox),
            colorModeChecked := AggregatedBox(states, values, ColorModeBox),
            dpiScalingChecked := AggregatedBox(states, values, DPIScalingBox),
            resolution640x480Checked := AggregatedBox(states, values, Resolution640x480Box),
            disableFullscreenOptimizationsChecked := AggregatedBox(states, values, DisableFullscreenOptimizationsBox),
            runAsAdministratorChecked := AggregatedBox(states, values, RunAsAdministratorBox))
  }

  /** One aggregated box: the members' common value, collapsed when ticked over an absent value. */
  function AggregatedBox(states: seq<Settings>, values: Settings, box: Checkbox): Option<bool>
    requires states != []
  {
    Collapse(Aggregate(BoxesOf(states, box), Option.None), Present(values, box))
  }

  /** The records' states, in order. */
  function States(members: seq<SettingsViewModel>): (r: seq<Settings>)
    reads members
    ensures |r| == |members| && forall i :: 0 <= i < |members| ==> r[i] == members[i].State()
  {
    if members == [] then [] else [members[0].State()] + States(members[1..])
  }

  /** The enum write for an enum box, carrying `value`. */
  function EnumWrite(box: Checkbox, last: LastUsed): Write
    requires BoxFlag(box) == Flags.None
  {
    match box
    case CompatibilityModeBox => WriteCompatibilityMode(last.compatibilityMode)
    case ColorModeBox => WriteColorMode(last.colorMode)
    case DPIScalingBox => WriteDPIScaling(last.dpiScaling)
  }

  /** The aggregate's raw enum behind an enum box is `None`. */
  predicate EnumEmpty(a: Settings, box: Checkbox) {
    match box
    case CompatibilityModeBox => a.compatibilityMode == CM.None
    case ColorModeBox => a.colorMode == Color.None
    case DPIScalingBox => a.dpiScaling == DPI.None
    case _ => false
  }

  /** The aggregate's own value changes under the write, so `OnSettingsChanged` runs. */
  predicate OwnChanges(a: Settings, w: Write) {
    match w
    case WriteCompatibilityMode(v) => a.compatibilityMode != v
    case WriteColorMode(v) => a.colorMode != v
    case WriteDPIScaling(v) => a.dpiScaling != v
    case WriteOtherFlags(v) => a.otherFlags != v
    case WriteAdditionalFlags(_) => true
    case WriteChecked(box, v) => a.Checked(box) != v
    case WriteHasChanged(_) => false
  }

  /**
   * The writes every member receives when `w` is written on an aggregate
   * in state `a`, in the order the overridden `SetProperty` sends them: the
   * enum or flag adjustment of a checkbox, computed on the aggregate's own
   * storage; the write itself; and `HasChanged = true` when the aggregate's
   * own value changed.
   */
  function ChildWrites(a: Settings, last: LastUsed, w: Write): seq<Write> {
    var adjust := match w
      case WriteChecked(box, v) =>
        if BoxFlag(box) != Flags.None then [WriteOtherFlags(SetFlagProperty(a.otherFlags, BoxFlag(box), v))]
        else if IsTicked(v) && EnumEmpty(a, box) then [EnumWrite(box, last)]
        else []
      case _ => [];
    adjust + [w] + (if OwnChanges(a, w) then [WriteHasChanged(true)] else [])
  }

  /** A record after the writes `ws`, in order, all seeing the same last-used values. */
  function AssignAll(s: Settings, last: LastUsed, ws: seq<Write>): Settings {
    if ws == [] then s else Assign(AssignAll(s, last, ws[..|ws| - 1]), last, ws[|ws| - 1])
  }

  /** A record's additional flags after the writes `ws`. */
  function FlagsAfterAll(additionalFlags: seq<string>, ws: seq<Write>): seq<string> {
    if ws == [] then additionalFlags else AdditionalFlagsAfter(FlagsAfterAll(additionalFlags, ws[..|ws| - 1]), ws[|ws| - 1])
  }

  /** A child write sees the same last-used values whether or not the aggregate's write has been saved. */
  lemma SaveIrrelevant(s: Settings, a: Settings, last: LastUsed, w: Write, cw: Write)
    requires cw in ChildWrites(a, last, w)
    ensures Assign(s, Saved(last, w), cw) == Assign(s, last, cw)
  {
  }

  /** Saving a child write keeps the last-used values at either the old ones or the aggregate's write saved. */
  lemma SaveStays(a: Settings, last: LastUsed, w: Write, cw: Write, current: LastUsed)
    requires cw in ChildWrites(a, last, w)
    requires current == last || current == Saved(last, w)
    ensures Saved(current, cw) == last || Saved(current, cw) == Saved(last, w)
  {
  }

  class AggregatedSettingsViewModel {
    /** The selected records, as a fixed sequence of references. */
    const members: seq<SettingsViewModel>
    /** The aggregate's own storage, as a single record's fields. */
    var state: Settings
    /** `None` stands for the `null` the constructor stores once there are members. */
    var additionalFlags: Option<seq<string>>

    /** Each member appears once. */
    predicate Valid() {
      Distinct(members)
    }

    /**
     * The constructor: with no members every field keeps its initial value;
     * otherwise the storage is aggregated from the members' gated values,
     * flags and boxes, and the additional flags are `null`.
     */
    constructor (settings: seq<SettingsViewModel>)
      requires Distinct(settings)
      ensures members == settings && Valid()
      ensures settings == [] ==> state == Default && additionalFlags == Some([])
      ensures settings != [] ==> state == Aggregated(States(settings)) && additionalFlags == Option.None
    {
      if settings == [] {
        members, state, additionalFlags := settings, Default, Some([]);
      } else {
        var states := States(settings);
        var aggregated := AggregateStates(states);
        members, state, additionalFlags := settings, aggregated, Option.None;
        assert States(settings) == states;
      }
    }

    /**
     * `SetChildrenProperty`: one write through each member's public setter,
     * member by member. The last-used values the members see are the old
     * ones or those the aggregate's write saves, which no child write can
     * tell apart.
     */
    method SetChildrenProperty(cw: Write, store: LastUsedSettings, ghost a: Settings, ghost last: LastUsed, ghost w: Write)
      requires Valid() && cw in ChildWrites(a, last, w)
      requires store.Value() == last || store.Value() == Saved(last, w)
      modifies store, members
      ensures store.Value() == last || store.Value() == Saved(last, w)
      ensures forall i :: 0 <= i < |members| ==>
        && members[i].State() == Assign(old(members[i].State()), last, cw)
        && members[i].additionalFlags == AdditionalFlagsAfter(old(members[i].additionalFlags), cw)
    {
      for j := 0 to |members|
        invariant store.Value() == last || store.Value() == Saved(last, w)
        invariant forall i :: 0 <= i < j ==>
          && members[i].State() == Assign(old(members[i].State()), last, cw)
          && members[i].additionalFlags == AdditionalFlagsAfter(old(members[i].additionalFlags), cw)
        invariant forall i :: j <= i < |members| ==>
          && members[i].State() == old(members[i].State())
          && members[i].additionalFlags == old(members[i].additionalFlags)
      {
        SaveIrrelevant(members[j].State(), a, last, w, cw);
        SaveStays(a, last, w, cw, store.Value());
        members[j].Set(cw, store);
      }
    }

    /**
     * A write on the aggregate: every member receives the child writes in
     * turn, each one sent to all members before the next, and then the
     * aggregate stores the write itself as a single record would.
     */
    method Set(w: Write, store: LastUsedSettings)
      requires Valid()
      modifies this, store, members
      ensures Valid()
      ensures state == Assign(old(state), old(store.Value()), w)
      ensures additionalFlags == (if w.WriteAdditionalFlags? then Some(w.additionalFlags) else old(additionalFlags))
      ensures store.Value() == Saved(old(store.Value()), w)
      ensures forall i :: 0 <= i < |members| ==>
        var ws := ChildWrites(old(state), old(store.Value()), w);
        && members[i].State() == AssignAll(old(members[i].State()), old(store.Value()), ws)
        && members[i].additionalFlags == FlagsAfterAll(old(members[i].additionalFlags), ws)
    {
      var last := store.Value();
      FanOut(ChildWrites(state, last, w), store, state, last, w);
      state := Assign(state, last, w);
      match w
      case WriteCompatibilityMode(v) => store.lastCompatibilityMode := v;
      case WriteColorMode(v) => store.lastColorMode := v;
      case WriteDPIScaling(v) => store.lastDPIScaling := v;
      case WriteAdditionalFlags(flags) => additionalFlags := Some(flags);
      case _ =>
    }

    /** The child writes of one aggregate write, each sent to every member in turn. */
    method FanOut(ws: seq<Write>, store: LastUsedSettings, ghost a: Settings, ghost last: LastUsed, ghost w: Write)
      requires Valid() && ws == ChildWrites(a, last, w) && store.Value() == last
      modifies store, members
      ensures store.Value() == last || store.Value() == Saved(last, w)
      ensures forall i :: 0 <= i < |members| ==>
        && members[i].State() == AssignAll(old(members[i].State()), last, ws)
        && members[i].additionalFlags == FlagsAfterAll(old(members[i].additionalFlags), ws)
    {
      for k := 0 to |ws|
        invariant store.Value() == last || store.Value() == Saved(last, w)
        invariant forall i :: 0 <= i < |members| ==>
          && members[i].State() == AssignAll(old(members[i].State()), last, ws[..k])
          && members[i].additionalFlags == FlagsAfterAll(old(members[i].additionalFlags), ws[..k])
      {
        assert ws[..k + 1][..k] == ws[..k];
        SetChildrenProperty(ws[k], store, a, last, w);
      }
      assert ws[..|ws|] == ws;
    }

    /** Every member shows the boxes in `boxes` unticked. */
    predicate MembersUnticked(boxes: set<Checkbox>)
      reads this, members
    {
      forall i, box :: 0 <= i < |members| && box in boxes ==> members[i].State().Checked(box) == Some(false)
    }

    /**
     * `Clear`: untick the six boxes on the aggregate, each write reaching
     * every member, then give every member an empty additional-flag list.
     * Every member ends cleared; the aggregate's own boxes are unticked and
     * its flags cleared, while its own additional flags are left alone.
     */
    method Clear(store: LastUsedSettings)
      requires Valid()
      modifies this, store, members
      ensures Valid()
      ensures state == ClearedState(old(state)).(hasChanged := old(state).hasChanged || exists box :: old(state).Checked(box) != Some(false))
      ensures forall box :: state.Checked(box) == Some(false)
      ensures state.otherFlags == Flags.None
      ensures additionalFlags == old(additionalFlags)
      ensures store.Value() == old(store.Value())
      ensures forall i :: 0 <= i < |members| ==>
        members[i].State() == ClearedState(old(members[i].State())) && members[i].additionalFlags == []
      ensures forall i :: 0 <= i < |members| ==> members[i].Cleared()
    {
      ghost var s0, before := state, States(members);
      UntickEnumBoxes(store);
      UntickFlagBoxes(store);
      UntickAllBoxes(s0);
      ghost var mid := States(members);
      EveryBox();
      ClearMemberFlags(store);
      MembersCleared(before, mid, States(members));
    }

    /** The first three writes of `Clear`: the enum boxes, unticked on the aggregate and every member. */
    method UntickEnumBoxes(store: LastUsedSettings)
      requires Valid()
      modifies this, store, members
      ensures Valid() && additionalFlags == old(additionalFlags)
      ensures MembersUnticked(EnumBoxes)
      ensures forall b :: b in EnumBoxes ==> state.Checked(b) == Some(false)
      ensures state == UntickedOn(UntickedOn(UntickedOn(old(state), CompatibilityModeBox), ColorModeBox), DPIScalingBox)
      ensures store.Value() == old(store.Value())
      ensures forall i :: 0 <= i < |members| ==> SameEnums(members[i].State(), old(members[i].State()))
    {
      UntickStep(CompatibilityModeBox, {}, store);
      UntickStep(ColorModeBox, {CompatibilityModeBox}, store);
      UntickStep(DPIScalingBox, {CompatibilityModeBox, ColorModeBox}, store);
    }

    /** The last three writes of `Clear`: the flag boxes, whose bits leave the aggregate and every member. */
    method UntickFlagBoxes(store: LastUsedSettings)
      requires Valid()
      requires MembersUnticked(EnumBoxes)
      requires forall b :: b in EnumBoxes ==> state.Checked(b) == Some(false)
      modifies this, store, members
      ensures Valid() && additionalFlags == old(additionalFlags)
      ensures MembersUnticked(AllBoxes)
      ensures forall b :: b in AllBoxes ==> state.Checked(b) == Some(false)
      ensures state.otherFlags & Flags.RESOLUTION640X480 == Flags.None
      ensures state.otherFlags & Flags.DISABLEDXMAXIMIZEDWINDOWEDMODE == Flags.None
      ensures state.otherFlags & Flags.RUNASADMIN == Flags.None
      ensures forall i :: 0 <= i < |members| ==> members[i].State().otherFlags == state.otherFlags
      ensures state == UntickedOn(UntickedOn(UntickedOn(old(state), Resolution640x480Box), DisableFullscreenOptimizationsBox),
                                  RunAsAdministratorBox)
      ensures store.Value() == old(store.Value())
      ensures forall i :: 0 <= i < |members| ==> SameEnums(members[i].State(), old(members[i].State()))
    {
      UntickStep(Resolution640x480Box, EnumBoxes, store);
      UntickStep(DisableFullscreenOptimizationsBox, EnumBoxes + {Resolution640x480Box}, store);
      UntickStep(RunAsAdministratorBox, EnumBoxes + {Resolution640x480Box, DisableFullscreenOptimizationsBox}, store);
      assert AllBoxes == EnumBoxes + {Resolution640x480Box, DisableFullscreenOptimizationsBox} + {RunAsAdministratorBox};
    }

    /** The member loop of `Clear`: each member gets a new, empty additional-flag list. */
    method ClearMemberFlags(store: LastUsedSettings)
      requires Valid()
      modifies store, members
      ensures forall i :: 0 <= i < |members| ==>
        members[i].State() == old(members[i].State()).(hasChanged := true) && members[i].additionalFlags == []
      ensures store.Value() == old(store.Value())
    {
      for j := 0 to |members|
        invariant store.Value() == old(store.Value())
        invariant forall i :: 0 <= i < j ==>
          members[i].State() == old(members[i].State()).(hasChanged := true) && members[i].additionalFlags == []
        invariant forall i :: j <= i < |members| ==> members[i].State() == old(members[i].State())
      {
        assert forall i :: 0 <= i < |members| && i != j ==> members[i] != members[j];
        members[j].Set(WriteAdditionalFlags([]), store);
      }
    }

    /**
     * One box of `Clear`: untick `box` on the aggregate. The boxes `done`
     * stay unticked on every member; `box` joins them; the aggregate's flag
     * set and each member's lose the bit of `box`, and a member's flags come
     * out equal to the aggregate's.
     */
    method UntickStep(box: Checkbox, done: set<Checkbox>, store: LastUsedSettings)
      requires Valid() && box !in done
      requires MembersUnticked(done)
      requires forall b :: b in done ==> state.Checked(b) == Some(false)
      requires forall b :: b in done && BoxFlag(b) != Flags.None ==>
        state.otherFlags & BoxFlag(b) == Flags.None
      requires forall b :: b in done && BoxFlag(b) != Flags.None ==>
        forall i :: 0 <= i < |members| ==> members[i].State().otherFlags == state.otherFlags
      modifies this, store, members
      ensures Valid() && additionalFlags == old(additionalFlags)
      ensures MembersUnticked(done + {box})
      ensures forall b :: b in done + {box} ==> state.Checked(b) == Some(false)
      ensures forall b :: b in done + {box} && BoxFlag(b) != Flags.None ==>
        state.otherFlags & BoxFlag(b) == Flags.None
      ensures forall b :: b in done + {box} && BoxFlag(b) != Flags.None ==>
        forall i :: 0 <= i < |members| ==> members[i].State().otherFlags == state.otherFlags
      ensures state == UntickedOn(old(state), box) && store.Value() == old(store.Value())
      ensures forall i :: 0 <= i < |members| ==> SameEnums(members[i].State(), old(members[i].State()))
    {
      ghost var a, last := state, store.Value();
      Set(WriteChecked(box, Some(false)), store);
      UntickOne(a, last, box);
      forall i | 0 <= i < |members|
        ensures members[i].State().Checked(box) == Some(false)
        ensures forall b :: b != box ==> members[i].State().Checked(b) == old(members[i].State()).Checked(b)
        ensures BoxFlag(box) != Flags.None ==> members[i].State().otherFlags == a.otherFlags & !BoxFlag(box)
        ensures BoxFlag(box) == Flags.None ==> members[i].State().otherFlags == old(members[i].State()).otherFlags
        ensures SameEnums(members[i].State(), old(members[i].State()))
      {
        UntickFansOut(a, last, old(members[i].State()), box);
      }
    }
  }

  /** No element appears twice. */
  predicate Distinct<T(==)>(xs: seq<T>) {
    forall i, j :: 0 <= i < j < |xs| ==> xs[i] != xs[j]
  }

  /** The three enums of two records agree. */
  predicate SameEnums(s: Settings, t: Settings) {
    s.compatibilityMode == t.compatibilityMode && s.colorMode == t.colorMode && s.dpiScaling == t.dpiScaling
  }

  /**
   * One box of `Clear` on a single record: the box unticked, its bit (if
   * any) cleared, and the record marked changed when the box moves.
   */
  function UntickedOn(s: Settings, box: Checkbox): Settings {
    s.WithChecked(box, Some(false)).(otherFlags := s.otherFlags & !BoxFlag(box),
                                    hasChanged := s.hasChanged || s.Checked(box) != Some(false))
  }

  /** The three enum boxes. */
  const EnumBoxes: set<Checkbox> := {CompatibilityModeBox, ColorModeBox, DPIScalingBox}

  /** The six boxes. */
  const AllBoxes: set<Checkbox> := {CompatibilityModeBox, ColorModeBox, DPIScalingBox,
                                    Resolution640x480Box, DisableFullscreenOptimizationsBox, RunAsAdministratorBox}

  /**
   * Unticking a box on the aggregate unticks it on a member and leaves the
   * member's other boxes; a flag box replaces the member's whole flag set
   * by the aggregate's without that bit.
   */
  lemma UntickFansOut(a: Settings, last: LastUsed, s: Settings, box: Checkbox)
    ensures var t := AssignAll(s, last, ChildWrites(a, last, WriteChecked(box, Some(false))));
      && t.Checked(box) == Some(false)
      && (forall b :: b != box ==> t.Checked(b) == s.Checked(b))
      && (BoxFlag(box) != Flags.None ==> t.otherFlags == a.otherFlags & !BoxFlag(box))
      && (BoxFlag(box) == Flags.None ==> t.otherFlags == s.otherFlags)
      && SameEnums(t, s)
  {
    var w := WriteChecked(box, Some(false));
    var ws := ChildWrites(a, last, w);
    var tail: seq<Write> := if OwnChanges(a, w) then [WriteHasChanged(true)] else [];
    AssignAllUnfold(s, last, ws);
    if BoxFlag(box) != Flags.None {
      var f := SetFlagProperty(a.otherFlags, BoxFlag(box), Some(false));
      assert ws == [WriteOtherFlags(f), w] + tail;
      UntickOne(Assign(s, last, WriteOtherFlags(f)), last, box);
    } else {
      assert ws == [w] + tail;
      UntickOne(s, last, box);
    }
  }

  /** Unticking a box on one record: that box reads unticked, the other boxes are kept, and a flag box clears its bit. */
  lemma UntickOne(s: Settings, last: LastUsed, box: Checkbox)
    ensures var t := Assign(s, last, WriteChecked(box, Some(false)));
      && t.Checked(box) == Some(false)
      && (forall b :: b != box ==> t.Checked(b) == s.Checked(b))
      && (BoxFlag(box) != Flags.None ==> t.otherFlags == s.otherFlags & !BoxFlag(box))
      && (BoxFlag(box) == Flags.None ==> t.otherFlags == s.otherFlags)
      && t == UntickedOn(s, box)
  {
  }

  /** Proof helper: every box is one of the six. */
  lemma EveryBox()
    ensures forall box :: box in AllBoxes
  {
    forall box ensures box in AllBoxes {
      match box
      case CompatibilityModeBox =>
      case ColorModeBox =>
      case DPIScalingBox =>
      case Resolution640x480Box =>
      case DisableFullscreenOptimizationsBox =>
      case RunAsAdministratorBox =>
    }
  }

  /** Proof helper: a record with every box unticked, no flag and the enums of `s`, marked changed, is `s` cleared. */
  lemma ClearedIs(t: Settings, s: Settings)
    requires forall box :: t.Checked(box) == Some(false)
    requires t.otherFlags == Flags.None && SameEnums(t, s) && t.hasChanged
    ensures t == ClearedState(s)
  {
    assert t.Checked(CompatibilityModeBox) == Some(false) && t.Checked(ColorModeBox) == Some(false);
    assert t.Checked(DPIScalingBox) == Some(false) && t.Checked(Resolution640x480Box) == Some(false);
    assert t.Checked(DisableFullscreenOptimizationsBox) == Some(false) && t.Checked(RunAsAdministratorBox) == Some(false);
  }

  /** Proof helper: `ClearedIs` for every member of `Clear`. */
  lemma MembersCleared(before: seq<Settings>, mid: seq<Settings>, after: seq<Settings>)
    requires |before| == |mid| == |after|
    requires forall i, box :: 0 <= i < |mid| ==> mid[i].Checked(box) == Some(false)
    requires forall i :: 0 <= i < |mid| ==> mid[i].otherFlags == Flags.None && SameEnums(mid[i], before[i])
    requires forall i :: 0 <= i < |mid| ==> after[i] == mid[i].(hasChanged := true)
    ensures forall i :: 0 <= i < |after| ==> after[i] == ClearedState(before[i])
  {
    forall i | 0 <= i < |after| ensures after[i] == ClearedState(before[i]) {
      forall box ensures after[i].Checked(box) == Some(false) {
        assert mid[i].Checked(box) == Some(false);
      }
      ClearedIs(after[i], before[i]);
    }
  }

  /**
   * The six unticks of `Clear` on the aggregate's own record: every box
   * unticked, every bit cleared, the enums kept, and the record marked
   * changed exactly when it was already or some box moved.
   */
  lemma UntickAllBoxes(s: Settings)
    ensures UntickedOn(UntickedOn(UntickedOn(UntickedOn(UntickedOn(UntickedOn(s,
              CompatibilityModeBox), ColorModeBox), DPIScalingBox), Resolution640x480Box),
              DisableFullscreenOptimizationsBox), RunAsAdministratorBox)
      == ClearedState(s).(hasChanged := s.hasChanged || exists box :: s.Checked(box) != Some(false))
  {
    var t3 := UntickedOn(UntickedOn(UntickedOn(s, CompatibilityModeBox), ColorModeBox), DPIScalingBox);
    assert t3.hasChanged == (s.hasChanged || s.Checked(CompatibilityModeBox) != Some(false)
      || s.Checked(ColorModeBox) != Some(false) || s.Checked(DPIScalingBox) != Some(false));
    var t6 := UntickedOn(UntickedOn(UntickedOn(t3, Resolution640x480Box), DisableFullscreenOptimizationsBox), RunAsAdministratorBox);
    assert t6.hasChanged == (t3.hasChanged || s.Checked(Resolution640x480Box) != Some(false)
      || s.Checked(DisableFullscreenOptimizationsBox) != Some(false) || s.Checked(RunAsAdministratorBox) != Some(false));
    assert (exists box :: s.Checked(box) != Some(false)) ==> t6.hasChanged by {
      if box :| s.Checked(box) != Some(false) {
        match box
        case CompatibilityModeBox =>
        case ColorModeBox =>
        case DPIScalingBox =>
        case Resolution640x480Box =>
        case DisableFullscreenOptimizationsBox =>
        case RunAsAdministratorBox =>
      }
    }
  }

  /** The writes of a child sequence, applied one after another from the front. */
  lemma {:induction false} AssignAllUnfold(s: Settings, last: LastUsed, ws: seq<Write>)
    ensures |ws| == 1 ==> AssignAll(s, last, ws) == Assign(s, last, ws[0])
    ensures |ws| == 2 ==> AssignAll(s, last, ws) == Assign(Assign(s, last, ws[0]), last, ws[1])
    ensures |ws| == 3 ==> AssignAll(s, last, ws) == Assign(Assign(Assign(s, last, ws[0]), last, ws[1]), last, ws[2])
  {
    if 1 <= |ws| <= 3 {
      var one := ws[..1];
      assert one[..0] == [] && one[0] == ws[0];
      assert AssignAll(s, last, one) == Assign(s, last, ws[0]);
      if |ws| >= 2 {
        var two := ws[..2];
        assert two[..1] == one && two[1] == ws[1];
        assert AssignAll(s, last, two) == Assign(Assign(s, last, ws[0]), last, ws[1]);
        if |ws| == 3 {
          assert ws[..2] == two;
        } else {
          assert ws == two;
        }
      } else {
        assert ws == one;
      }
    }
  }

  /**
   * What the constructor shows for non-empty members: an enum the members
   * all show, or `None` when two differ, and exactly the flags all members
   * have.
   */
  lemma AggregatedShows(states: seq<Settings>)
    requires states != []
    ensures var r := Aggregated(states);
      && ((forall i :: 0 <= i < |states| ==> states[i].CompatibilityMode() == states[0].CompatibilityMode()) ==> r.compatibilityMode == states[0].CompatibilityMode())
      && ((exists i :: 0 <= i < |states| && states[i].CompatibilityMode() != states[0].CompatibilityMode()) ==> r.compatibilityMode == CM.None)
      && ((forall i :: 0 <= i < |states| ==> states[i].ColorMode() == states[0].ColorMode()) ==> r.colorMode == states[0].ColorMode())
      && ((exists i :: 0 <= i < |states| && states[i].ColorMode() != states[0].ColorMode()) ==> r.colorMode == Color.None)
      && ((forall i :: 0 <= i < |states| ==> states[i].DPIScaling() == states[0].DPIScaling()) ==> r.dpiScaling == states[0].DPIScaling())
      && ((exists i :: 0 <= i < |states| && states[i].DPIScaling() != states[0].DPIScaling()) ==> r.dpiScaling == DPI.None)
      && (forall f :: Flags.HasFlag(r.otherFlags, f) <==> AllHave(FlagsOf(states), f))
  {
    var r := Aggregated(states);
    forall f ensures Flags.HasFlag(r.otherFlags, f) <==> AllHave(FlagsOf(states), f) {
      IntersectionPerBit(FlagsOf(states), f);
    }
  }

  /**
   * The constructor's six boxes for non-empty members, both ways: a box
   * value is one every member has, and a ticked box sits over a value that
   * is there; a value every member has is kept unless it is ticked over
   * nothing, and members that disagree give `null`.
   */
  lemma AggregatedBoxesShow(states: seq<Settings>)
    requires states != []
    ensures var r := Aggregated(states);
      && (forall box, b :: r.Checked(box) == Some(b) ==> forall i :: 0 <= i < |states| ==> states[i].Checked(box) == Some(b))
      && (forall box :: IsTicked(r.Checked(box)) ==> Present(r, box))
      && (forall box, b :: (forall i :: 0 <= i < |states| ==> states[i].Checked(box) == Some(b)) && (b ==> Present(r, box))
            ==> r.Checked(box) == Some(b))
      && (forall box :: (exists i :: 0 <= i < |states| && states[i].Checked(box) != states[0].Checked(box)) ==> r.Checked(box) == Option.None)
  {
    var r := Aggregated(states);
    forall box
      ensures forall b :: r.Checked(box) == Some(b) ==> forall i :: 0 <= i < |states| ==> states[i].Checked(box) == Some(b)
      ensures IsTicked(r.Checked(box)) ==> Present(r, box)
      ensures forall b ::
        (forall i :: 0 <= i < |states| ==> states[i].Checked(box) == Some(b)) && (b ==> Present(r, box)) ==> r.Checked(box) == Some(b)
      ensures (exists i :: 0 <= i < |states| && states[i].Checked(box) != states[0].Checked(box)) ==> r.Checked(box) == Option.None
    {
      AggregatedBoxShows(states, box);
    }
  }

  /**
   * One box of the constructor's aggregate: a value every member has, and
   * ticked only over a value that is there; conversely, a value every member
   * has is kept unless it is ticked over nothing, and members that disagree
   * give `null`.
   */
  lemma AggregatedBoxShows(states: seq<Settings>, box: Checkbox)
    requires states != []
    ensures var r := Aggregated(states);
      && (forall b :: r.Checked(box) == Some(b) ==> forall i :: 0 <= i < |states| ==> states[i].Checked(box) == Some(b))
      && (IsTicked(r.Checked(box)) ==> Present(r, box))
      && (forall b :: (forall i :: 0 <= i < |states| ==> states[i].Checked(box) == Some(b)) && (b ==> Present(r, box))
            ==> r.Checked(box) == Some(b))
      && ((exists i :: 0 <= i < |states| && states[i].Checked(box) != states[0].Checked(box)) ==> r.Checked(box) == Option.None)
  {
    var r := Aggregated(states);
    var v := Aggregate(BoxesOf(states, box), Option.None);
    assert r.Checked(box) == Collapse(v, Present(r, box)) by {
      match box
      case CompatibilityModeBox =>
      case ColorModeBox =>
      case DPIScalingBox =>
      case Resolution640x480Box =>
      case DisableFullscreenOptimizationsBox =>
      case RunAsAdministratorBox =>
    }
  }

  /**
   * A flag box written on the aggregate, as written: every member's whole
   * flag set becomes the aggregate's with that bit set or cleared, so bits
   * a member had apart from the others are lost; the member's box takes the
   * value.
   */
  lemma FlagBoxOverwrites(a: Settings, last: LastUsed, s: Settings, box: Checkbox, v: Option<bool>)
    requires BoxFlag(box) != Flags.None
    ensures var t := AssignAll(s, last, ChildWrites(a, last, WriteChecked(box, v)));
      && t.otherFlags == SetFlagProperty(a.otherFlags, BoxFlag(box), v)
      && t.Checked(box) == v
      && (forall b :: b != box ==> t.Checked(b) == s.Checked(b))
  {
    AssignAllUnfold(s, last, ChildWrites(a, last, WriteChecked(box, v)));
  }

  /**
   * For instance, a member running at 640x480 beside one that does not,
   * when "run as administrator" is ticked on the pair, loses 640x480 while
   * its 640x480 box stays ticked.
   */
  lemma RunAsAdministratorDropsOtherBits(last: LastUsed)
    ensures var member := Default.(otherFlags := Flags.RESOLUTION640X480, resolution640x480Checked := Some(true));
      var a := Aggregated([member, Default]);
      var t := AssignAll(member, last, ChildWrites(a, last, WriteChecked(RunAsAdministratorBox, Some(true))));
      && t.otherFlags == Flags.RUNASADMIN
      && !Flags.HasFlag(t.otherFlags, Flags.RESOLUTION640X480)
      && t.resolution640x480Checked == Some(true)
  {
    var member := Default.(otherFlags := Flags.RESOLUTION640X480, resolution640x480Checked := Some(true));
    var a := Aggregated([member, Default]);
    var flags := FlagsOf([member, Default]);
    assert flags == [Flags.RESOLUTION640X480, Flags.None] && flags[1..] == [Flags.None];
    assert a.otherFlags == Intersection(flags) == Flags.None;
    FlagBoxOverwrites(a, last, member, RunAsAdministratorBox, Some(true));
    assert Resolution640x480Box != RunAsAdministratorBox;
  }

  /**
   * Ticking the compatibility-mode box on the aggregate: when the
   * aggregate's own value is empty every member is first given the
   * last-used mode; either way a member then shows its stored mode, or the
   * last-used one if it has none. Unticking hides every member's mode.
   */
  lemma EnumBoxFansOut(a: Settings, last: LastUsed, s: Settings, v: Option<bool>)
    ensures var t := AssignAll(s, last, ChildWrites(a, last, WriteChecked(CompatibilityModeBox, v)));
      && t.compatibilityModeChecked == v
      && (IsTicked(v) && a.compatibilityMode == CM.None ==> t.CompatibilityMode() == last.compatibilityMode)
      && (IsTicked(v) && a.compatibilityMode != CM.None ==>
            t.CompatibilityMode() == (if s.compatibilityMode != CM.None then s.compatibilityMode else last.compatibilityMode))
      && (!IsTicked(v) ==> t.CompatibilityMode() == CM.None && t.compatibilityMode == s.compatibilityMode)
      && t.otherFlags == s.otherFlags
  {
    AssignAllUnfold(s, last, ChildWrites(a, last, WriteChecked(CompatibilityModeBox, v)));
  }

  /**
   * A value written on the aggregate reaches every member; when it changes
   * the aggregate's own value, every member is marked changed.
   */
  lemma ValueFansOut(a: Settings, last: LastUsed, s: Settings, w: Write)
    requires w.WriteCompatibilityMode? || w.WriteColorMode? || w.WriteDPIScaling? || w.WriteOtherFlags?
    ensures var t := AssignAll(s, last, ChildWrites(a, last, w));
      && (w.WriteCompatibilityMode? ==> t.compatibilityMode == w.compatibilityMode)
      && (w.WriteColorMode? ==> t.colorMode == w.colorMode)
      && (w.WriteDPIScaling? ==> t.dpiScaling == w.dpiScaling)
      && (w.WriteOtherFlags? ==> t.otherFlags == w.otherFlags)
      && (forall box :: t.Checked(box) == s.Checked(box))
      && (OwnChanges(a, w) ==> t.hasChanged)
  {
    AssignAllUnfold(s, last, ChildWrites(a, last, w));
  }
}

=== FILE: color_mode.dfy ===
/** The color-mode vocabulary, whose tokens come from `Description` attributes. */
module ColorModeServices {
  import opened Strings
  import EnumServices
  import EnumHelpers
  import Wrappers

  /** A reduced color depth for the application; `None` leaves it alone. */
  datatype ColorMode = None | COLOR256 | COLOR16BIT

  /** The members in declaration (ascending value) order with their attributes. */
  const Fields: seq<EnumServices.EnumField<ColorMode>> := [
    EnumServices.EnumField(None, "None", false, Wrappers.None),
    EnumServices.EnumField(COLOR256, "COLOR256", true, Wrappers.Some("256COLOR")),
    EnumServices.EnumField(COLOR16BIT, "COLOR16BIT", true, Wrappers.Some("BITCOLOR"))
  ]

  /**
   * The cached description table: `None` is not browsable and gets the empty
   * token; the other two members take their `Description` text, not their names.
   */
  const Descriptions: EnumServices.Table<ColorMode> := [(None, ""), (COLOR256, "256COLOR"), (COLOR16BIT, "BITCOLOR")]

  /** The table is the one `GetDescriptions` builds from the members' attributes. */
  lemma DescriptionsFromFields()
    ensures Descriptions == EnumServices.DescriptionTable(Fields)
    ensures EnumServices.GetDescription(Fields[1]) != Fields[1].name
  {
  }

  /** The member's position in the declaration, which is its table index. */
  function Ordinal(mode: ColorMode): (k: nat)
    ensures k < |Descriptions| && Descriptions[k].0 == mode
  {
    match mode
    case None => 0
    case COLOR256 => 1
    case COLOR16BIT => 2
  }

  /** Convert a color mode to its AppCompatFlags token. */
  function ToRegistryString(mode: ColorMode): (token: string)
    ensures (mode, token) in Descriptions
    ensures token == "" <==> mode == None
    ensures mode == COLOR256 ==> token == "256COLOR"
    ensures mode == COLOR16BIT ==> token == "BITCOLOR"
    ensures IsWord(token)
  {
    var k := Ordinal(mode);
    var token := EnumServices.ToRegistryString(mode, Descriptions);
    assert token == Descriptions[k].1;
    token
  }

  /** Convert an AppCompatFlags string to its color mode (substring decoder). */
  function FromRegistryString(registryString: string): (mode: ColorMode)
    ensures Contains(registryString, ToRegistryString(mode))
    ensures forall j :: Ordinal(mode) < j < |Descriptions| ==> !Contains(registryString, Descriptions[j].1)
  {
    var mode := EnumHelpers.FromRegistryString(registryString, Descriptions, None);
    assert OccursAt(registryString, Descriptions[0].1, 0);
    mode
  }

  /** Decoding the token of any color mode yields that mode. */
  lemma {:induction false} RoundTrip(mode: ColorMode)
    ensures FromRegistryString(ToRegistryString(mode)) == mode
  {
    var k := Ordinal(mode);
    forall j | k < j < |Descriptions| ensures !Contains(Descriptions[k].1, Descriptions[j].1) {
      NotContainsBySize(Descriptions[k].1, Descriptions[j].1);
    }
    EnumHelpers.DecodesEntry(Descriptions, None, k);
  }

  /** `"BITCOLOR"` decodes to `COLOR16BIT` and `"256COLOR"` to `COLOR256`. */
  lemma DecodesDescriptions()
    ensures FromRegistryString("BITCOLOR") == COLOR16BIT
    ensures FromRegistryString("256COLOR") == COLOR256
  {
    RoundTrip(COLOR16BIT);
    RoundTrip(COLOR256);
  }

  /** The substring decoder yields `None` exactly when neither token occurs in the string. */
  lemma DecodesToNone(registryString: string)
    ensures FromRegistryString(registryString) == None
      <==> !Contains(registryString, "256COLOR") && !Contains(registryString, "BITCOLOR")
  {
    EnumHelpers.DecodesToDefault(Descriptions, None, registryString);
    if !Contains(registryString, "256COLOR") && !Contains(registryString, "BITCOLOR") {
      forall j | 1 <= j < |Descriptions| ensures !Contains(registryString, Descriptions[j].1) {
        assert j == 1 || j == 2;
      }
    } else {
      assert Contains(registryString, Descriptions[1].1) || Contains(registryString, Descriptions[2].1);
    }
  }

  /** Every non-`None` token splits into itself. */
  lemma TokensSplit()
    ensures forall j :: 1 <= j < |Descriptions| ==> Split(Descriptions[j].1) == [Descriptions[j].1]
  {
    SplitWord(ToRegistryString(COLOR256));
    SplitWord(ToRegistryString(COLOR16BIT));
  }

  /** The words the token-list decoder recognises for this enum are exactly its tokens. */
  lemma VocabularyIs(w: string)
    ensures EnumServices.IsVocabulary(Descriptions, w) <==> exists j :: 0 <= j < |Descriptions| && Descriptions[j].1 == w
  {
    TokensSplit();
    EnumServices.VocabularyOfWords(Descriptions, w);
  }


  /** Every word of the vocabulary but the empty one starts with `2` or `B`. */
  lemma VocabularyInitials(w: string)
    ensures EnumServices.IsVocabulary(Descriptions, w) ==> w == "" || w[0] == '2' || w[0] == 'B'
  {
    TokensSplit();
    TokenInitials();
    EnumServices.VocabularyInitialsOf(Descriptions, w, "2B");
  }

  /** The first character of every token but the empty one. */
  lemma TokenInitials()
    ensures forall j :: 1 <= j < |Descriptions| ==> |Descriptions[j].1| > 0 && Descriptions[j].1[0] in "2B"
  {
  }


  /** The single empty word, which is what `None`'s token splits into, decodes to `None` and is used up. */
  lemma DecodesEmptyWord(l: seq<string>)
    requires l == [""]
    ensures EnumServices.Decode(Descriptions, None, l) == (None, [])
  {
    TokensSplit();
    EnumServices.DecodeEmptyWord(Descriptions, None, l);
  }

  /**
   * Among words foreign to this enum, the token-list decoder finds the mode's
   * token, removes it and leaves the foreign words in order; with no token
   * present it yields `None` and removes nothing.
   */
  lemma {:induction false} DecodesAmong(mode: ColorMode, pre: seq<string>, rest: seq<string>)
    requires EnumServices.Foreign(Descriptions, pre) && EnumServices.Foreign(Descriptions, rest)
    ensures EnumServices.Decode(Descriptions, None, pre + (if mode == None then [] else [ToRegistryString(mode)]) + rest)
      == (mode, pre + rest)
  {
    if mode == None {
      assert pre + [] + rest == pre + rest;
      EnumServices.DecodeForeign(Descriptions, None, pre + rest);
    } else {
      var k := Ordinal(mode);
      TokensSplit();
      TokensSeparated();
      EnumServices.DecodeEntry(Descriptions, None, k, pre, rest);
    }
  }

  /** The two single-word tokens differ, so neither entry's words are found in the other's. */
  lemma TokensSeparated()
    ensures EnumServices.Separated(Descriptions)
  {
    TokensSplit();
    assert "BITCOLOR" in Split(Descriptions[2].1);
  }
}

=== FILE: compatibility_mode.dfy ===
/** The compatibility-mode vocabulary and its codec wrappers. */
module CompatibilityModeServices {
  import opened Strings
  import EnumServices
  import EnumHelpers
  import Wrappers

  /** The Windows version an application is told it runs on; `None` leaves it alone. */
  datatype CompatibilityMode =
    | None
    | WIN95
    | WIN98
    | WINXPSP2
    | WINXPSP3
    | VISTARTM
    | VISTASP1
    | VISTASP2
    | WIN7RTM
    | WIN8RTM

  /** The members in declaration (ascending value) order with their attributes. */
  const Fields: seq<EnumServices.EnumField<CompatibilityMode>> := [
    EnumServices.EnumField(None, "None", false, Wrappers.None),
    EnumServices.EnumField(WIN95, "WIN95", true, Wrappers.None),
    EnumServices.EnumField(WIN98, "WIN98", true, Wrappers.None),
    EnumServices.EnumField(WINXPSP2, "WINXPSP2", true, Wrappers.None),
    EnumServices.EnumField(WINXPSP3, "WINXPSP3", true, Wrappers.None),
    EnumServices.EnumField(VISTARTM, "VISTARTM", true, Wrappers.None),
    EnumServices.EnumField(VISTASP1, "VISTASP1", true, Wrappers.None),
    EnumServices.EnumField(VISTASP2, "VISTASP2", true, Wrappers.None),
    EnumServices.EnumField(WIN7RTM, "WIN7RTM", true, Wrappers.None),
    EnumServices.EnumField(WIN8RTM, "WIN8RTM", true, Wrappers.None)
  ]

  /**
   * The cached description table: every member in declaration order; `None`
   * is not browsable and gets the empty token, every other member its name.
   */
  const Descriptions: EnumServices.Table<CompatibilityMode> := [
    (None, ""), (WIN95, "WIN95"), (WIN98, "WIN98"), (WINXPSP2, "WINXPSP2"),
    (WINXPSP3, "WINXPSP3"), (VISTARTM, "VISTARTM"), (VISTASP1, "VISTASP1"),
    (VISTASP2, "VISTASP2"), (WIN7RTM, "WIN7RTM"), (WIN8RTM, "WIN8RTM")]

  /** The table is the one `GetDescriptions` builds from the members' attributes. */
  lemma DescriptionsFromFields()
    ensures Descriptions == EnumServices.DescriptionTable(Fields)
  {
  }

  /** The member's position in the declaration, which is its table index. */
  function Ordinal(mode: CompatibilityMode): (k: nat)
    ensures k < |Descriptions| && Descriptions[k].0 == mode
  {
    match mode
    case None => 0
    case WIN95 => 1
    case WIN98 => 2
    case WINXPSP2 => 3
    case WINXPSP3 => 4
    case VISTARTM => 5
    case VISTASP1 => 6
    case VISTASP2 => 7
    case WIN7RTM => 8
    case WIN8RTM => 9
  }

  /** Keys are distinct, so an entry is found by its value alone. */
  lemma KeysDistinct()
    ensures forall i, j :: 0 <= i < j < |Descriptions| ==> Descriptions[i].0 != Descriptions[j].0
  {
  }

  /** Every token is a single word, empty only for `None`. */
  lemma TokensAreWords()
    ensures forall k :: 0 <= k < |Descriptions| ==> IsWord(Descriptions[k].1)
    ensures forall k :: 0 <= k < |Descriptions| ==> (Descriptions[k].1 == "" <==> k == 0)
  {
  }

  /** Convert a compatibility mode to its AppCompatFlags token. */
  function ToRegistryString(mode: CompatibilityMode): (token: string)
    ensures (mode, token) in Descriptions && token == Descriptions[Ordinal(mode)].1
    ensures token == "" <==> mode == None
    ensures IsWord(token)
  {
    var k := Ordinal(mode);
    var token := EnumServices.ToRegistryString(mode, Descriptions);
    assert token == Descriptions[k].1 by {
      KeysDistinct();
    }
    TokensAreWords();
    token
  }

  /** Every member but `None` is encoded as its own name, e.g. `WIN7RTM` as `"WIN7RTM"`. */
  lemma TokenIsName(mode: CompatibilityMode)
    ensures mode != None ==> ToRegistryString(mode) == Fields[Ordinal(mode)].name
    ensures mode == WIN7RTM ==> ToRegistryString(mode) == "WIN7RTM"
  {
    NamesAreTokens();
  }

  /** The tokens of the members but `None` are their names. */
  lemma NamesAreTokens()
    ensures forall j :: 1 <= j < |Fields| ==> Descriptions[j].1 == Fields[j].name
  {
  }

  /** Convert an AppCompatFlags string to its compatibility mode (substring decoder). */
  function FromRegistryString(registryString: string): (mode: CompatibilityMode)
    ensures Contains(registryString, ToRegistryString(mode))
    ensures forall j :: Ordinal(mode) < j < |Descriptions| ==> !Contains(registryString, Descriptions[j].1)
  {
    var mode := EnumHelpers.FromRegistryString(registryString, Descriptions, None);
    KeysDistinct();
    assert OccursAt(registryString, Descriptions[0].1, 0);
    mode
  }

  /** Tokens are distinct from each other. */
  lemma TokensDistinct()
    ensures forall i, j :: 0 <= i < j < |Descriptions| ==> Descriptions[i].1 != Descriptions[j].1
  {
  }

  /** Every non-`None` token splits into itself. */
  lemma TokensSplit()
    ensures forall j :: 1 <= j < |Descriptions| ==> Split(Descriptions[j].1) == [Descriptions[j].1]
  {
    TokensAreWords();
    forall j | 1 <= j < |Descriptions| ensures Split(Descriptions[j].1) == [Descriptions[j].1] {
      SplitWord(Descriptions[j].1);
    }
  }

  /** The words the token-list decoder recognises for this enum are exactly its tokens. */
  lemma VocabularyIs(w: string)
    ensures EnumServices.IsVocabulary(Descriptions, w) <==> exists j :: 0 <= j < |Descriptions| && Descriptions[j].1 == w
  {
    TokensSplit();
    EnumServices.VocabularyOfWords(Descriptions, w);
  }


  /** Every word of the vocabulary but the empty one starts with `W` or `V`. */
  lemma VocabularyInitials(w: string)
    ensures EnumServices.IsVocabulary(Descriptions, w) ==> w == "" || w[0] == 'W' || w[0] == 'V'
  {
    TokensSplit();
    TokenInitials();
    EnumServices.VocabularyInitialsOf(Descriptions, w, "WV");
  }

  /** The first letter of every token but the empty one. */
  lemma TokenInitials()
    ensures forall j :: 1 <= j < |Descriptions| ==> |Descriptions[j].1| > 0 && Descriptions[j].1[0] in "WV"
  {
  }

  /** The single empty word, which is what `None`'s token splits into, decodes to `None` and is used up. */
  lemma DecodesEmptyWord(l: seq<string>)
    requires l == [""]
    ensures EnumServices.Decode(Descriptions, None, l) == (None, [])
  {
    TokensSplit();
    TokensAreWords();
    EnumServices.DecodeEmptyWord(Descriptions, None, l);
  }

  /**
   * Among words foreign to this enum, the token-list decoder finds the mode's
   * token, removes it and leaves the foreign words in order; with no token
   * present it yields `None` and removes nothing.
   */
  lemma {:induction false} DecodesAmong(mode: CompatibilityMode, pre: seq<string>, rest: seq<string>)
    requires EnumServices.Foreign(Descriptions, pre) && EnumServices.Foreign(Descriptions, rest)
    ensures EnumServices.Decode(Descriptions, None, pre + (if mode == None then [] else [ToRegistryString(mode)]) + rest)
      == (mode, pre + rest)
  {
    if mode == None {
      assert pre + [] + rest == pre + rest;
      EnumServices.DecodeForeign(Descriptions, None, pre + rest);
    } else {
      var k := Ordinal(mode);
      KeysDistinct();
      assert ToRegistryString(mode) == Descriptions[k].1;
      TokensSplit();
      TokensSeparated();
      EnumServices.DecodeEntry(Descriptions, None, k, pre, rest);
    }
  }

  /** Distinct single-word tokens: no entry's words are all found in another's. */
  lemma TokensSeparated()
    ensures EnumServices.Separated(Descriptions)
  {
    TokensSplit();
    TokensDistinct();
    forall k, j | 1 <= k < j < |Descriptions|
      ensures !EnumServices.AllPresent(Split(Descriptions[j].1), Split(Descriptions[k].1))
    {
      assert Descriptions[j].1 in Split(Descriptions[j].1);
    }
  }

  /** The facts about token lengths and digits that keep one token out of another. */
  lemma TokenShapes()
    ensures |Descriptions[0].1| == 0
    ensures forall j :: 1 <= j < 3 ==> |Descriptions[j].1| == 5
    ensures forall j :: 3 <= j < 8 ==> |Descriptions[j].1| == 8 && '7' !in Descriptions[j].1 && '8' !in Descriptions[j].1
    ensures Descriptions[8].1[3] == '7' && Descriptions[9].1[3] == '8'
    ensures |Descriptions[8].1| == 7 && |Descriptions[9].1| == 7
  {
  }

  /** Decoding the token of any mode with the substring decoder yields that mode. */
  lemma {:induction false} RoundTrip(mode: CompatibilityMode)
    ensures FromRegistryString(ToRegistryString(mode)) == mode
  {
    var k := Ordinal(mode);
    KeysDistinct();
    assert ToRegistryString(mode) == Descriptions[k].1;
    TokenShapes();
    TokensDistinct();
    forall j | k < j < |Descriptions| ensures !Contains(Descriptions[k].1, Descriptions[j].1) {
      var s, t := Descriptions[k].1, Descriptions[j].1;
      if |t| >= |s| {
        NotContainsBySize(s, t);
      } else {
        NotContainsByChar(s, t, t[3]);
      }
    }
    EnumHelpers.DecodesEntry(Descriptions, None, k);
  }

  /** The substring decoder yields `None` exactly when no non-`None` token occurs in the string. */
  lemma DecodesToNone(registryString: string)
    ensures FromRegistryString(registryString) == None
      <==> forall j :: 1 <= j < |Descriptions| ==> !Contains(registryString, Descriptions[j].1)
  {
    EnumHelpers.DecodesToDefault(Descriptions, None, registryString);
  }
}

=== FILE: compatibility_view_model.dfy ===
/**
 * The older, simpler settings panel: plain (two-state) checkboxes whose
 * setters reset an enum to `None` when it is unticked, or toggle one bit of
 * `OtherFlags`, plus an `HKLMChecked` box that only stores its value.
 *
 * Prism's `SetProperty(ref storage, value, onChanged)` assigns and runs the
 * callback only when the value differs. The flag boxes call an `OtherFlags`
 * extension `SetFlag(flag, value)` whose body is not part of this model: it
 * is passed in as a `FlagSetter`, and `LawfulSetter` says what it must do
 * for the panel's boxes to keep agreeing with the bits.
 */
module CompatibilityViewModels {
  import CM = CompatibilityModeServices
  import Color = ColorModeServices
  import DPI = DPIScalingServices
  import Flags = OtherExtensions

  /** The seven checkboxes of the panel. */
  datatype Box =
    | CompatibilityModeBox
    | ColorModeBox
    | DPIScalingBox
    | Resolution640x480Box
    | DisableFullscreenOptimizationsBox
    | RunAsAdministratorBox
    | HKLMBox

  /** The bit a flag checkbox toggles; every other box toggles none. */
  function BoxFlag(box: Box): (flag: Flags.OtherFlags)
    ensures flag != Flags.None <==> box.Resolution640x480Box? || box.DisableFullscreenOptimizationsBox? || box.RunAsAdministratorBox?
  {
    match box
    case Resolution640x480Box => Flags.RESOLUTION640X480
    case DisableFullscreenOptimizationsBox => Flags.DISABLEDXMAXIMIZEDWINDOWEDMODE
    case RunAsAdministratorBox => Flags.RUNASADMIN
    case _ => Flags.None
  }

  /** `value.SetFlag(flag, on)`: the extension the flag boxes call. */
  type FlagSetter = (Flags.OtherFlags, Flags.OtherFlags, bool) -> Flags.OtherFlags

  /** A `SetFlag` that sets the flag's bits when `on`, clears them otherwise, and keeps every other bit. */
  ghost predicate LawfulSetter(setFlag: FlagSetter) {
    forall value: Flags.OtherFlags, flag: Flags.OtherFlags, on: bool ::
      && setFlag(value, flag, on) & flag == (if on then flag else Flags.None)
      && setFlag(value, flag, on) & !flag == value & !flag
  }

  /** Every field of the panel. */
  datatype Compatibility = Compatibility(
    compatibilityModeChecked: bool,
    colorModeChecked: bool,
    dpiScalingChecked: bool,
    resolution640x480Checked: bool,
    disableFullscreenOptimizationsChecked: bool,
    runAsAdministratorChecked: bool,
    hklmChecked: bool,
    compatibilityMode: CM.CompatibilityMode,
    colorMode: Color.ColorMode,
    dpiScaling: DPI.DPIScaling,
    otherFlags: Flags.OtherFlags)
  {
    /** Whether `box` is ticked. */
    function Checked(box: Box): bool {
      match box
      case CompatibilityModeBox => compatibilityModeChecked
      case ColorModeBox => colorModeChecked
      case DPIScalingBox => dpiScalingChecked
      case Resolution640x480Box => resolution640x480Checked
      case DisableFullscreenOptimizationsBox => disableFullscreenOptimizationsChecked
      case RunAsAdministratorBox => runAsAdministratorChecked
      case HKLMBox => hklmChecked
    }

    /** The panel with one checkbox's backing field replaced. */
    function WithChecked(box: Box, value: bool): (r: Compatibility)
      ensures r.Checked(box) == value
      ensures forall other :: other != box ==> r.Checked(other) == Checked(other)
      ensures r.compatibilityMode == compatibilityMode && r.colorMode == colorMode
      ensures r.dpiScaling == dpiScaling && r.otherFlags == otherFlags
    {
      match box
      case CompatibilityModeBox => this.(compatibilityModeChecked := value)
      case ColorModeBox => this.(colorModeChecked := value)
      case DPIScalingBox => this.(dpiScalingChecked := value)
      case Resolution640x480Box => this.(resolution640x480Checked := value)
      case DisableFullscreenOptimizationsBox => this.(disableFullscreenOptimizationsChecked := value)
      case RunAsAdministratorBox => this.(runAsAdministratorChecked := value)
      case HKLMBox => this.(hklmChecked := value)
    }
  }

  /** A freshly created panel: every field at its .NET default. */
  const Default := Compatibility(false, false, false, false, false, false, false, CM.None, Color.None, DPI.None, Flags.None)

  /**
   * The boxes agree with the values: an unticked enum box leaves its enum
   * at `None`, and a flag box is ticked exactly when its bit is set.
   */
  predicate Coherent(s: Compatibility) {
    && (!s.compatibilityModeChecked ==> s.compatibilityMode == CM.None)
    && (!s.colorModeChecked ==> s.colorMode == Color.None)
    && (!s.dpiScalingChecked ==> s.dpiScaling == DPI.None)
    && (s.resolution640x480Checked <==> Flags.HasFlag(s.otherFlags, Flags.RESOLUTION640X480))
    && (s.disableFullscreenOptimizationsChecked <==> Flags.HasFlag(s.otherFlags, Flags.DISABLEDXMAXIMIZEDWINDOWEDMODE))
    && (s.runAsAdministratorChecked <==> Flags.HasFlag(s.otherFlags, Flags.RUNASADMIN))
  }

  /**
   * The callback a checkbox setter runs once the box has changed to
   * `value`: an unticked enum box resets its enum, a flag box runs `SetFlag`
   * with its bit, and `HKLMChecked` has none.
   */
  function Callback(s: Compatibility, box: Box, value: bool, setFlag: FlagSetter): (r: Compatibility)
    ensures r.(compatibilityMode := s.compatibilityMode, colorMode := s.colorMode,
               dpiScaling := s.dpiScaling, otherFlags := s.otherFlags) == s
  {
    match box
    case CompatibilityModeBox => if value then s else s.(compatibilityMode := CM.None)
    case ColorModeBox => if value then s else s.(colorMode := Color.None)
    case DPIScalingBox => if value then s else s.(dpiScaling := DPI.None)
    case Resolution640x480Box => s.(otherFlags := setFlag(s.otherFlags, Flags.RESOLUTION640X480, value))
    case DisableFullscreenOptimizationsBox => s.(otherFlags := setFlag(s.otherFlags, Flags.DISABLEDXMAXIMIZEDWINDOWEDMODE, value))
    case RunAsAdministratorBox => s.(otherFlags := setFlag(s.otherFlags, Flags.RUNASADMIN, value))
    case HKLMBox => s
  }

  /**
   * The panel after one checkbox setter: nothing happens when the value is
   * the stored one; otherwise the box is stored and its callback runs.
   */
  function Toggled(s: Compatibility, box: Box, value: bool, setFlag: FlagSetter): (r: Compatibility)
    ensures r.Checked(box) == value
  {
    if s.Checked(box) == value then s
    else Callback(s.WithChecked(box, value), box, value, setFlag)
  }

  /** The panel object; its auto-properties are plain fields that anyone may assign. */
  class CompatibilityViewModel {
    var compatibilityModeChecked: bool
    var colorModeChecked: bool
    var dpiScalingChecked: bool
    var resolution640x480Checked: bool
    var disableFullscreenOptimizationsChecked: bool
    var runAsAdministratorChecked: bool
    var hklmChecked: bool
    var compatibilityMode: CM.CompatibilityMode
    var colorMode: Color.ColorMode
    var dpiScaling: DPI.DPIScaling
    var otherFlags: Flags.OtherFlags

    /** The fields, as a record. */
    function State(): Compatibility
      reads this
    {
      Compatibility(compatibilityModeChecked, colorModeChecked, dpiScalingChecked,
        resolution640x480Checked, disableFullscreenOptimizationsChecked, runAsAdministratorChecked,
        hklmChecked, compatibilityMode, colorMode, dpiScaling, otherFlags)
    }

    constructor ()
      ensures State() == Default && Coherent(State())
    {
      compatibilityModeChecked, colorModeChecked, dpiScalingChecked := false, false, false;
      resolution640x480Checked, disableFullscreenOptimizationsChecked, runAsAdministratorChecked := false, false, false;
      hklmChecked := false;
      compatibilityMode, colorMode, dpiScaling, otherFlags := CM.None, Color.None, DPI.None, Flags.None;
    }

    /**
     * The setter of one checkbox property: `SetProperty` stores the value
     * and, when it differs from the stored one, runs the box's callback
     * (`SetFlag` is used by the flag boxes only).
     */
    method SetChecked(box: Box, value: bool, setFlag: FlagSetter)
      modifies this
      ensures State() == Toggled(old(State()), box, value, setFlag)
    {
      if State().Checked(box) != value {
        StoreChecked(box, value);
        RunCallback(box, value, setFlag);
      }
    }

    /** The assignment to the box's backing field. */
    method StoreChecked(box: Box, value: bool)
      modifies this
      ensures State() == old(State()).WithChecked(box, value)
    {
      match box
      case CompatibilityModeBox => compatibilityModeChecked := value;
      case ColorModeBox => colorModeChecked := value;
      case DPIScalingBox => dpiScalingChecked := value;
      case Resolution640x480Box => resolution640x480Checked := value;
      case DisableFullscreenOptimizationsBox => disableFullscreenOptimizationsChecked := value;
      case RunAsAdministratorBox => runAsAdministratorChecked := value;
      case HKLMBox => hklmChecked := value;
    }

    /** The box's `onChanged` action. */
    method RunCallback(box: Box, value: bool, setFlag: FlagSetter)
      modifies this
      ensures State() == Callback(old(State()), box, value, setFlag)
    {
      match box
      case CompatibilityModeBox => if !value { compatibilityMode := CM.None; }
      case ColorModeBox => if !value { colorMode := Color.None; }
      case DPIScalingBox => if !value { dpiScaling := DPI.None; }
      case Resolution640x480Box => otherFlags := setFlag(otherFlags, Flags.RESOLUTION640X480, value);
      case DisableFullscreenOptimizationsBox => otherFlags := setFlag(otherFlags, Flags.DISABLEDXMAXIMIZEDWINDOWEDMODE, value);
      case RunAsAdministratorBox => otherFlags := setFlag(otherFlags, Flags.RUNASADMIN, value);
      case HKLMBox =>
    }
  }

  /** Unticking a ticked enum box resets its enum to `None`; nothing but that box and enum changes. */
  lemma UntickResetsEnum(s: Compatibility, box: Box, setFlag: FlagSetter)
    requires box.CompatibilityModeBox? || box.ColorModeBox? || box.DPIScalingBox?
    requires s.Checked(box)
    ensures var r := Toggled(s, box, false, setFlag);
      && (box.CompatibilityModeBox? ==> r == s.(compatibilityModeChecked := false, compatibilityMode := CM.None))
      && (box.ColorModeBox? ==> r == s.(colorModeChecked := false, colorMode := Color.None))
      && (box.DPIScalingBox? ==> r == s.(dpiScalingChecked := false, dpiScaling := DPI.None))
  {
  }

  /**
   * Ticking an enum box never touches the enum; neither does unticking a
   * box that is already unticked, since then the callback does not run.
   */
  lemma EnumKeptUnlessUnticked(s: Compatibility, box: Box, value: bool, setFlag: FlagSetter)
    requires box.CompatibilityModeBox? || box.ColorModeBox? || box.DPIScalingBox?
    requires value || !s.Checked(box)
    ensures Toggled(s, box, value, setFlag) == s.WithChecked(box, value)
  {
  }

  /** A flag box changes its own field and `OtherFlags`, the latter through `SetFlag` with its own bit. */
  lemma FlagBoxOnlyTouchesFlags(s: Compatibility, box: Box, value: bool, setFlag: FlagSetter)
    requires BoxFlag(box) != Flags.None
    ensures var r := Toggled(s, box, value, setFlag);
      && r.compatibilityMode == s.compatibilityMode && r.colorMode == s.colorMode && r.dpiScaling == s.dpiScaling
      && r.otherFlags == (if s.Checked(box) == value then s.otherFlags else setFlag(s.otherFlags, BoxFlag(box), value))
  {
    if s.Checked(box) != value {
      var t := s.WithChecked(box, value);
      match box
      case Resolution640x480Box =>
        assert Callback(t, box, value, setFlag) == t.(otherFlags := setFlag(t.otherFlags, BoxFlag(box), value));
      case DisableFullscreenOptimizationsBox =>
        assert Callback(t, box, value, setFlag) == t.(otherFlags := setFlag(t.otherFlags, BoxFlag(box), value));
      case RunAsAdministratorBox =>
        assert Callback(t, box, value, setFlag) == t.(otherFlags := setFlag(t.otherFlags, BoxFlag(box), value));
    }
  }

  /** A checkbox setter leaves every other checkbox as it was. */
  lemma OtherBoxesKept(s: Compatibility, box: Box, value: bool, setFlag: FlagSetter)
    ensures forall other :: other != box ==> Toggled(s, box, value, setFlag).Checked(other) == s.Checked(other)
  {
    if s.Checked(box) != value {
      var t := s.WithChecked(box, value);
      var r := Callback(t, box, value, setFlag);
      forall other | other != box
        ensures r.Checked(other) == s.Checked(other)
      {
        CallbackKeepsBoxes(t, box, value, setFlag, other);
      }
    }
  }

  /** The callback changes no checkbox. */
  lemma CallbackKeepsBoxes(s: Compatibility, box: Box, value: bool, setFlag: FlagSetter, other: Box)
    ensures Callback(s, box, value, setFlag).Checked(other) == s.Checked(other)
  {
    var r := Callback(s, box, value, setFlag);
    assert r.compatibilityModeChecked == s.compatibilityModeChecked;
    assert r.colorModeChecked == s.colorModeChecked;
    assert r.dpiScalingChecked == s.dpiScalingChecked;
    assert r.resolution640x480Checked == s.resolution640x480Checked;
    assert r.disableFullscreenOptimizationsChecked == s.disableFullscreenOptimizationsChecked;
    assert r.runAsAdministratorChecked == s.runAsAdministratorChecked;
    assert r.hklmChecked == s.hklmChecked;
  }

  /** `HKLMChecked` is plain storage: only its own field changes. */
  lemma HKLMIsStorage(s: Compatibility, value: bool, setFlag: FlagSetter)
    ensures Toggled(s, HKLMBox, value, setFlag) == s.(hklmChecked := value)
  {
  }

  /** With a lawful `SetFlag`, every checkbox setter keeps the boxes agreeing with the values. */
  lemma ToggledStaysCoherent(s: Compatibility, box: Box, value: bool, setFlag: FlagSetter)
    requires LawfulSetter(setFlag) && Coherent(s)
    ensures Coherent(Toggled(s, box, value, setFlag))
  {
    if s.Checked(box) != value {
      var r := Toggled(s, box, value, setFlag);
      match box
      case CompatibilityModeBox =>
        assert r == s.(compatibilityModeChecked := value, compatibilityMode := if value then s.compatibilityMode else CM.None);
      case ColorModeBox =>
        assert r == s.(colorModeChecked := value, colorMode := if value then s.colorMode else Color.None);
      case DPIScalingBox =>
        assert r == s.(dpiScalingChecked := value, dpiScaling := if value then s.dpiScaling else DPI.None);
      case HKLMBox =>
        assert r == s.(hklmChecked := value);
      case Resolution640x480Box =>
        FlagToggleCoherent(s, box, value, setFlag);
      case DisableFullscreenOptimizationsBox =>
        FlagToggleCoherent(s, box, value, setFlag);
      case RunAsAdministratorBox =>
        FlagToggleCoherent(s, box, value, setFlag);
    }
  }

  /** A flag box's change, with a lawful `SetFlag`, moves its bit with it and no other bit. */
  lemma FlagToggleCoherent(s: Compatibility, box: Box, value: bool, setFlag: FlagSetter)
    requires LawfulSetter(setFlag) && Coherent(s)
    requires BoxFlag(box) != Flags.None && s.Checked(box) != value
    ensures Coherent(Toggled(s, box, value, setFlag))
  {
    var r := Toggled(s, box, value, setFlag);
    var flag := BoxFlag(box);
    var f := setFlag(s.otherFlags, flag, value);
    assert f & flag == (if value then flag else Flags.None);
    assert f & !flag == s.otherFlags & !flag;
    FlagBoxOnlyTouchesFlags(s, box, value, setFlag);
    assert r.otherFlags == f;
    BitOfSetter(s.otherFlags, f, flag, value, Flags.RESOLUTION640X480);
    BitOfSetter(s.otherFlags, f, flag, value, Flags.DISABLEDXMAXIMIZEDWINDOWEDMODE);
    BitOfSetter(s.otherFlags, f, flag, value, Flags.RUNASADMIN);
  }

  /** How a single-bit flag reads after its own bit is set to `on`, or after another bit is. */
  lemma BitOfSetter(before: Flags.OtherFlags, after: Flags.OtherFlags, flag: Flags.OtherFlags, on: bool, other: Flags.OtherFlags)
    requires flag == Flags.RESOLUTION640X480 || flag == Flags.DISABLEDXMAXIMIZEDWINDOWEDMODE || flag == Flags.RUNASADMIN
    requires other == Flags.RESOLUTION640X480 || other == Flags.DISABLEDXMAXIMIZEDWINDOWEDMODE || other == Flags.RUNASADMIN
    requires after & flag == (if on then flag else Flags.None)
    requires after & !flag == before & !flag
    ensures Flags.HasFlag(after, other) == (if other == flag then on else Flags.HasFlag(before, other))
  {
  }

  /** Setting the same box twice to the same value is the same as setting it once. */
  lemma ToggledIdempotent(s: Compatibility, box: Box, value: bool, setFlag: FlagSetter)
    ensures Toggled(Toggled(s, box, value, setFlag), box, value, setFlag) == Toggled(s, box, value, setFlag)
  {
  }
}

=== FILE: dpi_scaling.dfy ===
/**
 * The DPI-scaling vocabulary. One member's token is two words, one of which
 * is another member's whole token; this is why the token-list decoder
 * exists, and this enum's wrapper uses it.
 */
module DPIScalingServices {
  import opened Strings
  import EnumServices
  import EnumHelpers
  import Wrappers

  /** How Windows scales the application on high-DPI displays; `None` leaves it alone. */
  datatype DPIScaling = None | HIGHDPIAWARE | DPIUNAWARE | GDIDPISCALING

  /** The members in declaration (ascending value) order with their attributes. */
  const Fields: seq<EnumServices.EnumField<DPIScaling>> := [
    EnumServices.EnumField(None, "None", false, Wrappers.None),
    EnumServices.EnumField(HIGHDPIAWARE, "HIGHDPIAWARE", true, Wrappers.None),
    EnumServices.EnumField(DPIUNAWARE, "DPIUNAWARE", true, Wrappers.None),
    EnumServices.EnumField(GDIDPISCALING, "GDIDPISCALING", true, Wrappers.Some("GDIDPISCALING DPIUNAWARE"))
  ]

  /**
   * The cached description table. `GDIDPISCALING` has the highest value and
   * so comes last, where a reverse scan meets it first.
   */
  const Descriptions: EnumServices.Table<DPIScaling> :=
    [(None, ""), (HIGHDPIAWARE, "HIGHDPIAWARE"), (DPIUNAWARE, "DPIUNAWARE"), (GDIDPISCALING, "GDIDPISCALING DPIUNAWARE")]

  /** The table is the one `GetDescriptions` builds from the members' attributes. */
  lemma DescriptionsFromFields()
    ensures Descriptions == EnumServices.DescriptionTable(Fields)
  {
  }

  /** The member's position in the declaration, which is its table index. */
  function Ordinal(scaling: DPIScaling): (k: nat)
    ensures k < |Descriptions| && Descriptions[k].0 == scaling
  {
    match scaling
    case None => 0
    case HIGHDPIAWARE => 1
    case DPIUNAWARE => 2
    case GDIDPISCALING => 3
  }

  /** Convert a DPI-scaling value to its AppCompatFlags token. */
  function ToRegistryString(scaling: DPIScaling): (token: string)
    ensures (scaling, token) in Descriptions
    ensures token == "" <==> scaling == None
    ensures scaling == HIGHDPIAWARE ==> token == "HIGHDPIAWARE"
    ensures scaling == DPIUNAWARE ==> token == "DPIUNAWARE"
    ensures scaling == GDIDPISCALING ==> token == "GDIDPISCALING DPIUNAWARE"
  {
    var k := Ordinal(scaling);
    var token := EnumServices.ToRegistryString(scaling, Descriptions);
    assert token == Descriptions[k].1;
    token
  }

  /**
   * Convert the words of an AppCompatFlags string to a DPI-scaling value;
   * the caller's list comes back as `remaining`, without the words used.
   */
  method FromRegistryString(substrings: seq<string>) returns (scaling: DPIScaling, remaining: seq<string>)
    ensures (scaling, remaining) == EnumServices.Decode(Descriptions, None, substrings)
  {
    scaling, remaining := EnumServices.FromRegistryString(substrings, Descriptions, None);
  }

  /** The words of each token. */
  lemma TokenWords()
    ensures Split(Descriptions[0].1) == [""]
    ensures Split(Descriptions[1].1) == ["HIGHDPIAWARE"]
    ensures Split(Descriptions[2].1) == ["DPIUNAWARE"]
    ensures Split(Descriptions[3].1) == ["GDIDPISCALING", "DPIUNAWARE"]
  {
    WordIsItsSplit(Descriptions[1].1);
    WordIsItsSplit(Descriptions[2].1);
    TwoWordSplit(Descriptions[3].1);
  }

  /** Proof helper: a one-word token splits into itself. */
  lemma WordIsItsSplit(s: string)
    requires s == "HIGHDPIAWARE" || s == "DPIUNAWARE"
    ensures Split(s) == [s]
  {
    SplitWord(s);
  }

  /** Proof helper: the two-word token splits at its space. */
  lemma TwoWordSplit(s: string)
    requires s == "GDIDPISCALING DPIUNAWARE"
    ensures Split(s) == ["GDIDPISCALING", "DPIUNAWARE"]
  {
    var a, b := "GDIDPISCALING", "DPIUNAWARE";
    assert s == a + " " + b;
    SplitTwoWords(a, b);
  }

  /** `GDIDPISCALING`'s token holds `DPIUNAWARE`'s token as its second word. */
  lemma TokensOverlap()
    ensures Descriptions[2].1 in Split(Descriptions[3].1)
  {
    TokenWords();
  }

  /** So `DPIUNAWARE`'s token is a substring of `GDIDPISCALING`'s. */
  lemma TokenContained()
    ensures Contains(Descriptions[3].1, Descriptions[2].1)
  {
    assert OccursAt(Descriptions[3].1, Descriptions[2].1, 14);
  }

  /** The words the token-list decoder recognises for this enum. */
  lemma VocabularyIs(w: string)
    ensures EnumServices.IsVocabulary(Descriptions, w) <==> w in ["", "HIGHDPIAWARE", "DPIUNAWARE", "GDIDPISCALING"]
  {
    TokenWords();
    if w == "GDIDPISCALING" {
      assert w in Split(Descriptions[3].1);
    } else if w == "HIGHDPIAWARE" {
      assert w in Split(Descriptions[1].1);
    } else if w == "DPIUNAWARE" {
      assert w in Split(Descriptions[2].1);
    } else if w != "" && EnumServices.IsVocabulary(Descriptions, w) {
      var j :| 1 <= j < |Descriptions| && w in Split(Descriptions[j].1);
      assert j == 1 || j == 2 || j == 3;
    }
  }

  /**
   * Among words foreign to this enum, the token-list decoder finds the words
   * of the value's token, removes them and leaves the foreign words in order;
   * with no token present it yields `None` and removes nothing.
   */
  lemma {:induction false} DecodesAmong(scaling: DPIScaling, pre: seq<string>, rest: seq<string>)
    requires EnumServices.Foreign(Descriptions, pre) && EnumServices.Foreign(Descriptions, rest)
    ensures EnumServices.Decode(Descriptions, None, pre + (if scaling == None then [] else Split(ToRegistryString(scaling))) + rest)
      == (scaling, pre + rest)
  {
    if scaling == None {
      assert pre + [] + rest == pre + rest;
      EnumServices.DecodeForeign(Descriptions, None, pre + rest);
    } else {
      var k := Ordinal(scaling);
      assert ToRegistryString(scaling) == Descriptions[k].1;
      TokensSeparated();
      EnumServices.DecodeEntry(Descriptions, None, k, pre, rest);
    }
  }

  /** No entry's words are all found among a lower non-`None` entry's words. */
  lemma TokensSeparated()
    ensures EnumServices.Separated(Descriptions)
  {
    TokenWords();
    SeparatedByWords(Descriptions);
  }

  /** Separation follows from the words alone: each higher entry has a word the lower ones lack. */
  lemma SeparatedByWords(d: EnumServices.Table<DPIScaling>)
    requires |d| == 4
    requires Split(d[1].1) == ["HIGHDPIAWARE"] && Split(d[2].1) == ["DPIUNAWARE"]
    requires Split(d[3].1) == ["GDIDPISCALING", "DPIUNAWARE"]
    ensures EnumServices.Separated(d)
  {
    forall k, j | 1 <= k < j < |d|
      ensures !EnumServices.AllPresent(Split(d[j].1), Split(d[k].1))
    {
      var w := if j == 2 then "DPIUNAWARE" else "GDIDPISCALING";
      assert w in Split(d[j].1);
    }
  }

  /**
   * The token-list decoder reads every value back from the words of its own
   * token and leaves nothing over; for `GDIDPISCALING` it is not misled by
   * the `DPIUNAWARE` word its token contains.
   */
  lemma {:induction false} RoundTrip(scaling: DPIScaling)
    ensures EnumServices.Decode(Descriptions, None, Split(ToRegistryString(scaling))) == (scaling, [])
  {
    if scaling == None {
      var t := ToRegistryString(scaling);
      assert t == "";
      DecodesEmptyWord(Split(t));
    } else {
      DecodesOwnWords(scaling);
    }
  }

  /** The words of a non-`None` scaling decode back to it and are all used up. */
  lemma DecodesOwnWords(scaling: DPIScaling)
    requires scaling != None
    ensures EnumServices.Decode(Descriptions, None, Split(ToRegistryString(scaling))) == (scaling, [])
  {
    var k := Ordinal(scaling);
    TokensSeparated();
    EnumServices.DecodeEntryAlone(Descriptions, None, k);
  }

  /** The single empty word, which is what `None`'s token splits into, decodes to `None` and is used up. */
  lemma DecodesEmptyWord(l: seq<string>)
    requires l == [""]
    ensures EnumServices.Decode(Descriptions, None, l) == (None, [])
  {
    TokenWords();
    forall j | 1 <= j < |Descriptions| ensures Split(Descriptions[j].1)[0] != "" {
      assert j == 1 || j == 2 || j == 3;
    }
    EnumServices.DecodeEmptyWord(Descriptions, None, l);
  }

  /** The list `["GDIDPISCALING", "DPIUNAWARE"]` decodes to `GDIDPISCALING` and ends empty. */
  lemma DecodesTwoWordToken()
    ensures EnumServices.Decode(Descriptions, None, ["GDIDPISCALING", "DPIUNAWARE"]) == (GDIDPISCALING, [])
  {
    RoundTrip(GDIDPISCALING);
    TokenWords();
  }

  /** The substring decoder also reads `"GDIDPISCALING DPIUNAWARE"` as `GDIDPISCALING`, not `DPIUNAWARE`. */
  lemma SubstringDecodesTwoWordToken()
    ensures EnumHelpers.FromRegistryString("GDIDPISCALING DPIUNAWARE", Descriptions, None) == GDIDPISCALING
  {
    EnumHelpers.DecodesEntry(Descriptions, None, 3);
  }
}

=== FILE: enum_helpers.dfy ===
/**
 * The older substring decoder: a registry string decodes to the last table
 * entry whose description occurs anywhere in it. The description rule, the
 * table and the lookup of this revision are the same as in `EnumServices`
 * and are used from there.
 */
module EnumHelpers {
  import opened Strings
  import opened EnumServices

  /** The index of the last entry below `n` whose description occurs in `s`, or -1. */
  function LastContained<E>(descriptions: Table<E>, s: string, n: nat): (k: int)
    requires n <= |descriptions|
    ensures -1 <= k < n
    ensures k >= 0 ==> Contains(s, descriptions[k].1)
    ensures forall j :: k < j < n ==> !Contains(s, descriptions[j].1)
  {
    if n == 0 then -1
    else if Contains(s, descriptions[n - 1].1) then n - 1
    else LastContained(descriptions, s, n - 1)
  }

  /**
   * `FromRegistryString(registryString, descriptions)`: the key of the last
   * entry of `descriptions.Where(kvp => registryString.Contains(kvp.Value))`,
   * or `default(TEnum)` when that is empty.
   */
  function FromRegistryString<E>(registryString: string, descriptions: Table<E>, default: E): (r: E)
    ensures (forall j :: 0 <= j < |descriptions| ==> !Contains(registryString, descriptions[j].1)) ==> r == default
    ensures (exists j :: 0 <= j < |descriptions| && Contains(registryString, descriptions[j].1)) ==>
      exists k :: 0 <= k < |descriptions| && r == descriptions[k].0 && Contains(registryString, descriptions[k].1)
        && forall j :: k < j < |descriptions| ==> !Contains(registryString, descriptions[j].1)
  {
    var k := LastContained(descriptions, registryString, |descriptions|);
    if k < 0 then default else descriptions[k].0
  }

  /**
   * With the default's description empty, and so contained in every string,
   * the decoder returns the default exactly when no other entry's
   * description occurs in the string.
   */
  lemma {:induction false} DecodesToDefault<E>(descriptions: Table<E>, default: E, s: string)
    requires |descriptions| >= 1 && descriptions[0] == (default, "")
    requires forall j :: 1 <= j < |descriptions| ==> descriptions[j].0 != default
    ensures FromRegistryString(s, descriptions, default) == default
      <==> forall j :: 1 <= j < |descriptions| ==> !Contains(s, descriptions[j].1)
  {
    assert OccursAt(s, "", 0);
    var k := LastContained(descriptions, s, |descriptions|);
    assert k >= 0;
  }

  /**
   * An entry's own description decodes back to it when no later entry's
   * description occurs inside it.
   */
  lemma {:induction false} DecodesEntry<E>(descriptions: Table<E>, default: E, k: nat)
    requires k < |descriptions|
    requires forall j :: k < j < |descriptions| ==> !Contains(descriptions[k].1, descriptions[j].1)
    ensures FromRegistryString(descriptions[k].1, descriptions, default) == descriptions[k].0
  {
    var s := descriptions[k].1;
    assert OccursAt(s, s, 0);
    assert LastContained(descriptions, s, |descriptions|) == k;
  }
}

=== FILE: enum_services.dfy ===
/**
 * The generic enum codec: a description table per enum type, the lookup
 * that encodes a value and the token-list decoder that reads a value back
 * out of the words of a registry string. The reflection the source uses to
 * read `[Browsable]` and `[Description]` attributes is replaced by explicit
 * per-member metadata.
 */
module EnumServices {
  import opened Strings
  import Wrappers

  /** What reflection finds on one enum member: its value, its name and its attributes. */
  datatype EnumField<E> = EnumField(value: E, name: string, browsable: bool, description: Wrappers.Option<string>)

  /**
   * A description table: `Dictionary<TEnum, string>` in its enumeration
   * order, which is the order in which the entries were added.
   */
  type Table<E> = seq<(E, string)>

  /**
   * `GetDescription`: empty for a member marked `[Browsable(false)]`,
   * otherwise its `[Description]` text, otherwise its name. The empty token
   * thus marks the hidden members: a shown member with a non-empty name and
   * no empty `Description` never gets it.
   */
  function GetDescription<E>(field: EnumField<E>): (token: string)
    ensures !field.browsable ==> token == ""
    ensures field.browsable && field.name != "" && field.description != Wrappers.Some("") ==> token != ""
    ensures token == "" || token == field.name || field.description == Wrappers.Some(token)
    ensures field.browsable && field.description.Some? ==> token == field.description.value
    ensures field.browsable && field.description.None? ==> token == field.name
  {
    if !field.browsable then ""
    else match field.description
      case Some(text) => text
      case None => field.name
  }

  /** The table `GetDescriptions` builds from the members in `Enum.GetValues` order. */
  function DescriptionTable<E>(fields: seq<EnumField<E>>): Table<E> {
    seq(|fields|, i requires 0 <= i < |fields| => (fields[i].value, GetDescription(fields[i])))
  }

  /** No enum value is declared twice. */
  predicate DistinctValues<E(==)>(fields: seq<EnumField<E>>) {
    forall i, j :: 0 <= i < j < |fields| ==> fields[i].value != fields[j].value
  }

  /** `v` is the key of some row of `table`. */
  predicate IsKey<E(==)>(table: Table<E>, v: E) {
    exists k :: 0 <= k < |table| && table[k].0 == v
  }

  /**
   * `GetDescriptions`: one entry per enum member, added in ascending value
   * order. `Dictionary.Add` throws on a repeated key, so the members must
   * be distinct, as `Enum.GetValues` gives them for the enums here.
   */
  method GetDescriptions<E(==)>(fields: seq<EnumField<E>>) returns (descriptions: Table<E>)
    requires DistinctValues(fields)
    ensures |descriptions| == |fields|
    ensures forall i :: 0 <= i < |fields| ==>
      descriptions[i].0 == fields[i].value && descriptions[i].1 == GetDescription(fields[i])
    ensures descriptions == DescriptionTable(fields)
  {
    descriptions := [];
    for i := 0 to |fields|
      invariant descriptions == DescriptionTable(fields[..i])
    {
      assert fields[..i + 1] == fields[..i] + [fields[i]];
      descriptions := descriptions + [(fields[i].value, GetDescription(fields[i]))];
    }
    assert fields[..|fields|] == fields;
  }

  /**
   * `ToRegistryString(value, descriptions)`: the table entry for `value`
   * (`descriptions[value]`, which throws for a missing key).
   */
  function ToRegistryString<E(==)>(value: E, descriptions: Table<E>): (token: string)
    requires IsKey(descriptions, value)
    ensures (value, token) in descriptions
  {
    if descriptions[0].0 == value then descriptions[0].1
    else
      assert IsKey(descriptions[1..], value) by {
        var k :| 0 <= k < |descriptions| && descriptions[k].0 == value;
        assert descriptions[1..][k - 1] == descriptions[k];
      }
      ToRegistryString(value, descriptions[1..])
  }
  /**
   * Looking up a member in the table `GetDescriptions` builds gives that
   * member's description, and no member is listed twice.
   */
  lemma LookupGivesDescription<E>(fields: seq<EnumField<E>>, i: nat)
    requires DistinctValues(fields) && i < |fields|
    ensures var table := DescriptionTable(fields);
      && IsKey(table, fields[i].value)
      && ToRegistryString(fields[i].value, table) == GetDescription(fields[i])
      && forall j, k :: 0 <= j < k < |table| ==> table[j].0 != table[k].0
  {
    var table := DescriptionTable(fields);
    assert table[i].0 == fields[i].value;
    var token := ToRegistryString(fields[i].value, table);
    var k :| 0 <= k < |table| && table[k] == (fields[i].value, token);
    assert k == i;
  }


  /** The `match &= substrings.Contains(value)` test: every word is present. */
  predicate AllPresent(words: seq<string>, substrings: seq<string>) {
    forall w :: w in words ==> w in substrings
  }

  /** The entry at `k` fully matches: all words of its description are present. */
  predicate Matches<E>(descriptions: Table<E>, k: int, substrings: seq<string>)
    requires 0 <= k < |descriptions|
  {
    AllPresent(Split(descriptions[k].1), substrings)
  }

  /**
   * Scanning `descriptions.Reverse()` from entry `n - 1` down: the index of
   * the first fully matching entry, or -1 when none matches.
   */
  function MatchIndex<E>(descriptions: Table<E>, substrings: seq<string>, n: nat): (k: int)
    requires n <= |descriptions|
    ensures -1 <= k < n
    ensures k >= 0 ==> Matches(descriptions, k, substrings)
    ensures forall j :: k < j < n ==> !Matches(descriptions, j, substrings)
  {
    if n == 0 then -1
    else if Matches(descriptions, n - 1, substrings) then n - 1
    else MatchIndex(descriptions, substrings, n - 1)
  }

  /**
   * The value the token-list decoder returns and the list it leaves: the
   * highest-ordinal fully matching entry with its words removed once each,
   * or `default(TEnum)` and the list untouched.
   */
  function Decode<E>(descriptions: Table<E>, default: E, substrings: seq<string>): (E, seq<string>) {
    var k := MatchIndex(descriptions, substrings, |descriptions|);
    if k < 0 then (default, substrings)
    else (descriptions[k].0, RemoveAll(substrings, Split(descriptions[k].1)))
  }

  /**
   * `FromRegistryString(ref substrings, descriptions)`: the caller's list
   * goes in as `substrings` and comes back as `remaining`.
   */
  method FromRegistryString<E>(substrings: seq<string>, descriptions: Table<E>, default: E)
    returns (value: E, remaining: seq<string>)
    ensures (value, remaining) == Decode(descriptions, default, substrings)
  {
    var i := |descriptions|;
    while i > 0
      invariant 0 <= i <= |descriptions|
      invariant MatchIndex(descriptions, substrings, |descriptions|) == MatchIndex(descriptions, substrings, i)
    {
      var kvp := descriptions[i - 1];
      var values := Split(kvp.1);
      var matched := AllWordsPresent(values, substrings);
      if matched {
        remaining := RemoveWords(substrings, values);
        return kvp.0, remaining;
      }
      i := i - 1;
    }
    return default, substrings;
  }

  /** The first inner loop: every word of an entry is among the substrings. */
  method AllWordsPresent(values: seq<string>, substrings: seq<string>) returns (matched: bool)
    ensures matched == AllPresent(values, substrings)
  {
    matched := true;
    for j := 0 to |values|
      invariant matched == AllPresent(values[..j], substrings)
    {
      assert values[..j + 1] == values[..j] + [values[j]];
      matched := matched && values[j] in substrings;
    }
    assert values[..|values|] == values;
  }

  /** The second inner loop: the first occurrence of each word is removed, in order. */
  method RemoveWords(substrings: seq<string>, values: seq<string>) returns (remaining: seq<string>)
    ensures remaining == RemoveAll(substrings, values)
  {
    remaining := substrings;
    for j := 0 to |values|
      invariant remaining == RemoveAll(substrings, values[..j])
    {
      assert values[..j + 1][..j] == values[..j];
      remaining := RemoveFirst(remaining, values[j]);
    }
    assert values[..|values|] == values;
  }

  /** No entry's words overlap those of a lower non-default entry wholly. */
  predicate Separated<E>(descriptions: Table<E>) {
    forall k, j :: 1 <= k < j < |descriptions| ==>
      !AllPresent(Split(descriptions[j].1), Split(descriptions[k].1))
  }

  /** `w` is a word of some non-default entry's description, or the empty word. */
  predicate IsVocabulary<E>(descriptions: Table<E>, w: string) {
    w == "" || exists j :: 1 <= j < |descriptions| && w in Split(descriptions[j].1)
  }

  /** When every other token is a single word, the vocabulary is exactly the tokens. */
  lemma VocabularyOfWords<E>(descriptions: Table<E>, w: string)
    requires |descriptions| >= 1 && descriptions[0].1 == ""
    requires forall j :: 1 <= j < |descriptions| ==> Split(descriptions[j].1) == [descriptions[j].1]
    ensures IsVocabulary(descriptions, w) <==> exists j :: 0 <= j < |descriptions| && descriptions[j].1 == w
  {
    if j :| 0 <= j < |descriptions| && descriptions[j].1 == w {
      if j > 0 {
        assert w in Split(descriptions[j].1);
      }
    }
    if w == "" {
      assert descriptions[0].1 == w;
    } else if IsVocabulary(descriptions, w) {
      var j :| 1 <= j < |descriptions| && w in Split(descriptions[j].1);
      assert descriptions[j].1 == w;
    }
  }

  /** A non-empty vocabulary word starts with one of `initials` when every non-empty token does. */
  lemma VocabularyInitialsOf<E>(descriptions: Table<E>, w: string, initials: string)
    requires |descriptions| >= 1 && descriptions[0].1 == ""
    requires forall j :: 1 <= j < |descriptions| ==> Split(descriptions[j].1) == [descriptions[j].1]
    requires forall j :: 1 <= j < |descriptions| ==> |descriptions[j].1| > 0 && descriptions[j].1[0] in initials
    ensures IsVocabulary(descriptions, w) && w != "" ==> w[0] in initials
  {
    VocabularyOfWords(descriptions, w);
  }

  /** None of `words` belongs to the table's vocabulary. */
  predicate Foreign<E>(descriptions: Table<E>, words: seq<string>) {
    forall w :: w in words ==> !IsVocabulary(descriptions, w)
  }

  /**
   * Decoding a list that holds the words of entry `k` among foreign words
   * yields that entry's value and leaves exactly the foreign words, in order.
   */
  lemma {:induction false} DecodeEntry<E>(descriptions: Table<E>, default: E, k: nat, pre: seq<string>, rest: seq<string>)
    requires 1 <= k < |descriptions|
    requires Separated(descriptions)
    requires Foreign(descriptions, pre) && Foreign(descriptions, rest)
    ensures Decode(descriptions, default, pre + Split(descriptions[k].1) + rest) == (descriptions[k].0, pre + rest)
  {
    var words := Split(descriptions[k].1);
    var l := pre + words + rest;
    assert Matches(descriptions, k, l);
    forall j | k < j < |descriptions| ensures !Matches(descriptions, j, l) {
      var wj := Split(descriptions[j].1);
      assert !AllPresent(wj, words);
      var w :| w in wj && w !in words;
      assert IsVocabulary(descriptions, w);
    }
    HighestMatch(descriptions, l, k);
    forall w | w in words ensures w !in pre {
      assert IsVocabulary(descriptions, w);
    }
    RemoveAllMiddle(pre, words, rest);
  }

  /** An entry's words alone decode to that entry and are used up. */
  lemma DecodeEntryAlone<E>(descriptions: Table<E>, default: E, k: nat)
    requires 1 <= k < |descriptions|
    requires Separated(descriptions)
    ensures Decode(descriptions, default, Split(descriptions[k].1)) == (descriptions[k].0, [])
  {
    DecodeEntry(descriptions, default, k, [], []);
    assert [] + Split(descriptions[k].1) + [] == Split(descriptions[k].1);
  }

  /** A list of foreign words matches no entry and decodes to the default, untouched. */
  lemma {:induction false} DecodeForeign<E>(descriptions: Table<E>, default: E, l: seq<string>)
    requires |descriptions| >= 1 && descriptions[0].1 == ""
    requires Foreign(descriptions, l)
    ensures Decode(descriptions, default, l) == (default, l)
  {
    forall j | 0 <= j < |descriptions| ensures !Matches(descriptions, j, l) {
      var w := Split(descriptions[j].1)[0];
      assert IsVocabulary(descriptions, w);
    }
    NoMatch(descriptions, l, |descriptions|);
  }

  /**
   * The single empty word, which is what the default's empty description
   * splits into, decodes to the default and is used up, when every other
   * entry's first word is not empty.
   */
  lemma {:induction false} DecodeEmptyWord<E>(descriptions: Table<E>, default: E, l: seq<string>)
    requires l == [""]
    requires |descriptions| >= 1 && descriptions[0] == (default, "")
    requires forall j :: 1 <= j < |descriptions| ==> Split(descriptions[j].1)[0] != ""
    ensures Decode(descriptions, default, l) == (default, [])
  {
    assert Split("") == [""];
    assert Matches(descriptions, 0, l);
    forall j | 1 <= j < |descriptions| ensures !Matches(descriptions, j, l) {
      assert Split(descriptions[j].1)[0] in Split(descriptions[j].1);
    }
    HighestMatch(descriptions, l, 0);
    assert [""][..0] == [];
  }

  /** Proof helper: the search returns the highest entry whose words are all present. */
  lemma {:induction false} HighestMatch<E>(descriptions: Table<E>, substrings: seq<string>, k: nat)
    requires k < |descriptions| && Matches(descriptions, k, substrings)
    requires forall j :: k < j < |descriptions| ==> !Matches(descriptions, j, substrings)
    ensures MatchIndex(descriptions, substrings, |descriptions|) == k
  {
  }

  /** Proof helper: with no entry matching below `n`, the search finds nothing. */
  lemma {:induction false} NoMatch<E>(descriptions: Table<E>, substrings: seq<string>, n: nat)
    requires n <= |descriptions|
    requires forall j :: 0 <= j < n ==> !Matches(descriptions, j, substrings)
    ensures MatchIndex(descriptions, substrings, n) == -1
  {
  }

  /**
   * The decoder returns the default exactly when no non-default entry fully
   * matches; the list can then only lose one empty-string entry (the
   * default's description is empty and splits into one empty word).
   */
  lemma DecodeDefault<E>(descriptions: Table<E>, default: E, substrings: seq<string>)
    requires |descriptions| >= 1 && descriptions[0] == (default, "")
    requires forall j :: 1 <= j < |descriptions| ==> descriptions[j].0 != default
    ensures var (value, remaining) := Decode(descriptions, default, substrings);
      && (value == default <==> forall j :: 1 <= j < |descriptions| ==> !Matches(descriptions, j, substrings))
      && (value == default ==> remaining == RemoveFirst(substrings, ""))
  {
    var k := MatchIndex(descriptions, substrings, |descriptions|);
    assert Split("") == [""];
    if k < 0 {
      assert !Matches(descriptions, 0, substrings);
      assert "" !in substrings;
    } else if k == 0 {
      assert Split(descriptions[0].1) == [""];
      assert [""][..0] == [];
      assert RemoveAll(substrings, [""]) == RemoveFirst(substrings, "");
    }
  }
}

=== FILE: observable_range_collection.dfy ===
/**
 * `ObservableRangeCollection<T>`: an observable list that can append a
 * whole range at once, raising one reset notification instead of one per
 * item. The notifications and the reentrancy guard are not modelled; the
 * list itself is the `items` sequence the methods reassign.
 */
module ObservableRangeCollections {
  import opened Wrappers

  class ObservableRangeCollection<T> {
    /** The underlying `Items` list, first element first. */
    var items: seq<T>

    /** `Count`. */
    function Count(): nat
      reads this
    {
      |items|
    }

    /** The parameterless constructor: an empty list. */
    constructor ()
      ensures items == []
    {
      items := [];
    }

    /** The constructors from a `List<T>` or an `IEnumerable<T>`: the elements copied in order. */
    constructor From(collection: seq<T>)
      ensures items == collection
    {
      items := collection;
    }

    /**
     * `AddRange`: a null collection throws `ArgumentNullException` naming
     * the parameter and changes nothing; an empty one changes nothing;
     * otherwise every item is added at the end, in order.
     */
    method AddRange(collection: Option<seq<T>>) returns (r: Result<()>)
      modifies this
      ensures collection.None? <==> r.Failure?
      ensures collection.None? ==> r.error == ArgumentNullException("collection") && items == old(items)
      ensures collection.Some? ==> items == old(items) + collection.value
      ensures collection.Some? ==> Count() == old(Count()) + |collection.value|
    {
      if collection.None? {
        return Failure(ArgumentNullException("collection"));
      }
      var xs := collection.value;
      if xs == [] {
        assert items + xs == items;
        return Success(());
      }
      for i := 0 to |xs|
        invariant items == old(items) + xs[..i]
      {
        assert xs[..i + 1] == xs[..i] + [xs[i]];
        items := items + [xs[i]];
      }
      assert xs[..|xs|] == xs;
      return Success(());
    }

    /** `ClearItems`: the list becomes empty. */
    method ClearItems()
      modifies this
      ensures items == [] && Count() == 0
    {
      items := [];
    }
  }
}

=== FILE: os_version.dfy ===
/**
 * Classification of the running Windows version from its major and minor
 * version numbers, and the two "or above" predicates built on it.
 */
module OSVersionServices {
  import opened Wrappers

  /** The Windows releases the application distinguishes, oldest first. */
  datatype OSVersion =
    | Windows_2000
    | Windows_XP
    | Windows_Vista
    | Windows_7
    | Windows_8
    | Windows_8_1
    | Windows_10

  /** The enum's underlying value: its declaration position, which `>=` compares. */
  function Rank(version: OSVersion): (r: nat)
    ensures r <= 6
  {
    match version
    case Windows_2000 => 0
    case Windows_XP => 1
    case Windows_Vista => 2
    case Windows_7 => 3
    case Windows_8 => 4
    case Windows_8_1 => 5
    case Windows_10 => 6
  }

  /**
   * `GetOSVersion`: 10 is Windows 10; 6 is split by minor version into 8.1,
   * 8, 7 and (any other minor) Vista; 5 is XP from minor 1 up, else 2000;
   * any other major version throws.
   */
  function GetOSVersion(major: int, minor: int): (r: Result<OSVersion>)
    ensures r.Failure? <==> major != 10 && major != 6 && major != 5
    ensures r.Failure? ==> r.error == InvalidOperationException
  {
    if major == 10 then Success(Windows_10)
    else if major == 6 then
      if minor == 3 then Success(Windows_8_1)
      else if minor == 2 then Success(Windows_8)
      else if minor == 1 then Success(Windows_7)
      else Success(Windows_Vista)
    else if major == 5 then
      if minor >= 1 then Success(Windows_XP)
      else Success(Windows_2000)
    else Failure(InvalidOperationException)
  }

  /** The (major, minor) version number each release reports. */
  function VersionNumber(version: OSVersion): (int, int) {
    match version
    case Windows_2000 => (5, 0)
    case Windows_XP => (5, 1)
    case Windows_Vista => (6, 0)
    case Windows_7 => (6, 1)
    case Windows_8 => (6, 2)
    case Windows_8_1 => (6, 3)
    case Windows_10 => (10, 0)
  }

  /** Every release is recognised from its own version number. */
  lemma ClassifiesVersionNumber(version: OSVersion)
    ensures GetOSVersion(VersionNumber(version).0, VersionNumber(version).1) == Success(version)
  {
  }

  /**
   * The classification is monotone in the version number, as long as a
   * major-6 minor version stays within the known 0 to 3: a later version
   * number never yields an earlier release.
   */
  lemma {:induction false} Monotone(major1: int, minor1: int, major2: int, minor2: int)
    requires GetOSVersion(major1, minor1).Success? && GetOSVersion(major2, minor2).Success?
    requires major1 < major2 || (major1 == major2 && minor1 <= minor2)
    requires major1 == 6 && major2 == 6 ==> minor2 <= 3
    ensures Rank(GetOSVersion(major1, minor1).value) <= Rank(GetOSVersion(major2, minor2).value)
  {
  }

  /**
   * Beyond the known minor versions the classification is not monotone: a
   * major-6 version with minor 4 or above falls back to Vista, below the
   * 8.1 that minor 3 gives.
   */
  lemma UnknownMinorIsVista(minor: int)
    requires minor >= 4
    ensures GetOSVersion(6, minor) == Success(Windows_Vista)
    ensures Rank(GetOSVersion(6, minor).value) < Rank(GetOSVersion(6, 3).value)
  {
  }

  /** `OSVersion >= Windows_8` on the nullable version: false when there is none. */
  predicate IsWindows8OrAbove(version: Option<OSVersion>) {
    version.Some? && Rank(version.value) >= Rank(Windows_8)
  }

  /** `OSVersion >= Windows_Vista` on the nullable version: false when there is none. */
  predicate IsWindowsVistaOrAbove(version: Option<OSVersion>) {
    version.Some? && Rank(version.value) >= Rank(Windows_Vista)
  }

  /** Windows 8 or above means exactly Windows 8, 8.1 or 10. */
  lemma Windows8OrAboveIs(version: Option<OSVersion>)
    ensures IsWindows8OrAbove(version) <==> version in {Some(Windows_8), Some(Windows_8_1), Some(Windows_10)}
  {
  }

  /** Windows Vista or above means anything but 2000 and XP. */
  lemma WindowsVistaOrAboveIs(version: Option<OSVersion>)
    ensures IsWindowsVistaOrAbove(version) <==> version.Some? && version.value != Windows_2000 && version.value != Windows_XP
  {
  }

  /** Windows 8 or above implies Windows Vista or above. */
  lemma Windows8ImpliesVista(version: Option<OSVersion>)
    ensures IsWindows8OrAbove(version) ==> IsWindowsVistaOrAbove(version)
  {
  }

  /** On a recognised version number, Windows 8 or above means 10, or 6 with minor 2 or 3. */
  lemma Windows8OrAboveByNumber(major: int, minor: int)
    requires GetOSVersion(major, minor).Success?
    ensures IsWindows8OrAbove(Some(GetOSVersion(major, minor).value))
      <==> major == 10 || (major == 6 && (minor == 2 || minor == 3))
  {
  }
}

=== FILE: other_flags.dfy ===
/**
 * The `[Flags]` set of further settings and its encoder: the tokens of the
 * set flags, in declaration order, joined by single spaces.
 */
module OtherExtensions {
  import opened Strings
  import EnumServices
  import Wrappers

  /** A set of the three flags; the enum's values fit in three bits. */
  type OtherFlags = bv3

  const None: OtherFlags := 0
  const RESOLUTION640X480: OtherFlags := 1
  const DISABLEDXMAXIMIZEDWINDOWEDMODE: OtherFlags := 2
  const RUNASADMIN: OtherFlags := 4

  /** The members in declaration (ascending value) order with their attributes. */
  const Fields: seq<EnumServices.EnumField<OtherFlags>> := [
    EnumServices.EnumField(None, "None", false, Wrappers.None),
    EnumServices.EnumField(RESOLUTION640X480, "RESOLUTION640X480", true, Wrappers.Some("640X480")),
    EnumServices.EnumField(DISABLEDXMAXIMIZEDWINDOWEDMODE, "DISABLEDXMAXIMIZEDWINDOWEDMODE", true, Wrappers.None),
    EnumServices.EnumField(RUNASADMIN, "RUNASADMIN", true, Wrappers.None)
  ]

  /** `Enum.HasFlag`: every bit of `flag` is set in `value`. */
  predicate HasFlag(value: OtherFlags, flag: OtherFlags) {
    value & flag == flag
  }

  /** The tokens `fields` contribute for `value`: each non-`None` member whose flag is set, in order. */
  function SetTokens(value: OtherFlags, fields: seq<EnumServices.EnumField<OtherFlags>>): seq<string> {
    if fields == [] then []
    else
      var last := fields[|fields| - 1];
      SetTokens(value, fields[..|fields| - 1])
        + (if last.value != None && HasFlag(value, last.value) then [EnumServices.GetDescription(last)] else [])
  }

  /** The tokens of all flags set in `value`. */
  function FlagTokens(value: OtherFlags): seq<string> {
    SetTokens(value, Fields)
  }

  /** Convert a flag set to its AppCompatFlags representation. */
  method ToRegistryString(value: OtherFlags) returns (s: string)
    ensures s == Join(FlagTokens(value))
  {
    var appCompatFlags: seq<string> := [];
    for i := 0 to |Fields|
      invariant appCompatFlags == SetTokens(value, Fields[..i])
    {
      assert Fields[..i + 1][..i] == Fields[..i];
      var flag := Fields[i];
      if flag.value != None && HasFlag(value, flag.value) {
        appCompatFlags := appCompatFlags + [EnumServices.GetDescription(flag)];
      }
    }
    assert Fields[..|Fields|] == Fields;
    s := Join(appCompatFlags);
  }

  /**
   * The tokens are `640X480` (from its `Description`),
   * `DISABLEDXMAXIMIZEDWINDOWEDMODE` and `RUNASADMIN`, each present exactly
   * when its bit is set, always in that order.
   */
  lemma FlagTokensAre(value: OtherFlags)
    ensures FlagTokens(value) ==
      (if HasFlag(value, RESOLUTION640X480) then ["640X480"] else [])
      + (if HasFlag(value, DISABLEDXMAXIMIZEDWINDOWEDMODE) then ["DISABLEDXMAXIMIZEDWINDOWEDMODE"] else [])
      + (if HasFlag(value, RUNASADMIN) then ["RUNASADMIN"] else [])
  {
    var f := Fields;
    var a := if HasFlag(value, RESOLUTION640X480) then ["640X480"] else [];
    var b := if HasFlag(value, DISABLEDXMAXIMIZEDWINDOWEDMODE) then ["DISABLEDXMAXIMIZEDWINDOWEDMODE"] else [];
    var c := if HasFlag(value, RUNASADMIN) then ["RUNASADMIN"] else [];
    assert f[..1][..0] == [];
    assert SetTokens(value, f[..1]) == [];
    assert f[..2][..1] == f[..1] && f[..2][1] == f[1];
    assert SetTokens(value, f[..2]) == a;
    assert f[..3][..2] == f[..2] && f[..3][2] == f[2];
    assert SetTokens(value, f[..3]) == a + b;
    assert f[..4] == f && f[..4][..3] == f[..3];
    assert SetTokens(value, f) == a + b + c;
  }

  /** The empty set encodes to the empty string. */
  lemma NoneHasNoTokens()
    ensures FlagTokens(None) == []
    ensures Join(FlagTokens(None)) == ""
  {
    FlagTokensAre(None);
  }

  /** A flag's token is among the tokens exactly when its bit is set. */
  lemma TokenIffFlag(value: OtherFlags)
    ensures "640X480" in FlagTokens(value) <==> HasFlag(value, RESOLUTION640X480)
    ensures "DISABLEDXMAXIMIZEDWINDOWEDMODE" in FlagTokens(value) <==> HasFlag(value, DISABLEDXMAXIMIZEDWINDOWEDMODE)
    ensures "RUNASADMIN" in FlagTokens(value) <==> HasFlag(value, RUNASADMIN)
  {
    FlagTokensAre(value);
  }

  /** Every token is a non-empty word. */
  lemma TokensAreWords(value: OtherFlags)
    ensures forall k :: 0 <= k < |FlagTokens(value)| ==> FlagTokens(value)[k] != "" && IsWord(FlagTokens(value)[k])
  {
    FlagTokensAre(value);
    NamesAreWords();
    var ts := FlagTokens(value);
    forall k | 0 <= k < |ts| ensures ts[k] != "" && IsWord(ts[k]) {
      assert ts[k] in ["640X480", "DISABLEDXMAXIMIZEDWINDOWEDMODE", "RUNASADMIN"];
    }
  }

  /** Proof helper: each flag token is one word. */
  lemma NamesAreWords()
    ensures IsWord("640X480")
    ensures IsWord("DISABLEDXMAXIMIZEDWINDOWEDMODE")
    ensures IsWord("RUNASADMIN")
  {
  }

  /**
   * The encoding is the tokens separated by exactly one space: splitting it
   * gives back the tokens, with no empty piece from a doubled, leading or
   * trailing space.
   */
  lemma EncodingSplits(value: OtherFlags)
    requires value != None
    ensures Split(Join(FlagTokens(value))) == FlagTokens(value)
  {
    FlagTokensAre(value);
    TokensAreWords(value);
    assert FlagTokens(value) != [];
    SplitJoinWords(FlagTokens(value));
  }

  /** A non-empty set has at least one token, so only the empty set encodes to `""`. */
  lemma EmptyIffNone(value: OtherFlags)
    ensures Join(FlagTokens(value)) == "" <==> value == None
  {
    NoneHasNoTokens();
    if value != None {
      EncodingSplits(value);
      TokensAreWords(value);
      assert Split("") == [""];
    }
  }
}

=== FILE: registry_services.dfy ===
/**
 * The whole-line AppCompatFlags encoder: the tokens of the three enums and
 * the flag set, blank ones dropped, joined by single spaces and, on
 * Windows 8 or above, prefixed with a tilde.
 */
module RegistryServices {
  import opened Strings
  import CM = CompatibilityModeServices
  import Color = ColorModeServices
  import DPI = DPIScalingServices
  import Flags = OtherExtensions
  import EnumServices

  /** The four parts in their fixed order: compatibility mode, color, DPI, flags. */
  function Parts(compatibilityMode: CM.CompatibilityMode, colorMode: Color.ColorMode,
                 dpiScaling: DPI.DPIScaling, otherFlags: Flags.OtherFlags): seq<string>
  {
    [CM.ToRegistryString(compatibilityMode), Color.ToRegistryString(colorMode),
     DPI.ToRegistryString(dpiScaling), Join(Flags.FlagTokens(otherFlags))]
  }

  /** `parts.Where(s => !string.IsNullOrWhiteSpace(s))`. */
  function NonBlank(parts: seq<string>): (r: seq<string>)
    ensures forall k :: 0 <= k < |r| ==> !IsNullOrWhiteSpace(r[k])
    ensures forall x :: x in r <==> x in parts && !IsNullOrWhiteSpace(x)
    ensures |r| <= |parts|
  {
    if parts == [] then []
    else (if IsNullOrWhiteSpace(parts[0]) then [] else [parts[0]]) + NonBlank(parts[1..])
  }

  /**
   * The filter works piecewise and keeps order: the survivors of `a + b`
   * are those of `a` followed by those of `b`.
   */
  lemma {:induction false} NonBlankAppend(a: seq<string>, b: seq<string>)
    ensures NonBlank(a + b) == NonBlank(a) + NonBlank(b)
  {
    if a == [] {
      assert a + b == b;
    } else {
      var head: seq<string> := if IsNullOrWhiteSpace(a[0]) then [] else [a[0]];
      var tail, rest := NonBlank(a[1..]), NonBlank(b);
      assert (a + b)[0] == a[0] && (a + b)[1..] == a[1..] + b;
      NonBlankAppend(a[1..], b);
      Associate(head, tail, rest);
    }
  }

  /** Proof helper: concatenation regrouped. */
  lemma Associate<T>(x: seq<T>, y: seq<T>, z: seq<T>)
    ensures x + (y + z) == (x + y) + z
  {
  }

  /** A single part survives the filter exactly when it is not blank. */
  lemma NonBlankSingle(x: string)
    ensures NonBlank([x]) == (if IsNullOrWhiteSpace(x) then [] else [x])
  {
    assert [x][1..] == [];
  }

  /**
   * `RegistryServices.ToRegistryString`: the non-blank parts joined by single
   * spaces, with `"~ "` in front when the result is not blank and the system
   * is Windows 8 or above.
   */
  function ToRegistryString(compatibilityMode: CM.CompatibilityMode, colorMode: Color.ColorMode,
                            dpiScaling: DPI.DPIScaling, otherFlags: Flags.OtherFlags,
                            isWindows8OrAbove: bool): (line: string)
    ensures line == "" <==> compatibilityMode == CM.None && colorMode == Color.None
                            && dpiScaling == DPI.None && otherFlags == Flags.None
    ensures line != "" && isWindows8OrAbove ==> |line| >= 2 && line[..2] == "~ "
    ensures line != "" && isWindows8OrAbove ==>
      line == "~ " + Join(NonBlank(Parts(compatibilityMode, colorMode, dpiScaling, otherFlags)))
    ensures !isWindows8OrAbove ==> line == Join(NonBlank(Parts(compatibilityMode, colorMode, dpiScaling, otherFlags)))
  {
    JoinedEmpty(compatibilityMode, colorMode, dpiScaling, otherFlags);
    Line(Parts(compatibilityMode, colorMode, dpiScaling, otherFlags), isWindows8OrAbove)
  }

  /**
   * The part-independent rest of the encoder: filter, join, and the
   * conditional tilde. The line is empty when every part is blank and never
   * blank otherwise; on Windows 8 or above a non-empty line starts with the
   * tilde and a space, and below it is the joined parts themselves.
   */
  function Line(parts: seq<string>, isWindows8OrAbove: bool): (line: string)
    ensures NonBlank(parts) == [] ==> line == ""
    ensures NonBlank(parts) != [] ==> !IsNullOrWhiteSpace(line)
    ensures line != "" && isWindows8OrAbove ==> |line| >= 2 && line[..2] == "~ "
    ensures !isWindows8OrAbove ==> line == Join(NonBlank(parts))
    ensures line != "" && isWindows8OrAbove ==> line == "~ " + Join(NonBlank(parts))
  {
    var appCompatFlags := Join(NonBlank(parts));
    JoinedNotBlank(parts);
    if !IsNullOrWhiteSpace(appCompatFlags) && isWindows8OrAbove then "~ " + appCompatFlags
    else appCompatFlags
  }

  /** With a non-blank part, the joined survivors are not blank, nor is the line with the tilde in front. */
  lemma JoinedNotBlank(parts: seq<string>)
    ensures NonBlank(parts) != [] ==> !IsNullOrWhiteSpace(Join(NonBlank(parts)))
    ensures NonBlank(parts) != [] ==> !IsNullOrWhiteSpace("~ " + Join(NonBlank(parts)))
  {
    var nb := NonBlank(parts);
    if nb != [] {
      JoinNotBlank(nb);
      var j := Join(nb);
      var c :| c in j && !IsWhiteSpace(c);
      var i :| 0 <= i < |j| && j[i] == c;
      assert ("~ " + j)[i + 2] == c;
    }
  }

  /** The words a part contributes to the line: none for a blank part. */
  function PartWords(part: string): seq<string> {
    if IsNullOrWhiteSpace(part) then [] else Split(part)
  }

  /** The words all parts contribute, in order. */
  function AllPartWords(parts: seq<string>): seq<string> {
    if parts == [] then [] else PartWords(parts[0]) + AllPartWords(parts[1..])
  }

  /** The words of the line after any tilde: each setting's words in the fixed order. */
  function SettingWords(compatibilityMode: CM.CompatibilityMode, colorMode: Color.ColorMode,
                        dpiScaling: DPI.DPIScaling, otherFlags: Flags.OtherFlags): seq<string>
  {
    AllPartWords(Parts(compatibilityMode, colorMode, dpiScaling, otherFlags))
  }

  /** Splitting the joined non-blank parts gives the words of every non-blank part, in order. */
  lemma {:induction false} SplitNonBlank(parts: seq<string>)
    ensures SplitAll(NonBlank(parts)) == AllPartWords(parts)
  {
    if parts != [] {
      SplitNonBlank(parts[1..]);
      var rest := NonBlank(parts[1..]);
      if !IsNullOrWhiteSpace(parts[0]) {
        assert NonBlank(parts) == [parts[0]] + rest;
        assert ([parts[0]] + rest)[0] == parts[0];
        assert ([parts[0]] + rest)[1..] == rest;
      } else {
        assert NonBlank(parts) == rest;
      }
    }
  }

  /** Each enum part is blank exactly when its value is `None`; the flags part exactly when no flag is set. */
  lemma {:induction false} PartsBlank(compatibilityMode: CM.CompatibilityMode, colorMode: Color.ColorMode,
                                      dpiScaling: DPI.DPIScaling, otherFlags: Flags.OtherFlags)
    ensures var p := Parts(compatibilityMode, colorMode, dpiScaling, otherFlags);
      && (IsNullOrWhiteSpace(p[0]) <==> compatibilityMode == CM.None)
      && (IsNullOrWhiteSpace(p[1]) <==> colorMode == Color.None)
      && (IsNullOrWhiteSpace(p[2]) <==> dpiScaling == DPI.None)
      && (IsNullOrWhiteSpace(p[3]) <==> otherFlags == Flags.None)
  {
    var p := Parts(compatibilityMode, colorMode, dpiScaling, otherFlags);
    var t0, t1 := CM.ToRegistryString(compatibilityMode), Color.ToRegistryString(colorMode);
    assert p[0] == t0 && p[1] == t1;
    assert p[2] == DPI.ToRegistryString(dpiScaling) && p[3] == Join(Flags.FlagTokens(otherFlags));
    WordNotBlank(t0);
    WordNotBlank(t1);
    ScalingPartBlank(dpiScaling);
    FlagPartBlank(otherFlags);
  }

  /** Proof helper: the scaling part is blank exactly for `None`. */
  lemma ScalingPartBlank(dpiScaling: DPI.DPIScaling)
    ensures IsNullOrWhiteSpace(DPI.ToRegistryString(dpiScaling)) <==> dpiScaling == DPI.None
  {
    var t := DPI.ToRegistryString(dpiScaling);
    if dpiScaling != DPI.None {
      assert t[0] in "HDG";
      assert t[0] in t;
    }
  }

  /** Proof helper: the flag part is blank exactly for no flags. */
  lemma {:induction false} FlagPartBlank(otherFlags: Flags.OtherFlags)
    ensures IsNullOrWhiteSpace(Join(Flags.FlagTokens(otherFlags))) <==> otherFlags == Flags.None
  {
    Flags.NoneHasNoTokens();
    if otherFlags != Flags.None {
      var t := Join(Flags.FlagTokens(otherFlags));
      Flags.EncodingSplits(otherFlags);
      Flags.EmptyIffNone(otherFlags);
      Flags.TokensAreWords(otherFlags);
      BlankSplitsEmpty(t);
      assert Split(t)[0] != "";
    }
  }

  /** Proof helper: a word is blank only when empty. */
  lemma WordNotBlank(s: string)
    requires IsWord(s)
    ensures IsNullOrWhiteSpace(s) <==> s == ""
  {
    if s != "" {
      assert s[0] in s;
    }
  }

  /** A blank string splits into empty pieces only. */
  lemma {:induction false} BlankSplitsEmpty(s: string)
    ensures IsNullOrWhiteSpace(s) ==> forall k :: 0 <= k < |Split(s)| ==> Split(s)[k] == ""
  {
    if s != [] && IsNullOrWhiteSpace(s) {
      assert s[0] in s;
      assert forall c :: c in s[1..] ==> c in s;
      BlankSplitsEmpty(s[1..]);
    }
  }

  /** A part list with a non-blank part joins to a non-blank string. */
  lemma JoinNotBlank(parts: seq<string>)
    requires parts != [] && !IsNullOrWhiteSpace(parts[0])
    ensures !IsNullOrWhiteSpace(Join(parts))
  {
    var c :| c in parts[0] && !IsWhiteSpace(c);
    JoinHead(parts, c);
  }

  /** The joined non-blank parts are empty exactly when every setting is `None`. */
  lemma {:induction false} JoinedEmpty(compatibilityMode: CM.CompatibilityMode, colorMode: Color.ColorMode,
                                       dpiScaling: DPI.DPIScaling, otherFlags: Flags.OtherFlags)
    ensures var nb := NonBlank(Parts(compatibilityMode, colorMode, dpiScaling, otherFlags));
      && (nb == [] <==> compatibilityMode == CM.None && colorMode == Color.None
                        && dpiScaling == DPI.None && otherFlags == Flags.None)
      && (nb == [] ==> Join(nb) == "")
      && (nb != [] ==> !IsNullOrWhiteSpace(Join(nb)))
  {
    var p := Parts(compatibilityMode, colorMode, dpiScaling, otherFlags);
    var nb := NonBlank(p);
    PartsBlank(compatibilityMode, colorMode, dpiScaling, otherFlags);
    if nb != [] {
      JoinNotBlank(nb);
      assert nb[0] in p;
    }
  }

  /**
   * The line is empty exactly when every setting is `None`; otherwise its
   * words are the tilde (on Windows 8 or above) followed by each setting's
   * words in the fixed order, at least one of them, each separated by one
   * space.
   */
  lemma {:induction false} LineWords(compatibilityMode: CM.CompatibilityMode, colorMode: Color.ColorMode,
                                     dpiScaling: DPI.DPIScaling, otherFlags: Flags.OtherFlags,
                                     isWindows8OrAbove: bool)
    ensures var line := ToRegistryString(compatibilityMode, colorMode, dpiScaling, otherFlags, isWindows8OrAbove);
      && (line == "" <==> compatibilityMode == CM.None && colorMode == Color.None
                          && dpiScaling == DPI.None && otherFlags == Flags.None)
      && (line != "" ==> SettingWords(compatibilityMode, colorMode, dpiScaling, otherFlags) != [])
      && (line != "" ==> Split(line) == (if isWindows8OrAbove then ["~"] else [])
                                      + SettingWords(compatibilityMode, colorMode, dpiScaling, otherFlags))
  {
    JoinedEmpty(compatibilityMode, colorMode, dpiScaling, otherFlags);
    LineSplits(Parts(compatibilityMode, colorMode, dpiScaling, otherFlags), isWindows8OrAbove);
  }

  /**
   * For any parts: with no non-blank part the line is empty; otherwise it
   * splits into the tilde (on Windows 8 or above) and the non-blank parts' words.
   */
  lemma {:induction false} LineSplits(parts: seq<string>, isWindows8OrAbove: bool)
    requires NonBlank(parts) != [] ==> !IsNullOrWhiteSpace(Join(NonBlank(parts)))
    ensures NonBlank(parts) == [] ==> Line(parts, isWindows8OrAbove) == ""
    ensures NonBlank(parts) != [] ==> Line(parts, isWindows8OrAbove) != "" && AllPartWords(parts) != []
    ensures NonBlank(parts) != [] ==>
      Split(Line(parts, isWindows8OrAbove)) == (if isWindows8OrAbove then ["~"] else []) + AllPartWords(parts)
  {
    var nb := NonBlank(parts);
    var j := Join(nb);
    if nb != [] {
      SplitJoin(nb);
      SplitNonBlank(parts);
      SomeWords(nb);
      if isWindows8OrAbove {
        SplitPrefixed("~", j);
      }
    }
  }

  /** A string splits into empty pieces only exactly when it is blank. */
  lemma {:induction false} BlankIffSplitEmpty(s: string)
    ensures IsNullOrWhiteSpace(s) <==> forall k :: 0 <= k < |Split(s)| ==> Split(s)[k] == ""
  {
    BlankSplitsEmpty(s);
    if !IsNullOrWhiteSpace(s) {
      SplitHasWordOf(s);
    }
  }

  /** A string with a non-whitespace character has a non-empty piece. */
  lemma {:induction false} SplitHasWordOf(s: string)
    requires !IsNullOrWhiteSpace(s)
    ensures exists k :: 0 <= k < |Split(s)| && Split(s)[k] != ""
  {
    if IsWhiteSpace(s[0]) {
      assert !IsNullOrWhiteSpace(s[1..]) by {
        var c :| c in s && !IsWhiteSpace(c);
        assert c != s[0];
        assert c in s[1..];
      }
      SplitHasWordOf(s[1..]);
      var k :| 0 <= k < |Split(s[1..])| && Split(s[1..])[k] != "";
      assert Split(s)[k + 1] == Split(s[1..])[k];
    } else {
      assert Split(s)[0] != "";
    }
  }

  /** Proof helper: a non-empty list of parts splits into at least one word. */
  lemma SomeWords(parts: seq<string>)
    requires parts != []
    ensures SplitAll(parts) != []
  {
    assert SplitAll(parts) == Split(parts[0]) + SplitAll(parts[1..]);
  }

  /**
   * The setting words: the compatibility-mode token, the color token, the
   * DPI token's words and the flag tokens, each omitted when `None`.
   */
  lemma {:induction false} SettingWordsAre(compatibilityMode: CM.CompatibilityMode, colorMode: Color.ColorMode,
                                           dpiScaling: DPI.DPIScaling, otherFlags: Flags.OtherFlags)
    ensures SettingWords(compatibilityMode, colorMode, dpiScaling, otherFlags)
      == (if compatibilityMode == CM.None then [] else [CM.ToRegistryString(compatibilityMode)])
       + (if colorMode == Color.None then [] else [Color.ToRegistryString(colorMode)])
       + (if dpiScaling == DPI.None then [] else Split(DPI.ToRegistryString(dpiScaling)))
       + Flags.FlagTokens(otherFlags)
  {
    var p := Parts(compatibilityMode, colorMode, dpiScaling, otherFlags);
    PartsBlank(compatibilityMode, colorMode, dpiScaling, otherFlags);
    SplitWord(p[0]);
    SplitWord(p[1]);
    Flags.NoneHasNoTokens();
    if otherFlags != Flags.None {
      Flags.EncodingSplits(otherFlags);
    }
    FourPartWords(p);
  }

  /** Proof helper: the words of the four parts, part by part. */
  lemma FourPartWords(p: seq<string>)
    requires |p| == 4
    ensures AllPartWords(p) == PartWords(p[0]) + PartWords(p[1]) + PartWords(p[2]) + PartWords(p[3])
  {
    SuffixWords(p, 3);
    SuffixWords(p, 2);
    SuffixWords(p, 1);
    SuffixWords(p, 0);
    assert p[4..] == [] && p[0..] == p;
    Regroup4(PartWords(p[0]), PartWords(p[1]), PartWords(p[2]), PartWords(p[3]));
  }

  /** Unfolding the words of a suffix of the parts by one part. */
  lemma SuffixWords(p: seq<string>, k: nat)
    requires k < |p|
    ensures AllPartWords(p[k..]) == PartWords(p[k]) + AllPartWords(p[k + 1..])
  {
    assert p[k..][0] == p[k];
    assert p[k..][1..] == p[k + 1..];
  }

  /** Proof helper: reassociates four concatenated sequences. */
  lemma Regroup4<T>(w: seq<T>, x: seq<T>, y: seq<T>, z: seq<T>)
    ensures w + (x + (y + (z + []))) == w + x + y + z
  {
    assert z + [] == z;
  }

  /** Below Windows 8 a line with only `WIN7RTM` set is just `"WIN7RTM"`. */
  lemma Windows7RTMLine(compatibilityMode: CM.CompatibilityMode, colorMode: Color.ColorMode,
                        dpiScaling: DPI.DPIScaling, otherFlags: Flags.OtherFlags)
    requires compatibilityMode == CM.WIN7RTM && colorMode == Color.None
    requires dpiScaling == DPI.None && otherFlags == Flags.None
    ensures ToRegistryString(compatibilityMode, colorMode, dpiScaling, otherFlags, false) == "WIN7RTM"
  {
    assert CM.ToRegistryString(compatibilityMode) == "WIN7RTM" by {
      CM.TokenIsName(compatibilityMode);
    }
    OnlyCompatibilityMode(compatibilityMode, colorMode, dpiScaling, otherFlags);
  }

  /** On Windows 8 or above the same line is `"~ WIN7RTM"`. */
  lemma Windows7RTMLineWithTilde(compatibilityMode: CM.CompatibilityMode, colorMode: Color.ColorMode,
                                 dpiScaling: DPI.DPIScaling, otherFlags: Flags.OtherFlags)
    requires compatibilityMode == CM.WIN7RTM && colorMode == Color.None
    requires dpiScaling == DPI.None && otherFlags == Flags.None
    ensures ToRegistryString(compatibilityMode, colorMode, dpiScaling, otherFlags, true) == "~ WIN7RTM"
  {
    var t := CM.ToRegistryString(compatibilityMode);
    assert t == "WIN7RTM" by {
      CM.TokenIsName(compatibilityMode);
    }
    OnlyCompatibilityMode(compatibilityMode, colorMode, dpiScaling, otherFlags);
    assert "~ " + t == "~ WIN7RTM" by {
      TildeBefore(t);
    }
  }

  /** Proof helper: the prefixed Windows 7 token. */
  lemma TildeBefore(t: string)
    requires t == "WIN7RTM"
    ensures "~ " + t == "~ WIN7RTM"
  {
  }

  /** A line with only a compatibility mode set is that mode's token, after `"~ "` on Windows 8 or above. */
  lemma OnlyCompatibilityMode(compatibilityMode: CM.CompatibilityMode, colorMode: Color.ColorMode,
                              dpiScaling: DPI.DPIScaling, otherFlags: Flags.OtherFlags)
    requires compatibilityMode != CM.None && colorMode == Color.None
    requires dpiScaling == DPI.None && otherFlags == Flags.None
    ensures ToRegistryString(compatibilityMode, colorMode, dpiScaling, otherFlags, false) == CM.ToRegistryString(compatibilityMode)
    ensures ToRegistryString(compatibilityMode, colorMode, dpiScaling, otherFlags, true) == "~ " + CM.ToRegistryString(compatibilityMode)
  {
    var p := Parts(compatibilityMode, colorMode, dpiScaling, otherFlags);
    PartsBlank(compatibilityMode, colorMode, dpiScaling, otherFlags);
    SingleNonBlank(p);
  }

  /** Proof helper: a line with one non-blank part is that part, prefixed on Windows 8. */
  lemma SingleNonBlank(p: seq<string>)
    requires |p| == 4 && !IsNullOrWhiteSpace(p[0])
    requires IsNullOrWhiteSpace(p[1]) && IsNullOrWhiteSpace(p[2]) && IsNullOrWhiteSpace(p[3])
    ensures NonBlank(p) == [p[0]]
    ensures Line(p, false) == p[0]
    ensures Line(p, true) == "~ " + p[0]
  {
    assert p[1..][1..][1..][1..] == [];
    assert NonBlank(p[1..][1..][1..]) == [];
    assert NonBlank(p[1..][1..]) == [];
    assert NonBlank(p[1..]) == [];
    assert NonBlank(p) == [p[0]];
    assert Join([p[0]]) == p[0];
  }

  /** With every setting `None` the line is empty, with or without Windows 8: never a lone tilde. */
  lemma AllNoneLine(compatibilityMode: CM.CompatibilityMode, colorMode: Color.ColorMode,
                    dpiScaling: DPI.DPIScaling, otherFlags: Flags.OtherFlags, isWindows8OrAbove: bool)
    requires compatibilityMode == CM.None && colorMode == Color.None
    requires dpiScaling == DPI.None && otherFlags == Flags.None
    ensures ToRegistryString(compatibilityMode, colorMode, dpiScaling, otherFlags, isWindows8OrAbove) == ""
  {
    LineWords(compatibilityMode, colorMode, dpiScaling, otherFlags, isWindows8OrAbove);
  }

  /**
   * The three token-list decodes applied in turn to the words of a line,
   * compatibility mode first, then color, then DPI, each on what the one
   * before left over.
   */
  function ReadEnums(words: seq<string>): (CM.CompatibilityMode, Color.ColorMode, DPI.DPIScaling, seq<string>) {
    ReadInOrder(CM.Descriptions, CM.None, Color.Descriptions, Color.None, DPI.Descriptions, DPI.None, words)
  }

  /** Three decodes in turn, each on the list the one before left. */
  function ReadInOrder<A, B, C>(first: EnumServices.Table<A>, firstDefault: A,
                                second: EnumServices.Table<B>, secondDefault: B,
                                third: EnumServices.Table<C>, thirdDefault: C,
                                words: seq<string>): (A, B, C, seq<string>)
  {
    var (x, afterFirst) := EnumServices.Decode(first, firstDefault, words);
    var (y, afterSecond) := EnumServices.Decode(second, secondDefault, afterFirst);
    var (z, afterThird) := EnumServices.Decode(third, thirdDefault, afterSecond);
    (x, y, z, afterThird)
  }

  /**
   * The line carries every enum value recoverably: reading its words with the
   * token-list decoder, compatibility mode first, then color, then DPI,
   * yields each value back and leaves exactly the tilde (when present) and
   * the flag tokens, in order.
   */
  lemma {:induction false} DecodeLine(compatibilityMode: CM.CompatibilityMode, colorMode: Color.ColorMode,
                                      dpiScaling: DPI.DPIScaling, otherFlags: Flags.OtherFlags,
                                      isWindows8OrAbove: bool)
    ensures var line := ToRegistryString(compatibilityMode, colorMode, dpiScaling, otherFlags, isWindows8OrAbove);
      ReadEnums(Split(line)) == (compatibilityMode, colorMode, dpiScaling,
                                 (if isWindows8OrAbove && line != "" then ["~"] else []) + Flags.FlagTokens(otherFlags))
  {
    if compatibilityMode == CM.None && colorMode == Color.None && dpiScaling == DPI.None && otherFlags == Flags.None {
      DecodeEmptyLine(compatibilityMode, colorMode, dpiScaling, otherFlags, isWindows8OrAbove);
    } else {
      DecodeNonEmptyLine(compatibilityMode, colorMode, dpiScaling, otherFlags, isWindows8OrAbove);
    }
  }

  /** Proof helper: the round trip of the empty line. */
  lemma DecodeEmptyLine(compatibilityMode: CM.CompatibilityMode, colorMode: Color.ColorMode,
                        dpiScaling: DPI.DPIScaling, otherFlags: Flags.OtherFlags, isWindows8OrAbove: bool)
    requires compatibilityMode == CM.None && colorMode == Color.None
    requires dpiScaling == DPI.None && otherFlags == Flags.None
    ensures var line := ToRegistryString(compatibilityMode, colorMode, dpiScaling, otherFlags, isWindows8OrAbove);
      ReadEnums(Split(line)) == (compatibilityMode, colorMode, dpiScaling,
                                 (if isWindows8OrAbove && line != "" then ["~"] else []) + Flags.FlagTokens(otherFlags))
  {
    AllNoneLine(compatibilityMode, colorMode, dpiScaling, otherFlags, isWindows8OrAbove);
    assert Split("") == [""];
    ReadEmptyLine([""]);
    Flags.NoneHasNoTokens();
    var f := Flags.FlagTokens(otherFlags);
    assert f == [] && [] + f == [];
  }

  /** Proof helper: the round trip of a non-empty line. */
  lemma DecodeNonEmptyLine(compatibilityMode: CM.CompatibilityMode, colorMode: Color.ColorMode,
                           dpiScaling: DPI.DPIScaling, otherFlags: Flags.OtherFlags, isWindows8OrAbove: bool)
    requires !(compatibilityMode == CM.None && colorMode == Color.None && dpiScaling == DPI.None && otherFlags == Flags.None)
    ensures var line := ToRegistryString(compatibilityMode, colorMode, dpiScaling, otherFlags, isWindows8OrAbove);
      ReadEnums(Split(line)) == (compatibilityMode, colorMode, dpiScaling,
                                 (if isWindows8OrAbove && line != "" then ["~"] else []) + Flags.FlagTokens(otherFlags))
  {
    var tilde: seq<string> := if isWindows8OrAbove then ["~"] else [];
    var a := if compatibilityMode == CM.None then [] else [CM.ToRegistryString(compatibilityMode)];
    var b := if colorMode == Color.None then [] else [Color.ToRegistryString(colorMode)];
    var c := if dpiScaling == DPI.None then [] else Split(DPI.ToRegistryString(dpiScaling));
    var f := Flags.FlagTokens(otherFlags);
    NonEmptyLineWords(compatibilityMode, colorMode, dpiScaling, otherFlags, isWindows8OrAbove);
    ReadSettingWords(tilde, a, b, c, f, compatibilityMode, colorMode, dpiScaling, otherFlags);
  }

  /** A line with some setting is not empty, and its words are the tilde and each setting's words. */
  lemma NonEmptyLineWords(compatibilityMode: CM.CompatibilityMode, colorMode: Color.ColorMode,
                          dpiScaling: DPI.DPIScaling, otherFlags: Flags.OtherFlags, isWindows8OrAbove: bool)
    requires !(compatibilityMode == CM.None && colorMode == Color.None && dpiScaling == DPI.None && otherFlags == Flags.None)
    ensures ToRegistryString(compatibilityMode, colorMode, dpiScaling, otherFlags, isWindows8OrAbove) != ""
    ensures Split(ToRegistryString(compatibilityMode, colorMode, dpiScaling, otherFlags, isWindows8OrAbove))
      == (if isWindows8OrAbove then ["~"] else [])
       + (if compatibilityMode == CM.None then [] else [CM.ToRegistryString(compatibilityMode)])
       + (if colorMode == Color.None then [] else [Color.ToRegistryString(colorMode)])
       + (if dpiScaling == DPI.None then [] else Split(DPI.ToRegistryString(dpiScaling)))
       + Flags.FlagTokens(otherFlags)
  {
    LineWords(compatibilityMode, colorMode, dpiScaling, otherFlags, isWindows8OrAbove);
    SettingWordsAre(compatibilityMode, colorMode, dpiScaling, otherFlags);
    var tilde: seq<string> := if isWindows8OrAbove then ["~"] else [];
    var a := if compatibilityMode == CM.None then [] else [CM.ToRegistryString(compatibilityMode)];
    var b := if colorMode == Color.None then [] else [Color.ToRegistryString(colorMode)];
    var c := if dpiScaling == DPI.None then [] else Split(DPI.ToRegistryString(dpiScaling));
    var f := Flags.FlagTokens(otherFlags);
    Regroup(tilde, a, b, c, f);
  }

  /** Proof helper: reassociates the decoded word list. */
  lemma Regroup(tilde: seq<string>, a: seq<string>, b: seq<string>, c: seq<string>, f: seq<string>)
    ensures tilde + (a + b + c + f) == tilde + a + b + c + f
  {
  }

  /** The empty line splits into one empty word, which reads as all `None` and is used up. */
  lemma ReadEmptyLine(words: seq<string>)
    requires words == [""]
    ensures ReadEnums(words) == (CM.None, Color.None, DPI.None, [])
  {
    CM.DecodesEmptyWord(words);
    EnumServices.DecodeForeign(Color.Descriptions, Color.None, []);
    EnumServices.DecodeForeign(DPI.Descriptions, DPI.None, []);
  }

  /** Each enum's words, read among the foreign words around them, give its value back. */
  lemma ReadSettingWords(tilde: seq<string>, a: seq<string>, b: seq<string>, c: seq<string>, f: seq<string>,
                         compatibilityMode: CM.CompatibilityMode, colorMode: Color.ColorMode,
                         dpiScaling: DPI.DPIScaling, otherFlags: Flags.OtherFlags)
    requires tilde == [] || tilde == ["~"]
    requires a == if compatibilityMode == CM.None then [] else [CM.ToRegistryString(compatibilityMode)]
    requires b == if colorMode == Color.None then [] else [Color.ToRegistryString(colorMode)]
    requires c == if dpiScaling == DPI.None then [] else Split(DPI.ToRegistryString(dpiScaling))
    requires f == Flags.FlagTokens(otherFlags)
    ensures ReadEnums(tilde + a + b + c + f) == (compatibilityMode, colorMode, dpiScaling, tilde + f)
  {
    ColorPartWords(colorMode);
    DPIPartWords(dpiScaling);
    FlagPartWords(otherFlags);
    ForeignToMode(tilde, b + c + f);
    ForeignToColor(tilde, c + f);
    ForeignToScaling(tilde, f);
    CM.DecodesAmong(compatibilityMode, tilde, b + c + f);
    Color.DecodesAmong(colorMode, tilde, c + f);
    DPI.DecodesAmong(dpiScaling, tilde, f);
    Regroupings(tilde, a, b, c, f);
    ReadInTurn(CM.Descriptions, CM.None, Color.Descriptions, Color.None, DPI.Descriptions, DPI.None,
               tilde + a + b + c + f, tilde + (b + c + f), tilde + (c + f), tilde + f,
               compatibilityMode, colorMode, dpiScaling);
  }

  /** Chaining the three decodes once each is known to take out its own words. */
  lemma ReadInTurn<A, B, C>(first: EnumServices.Table<A>, firstDefault: A,
                            second: EnumServices.Table<B>, secondDefault: B,
                            third: EnumServices.Table<C>, thirdDefault: C,
                            words: seq<string>, afterFirst: seq<string>, afterSecond: seq<string>, afterThird: seq<string>,
                            x: A, y: B, z: C)
    requires EnumServices.Decode(first, firstDefault, words) == (x, afterFirst)
    requires EnumServices.Decode(second, secondDefault, afterFirst) == (y, afterSecond)
    requires EnumServices.Decode(third, thirdDefault, afterSecond) == (z, afterThird)
    ensures ReadInOrder(first, firstDefault, second, secondDefault, third, thirdDefault, words) == (x, y, z, afterThird)
  {
  }

  /** The groupings of the line's words that the three decodes see. */
  lemma Regroupings(tilde: seq<string>, a: seq<string>, b: seq<string>, c: seq<string>, f: seq<string>)
    ensures tilde + a + b + c + f == tilde + a + (b + c + f)
    ensures tilde + (b + c + f) == tilde + b + (c + f)
    ensures tilde + (c + f) == tilde + c + f
  {
  }

  /** A word of some color token. */
  predicate IsColorWord(w: string) {
    w == "256COLOR" || w == "BITCOLOR"
  }

  /** A word of some scaling token. */
  predicate IsScalingWord(w: string) {
    w == "HIGHDPIAWARE" || w == "DPIUNAWARE" || w == "GDIDPISCALING"
  }

  /** A word of some flag token. */
  predicate IsFlagWord(w: string) {
    w == "640X480" || w == "DISABLEDXMAXIMIZEDWINDOWEDMODE" || w == "RUNASADMIN"
  }

  /** Proof helper: the color part is made of color words. */
  lemma ColorPartWords(colorMode: Color.ColorMode)
    ensures forall w :: w in (if colorMode == Color.None then [] else [Color.ToRegistryString(colorMode)]) ==> IsColorWord(w)
  {
  }

  /** Proof helper: the scaling part is made of scaling words. */
  lemma DPIPartWords(dpiScaling: DPI.DPIScaling)
    ensures forall w :: w in (if dpiScaling == DPI.None then [] else Split(DPI.ToRegistryString(dpiScaling))) ==> IsScalingWord(w)
  {
    match dpiScaling
    case None =>
    case HIGHDPIAWARE => DPI.WordIsItsSplit("HIGHDPIAWARE");
    case DPIUNAWARE => DPI.WordIsItsSplit("DPIUNAWARE");
    case GDIDPISCALING => DPI.TwoWordSplit("GDIDPISCALING DPIUNAWARE");
  }

  /** Proof helper: the flag part is made of flag words. */
  lemma FlagPartWords(otherFlags: Flags.OtherFlags)
    ensures forall w :: w in Flags.FlagTokens(otherFlags) ==> IsFlagWord(w)
  {
    Flags.FlagTokensAre(otherFlags);
  }

  /** Proof helper: the tilde and the later parts hold no compatibility-mode word. */
  lemma ForeignToMode(tilde: seq<string>, rest: seq<string>)
    requires tilde == [] || tilde == ["~"]
    requires forall w :: w in rest ==> IsColorWord(w) || IsScalingWord(w) || IsFlagWord(w)
    ensures EnumServices.Foreign(CM.Descriptions, tilde) && EnumServices.Foreign(CM.Descriptions, rest)
  {
    forall w | w in tilde || w in rest ensures !EnumServices.IsVocabulary(CM.Descriptions, w) {
      CM.VocabularyInitials(w);
    }
  }

  /** Proof helper: the tilde and the later parts hold no color word. */
  lemma ForeignToColor(tilde: seq<string>, rest: seq<string>)
    requires tilde == [] || tilde == ["~"]
    requires forall w :: w in rest ==> IsScalingWord(w) || IsFlagWord(w)
    ensures EnumServices.Foreign(Color.Descriptions, tilde) && EnumServices.Foreign(Color.Descriptions, rest)
  {
    forall w | w in tilde || w in rest ensures !EnumServices.IsVocabulary(Color.Descriptions, w) {
      Color.VocabularyInitials(w);
    }
  }

  /** Proof helper: the tilde and the flag part hold no scaling word. */
  lemma ForeignToScaling(tilde: seq<string>, rest: seq<string>)
    requires tilde == [] || tilde == ["~"]
    requires forall w :: w in rest ==> IsFlagWord(w)
    ensures EnumServices.Foreign(DPI.Descriptions, tilde) && EnumServices.Foreign(DPI.Descriptions, rest)
  {
    forall w | w in tilde || w in rest ensures !EnumServices.IsVocabulary(DPI.Descriptions, w) {
      DPI.VocabularyIs(w);
    }
  }
}

=== FILE: settings_view_model.dfy ===
/**
 * The settings record behind an application's settings panel: the raw enum
 * and flag fields, one nullable checkbox per category, the free-form
 * additional flags and the "has changed" mark.
 *
 * Prism's `SetProperty(ref storage, value, onChanged)` is "assign, and run
 * the callback only if the value differs"; every property write is a
 * `Write`, and `Assign` is what the record's public setter does with it.
 * `Properties.Settings.Default`, where the last-used enum values live, is a
 * `LastUsedSettings` object passed to the methods that read or save it.
 */
module SettingsViewModels {
  import opened Wrappers
  import Strings
  import CM = CompatibilityModeServices
  import Color = ColorModeServices
  import DPI = DPIScalingServices
  import Flags = OtherExtensions

  /** `value ?? false`: a nullable checkbox counts as ticked only when it is `true`. */
  predicate IsTicked(checked: Option<bool>) {
    checked == Some(true)
  }

  /** The six checkboxes: three gate an enum, three control one flag bit each. */
  datatype Checkbox =
    | CompatibilityModeBox
    | ColorModeBox
    | DPIScalingBox
    | Resolution640x480Box
    | DisableFullscreenOptimizationsBox
    | RunAsAdministratorBox

  /** The bit a flag checkbox controls; the enum checkboxes control no bit. */
  function BoxFlag(box: Checkbox): (flag: Flags.OtherFlags)
    ensures flag != Flags.None <==> box.Resolution640x480Box? || box.DisableFullscreenOptimizationsBox? || box.RunAsAdministratorBox?
  {
    match box
    case Resolution640x480Box => Flags.RESOLUTION640X480
    case DisableFullscreenOptimizationsBox => Flags.DISABLEDXMAXIMIZEDWINDOWEDMODE
    case RunAsAdministratorBox => Flags.RUNASADMIN
    case _ => Flags.None
  }

  /** Every field of a record except the additional flags. */
  datatype Settings = Settings(
    compatibilityMode: CM.CompatibilityMode,
    colorMode: Color.ColorMode,
    dpiScaling: DPI.DPIScaling,
    otherFlags: Flags.OtherFlags,
    compatibilityModeChecked: Option<bool>,
    colorModeChecked: Option<bool>,
    dpiScalingChecked: Option<bool>,
    resolution640x480Checked: Option<bool>,
    disableFullscreenOptimizationsChecked: Option<bool>,
    runAsAdministratorChecked: Option<bool>,
    hasChanged: bool)
  {
    /** The `CompatibilityMode` getter: the raw value only while its box is ticked. */
    function CompatibilityMode(): CM.CompatibilityMode {
      if IsTicked(compatibilityModeChecked) then compatibilityMode else CM.None
    }

    /** The `ColorMode` getter: the raw value only while its box is ticked. */
    function ColorMode(): Color.ColorMode {
      if IsTicked(colorModeChecked) then colorMode else Color.None
    }

    /** The `DPIScaling` getter: the raw value only while its box is ticked. */
    function DPIScaling(): DPI.DPIScaling {
      if IsTicked(dpiScalingChecked) then dpiScaling else DPI.None
    }

    /** The tick state of `box`. */
    function Checked(box: Checkbox): Option<bool> {
      match box
      case CompatibilityModeBox => compatibilityModeChecked
      case ColorModeBox => colorModeChecked
      case DPIScalingBox => dpiScalingChecked
      case Resolution640x480Box => resolution640x480Checked
      case DisableFullscreenOptimizationsBox => disableFullscreenOptimizationsChecked
      case RunAsAdministratorBox => runAsAdministratorChecked
    }

    /** The record with the tick state of `box` replaced. */
    function WithChecked(box: Checkbox, value: Option<bool>): Settings {
      match box
      case CompatibilityModeBox => this.(compatibilityModeChecked := value)
      case ColorModeBox => this.(colorModeChecked := value)
      case DPIScalingBox => this.(dpiScalingChecked := value)
      case Resolution640x480Box => this.(resolution640x480Checked := value)
      case DisableFullscreenOptimizationsBox => this.(disableFullscreenOptimizationsChecked := value)
      case RunAsAdministratorBox => this.(runAsAdministratorChecked := value)
    }
  }

  /** A freshly constructed record: every value `None`, every box `false`, nothing changed. */
  const Default: Settings := Settings(CM.None, Color.None, DPI.None, Flags.None,
                                      Some(false), Some(false), Some(false), Some(false), Some(false), Some(false), false)

  /** `IsCleared`: the three gated enums and the flags are `None`, and there is no additional flag. */
  predicate IsCleared(s: Settings, additionalFlags: seq<string>) {
    && s.CompatibilityMode() == CM.None && s.ColorMode() == Color.None && s.DPIScaling() == DPI.None
    && s.otherFlags == Flags.None && additionalFlags == []
  }

  /** The last-used enum values that ticking an empty enum box brings back. */
  datatype LastUsed = LastUsed(compatibilityMode: CM.CompatibilityMode, colorMode: Color.ColorMode,
                               dpiScaling: DPI.DPIScaling)

  /** `Properties.Settings.Default`: the saved last-used values, shared by every record. */
  class LastUsedSettings {
    var lastCompatibilityMode: CM.CompatibilityMode
    var lastColorMode: Color.ColorMode
    var lastDPIScaling: DPI.DPIScaling

    /** The fields, as a record. */
    function Value(): LastUsed
      reads this
    {
      LastUsed(lastCompatibilityMode, lastColorMode, lastDPIScaling)
    }
  }

  /** A write to one public property of a record, with the value written. */
  datatype Write =
    | WriteCompatibilityMode(compatibilityMode: CM.CompatibilityMode)
    | WriteColorMode(colorMode: Color.ColorMode)
    | WriteDPIScaling(dpiScaling: DPI.DPIScaling)
    | WriteOtherFlags(otherFlags: Flags.OtherFlags)
    | WriteAdditionalFlags(additionalFlags: seq<string>)
    | WriteChecked(box: Checkbox, value: Option<bool>)
    | WriteHasChanged(hasChanged: bool)


  /**
   * `SetEnumProperty`: ticking a box whose enum is `None` brings in the
   * last-used value; any other write leaves the enum as it is, so a value
   * already chosen is never replaced.
   */
  function SetEnumProperty<E(==)>(storage: E, newValue: E, value: Option<bool>, none: E): (r: E)
    ensures r == storage || (IsTicked(value) && storage == none && r == newValue)
    ensures IsTicked(value) && storage == none ==> r == newValue
  {
    if IsTicked(value) && storage == none then newValue else storage
  }

  /** `SetFlagProperty`: ticking sets the bits of `flag`, anything else clears them; no other bit moves. */
  function SetFlagProperty(storage: Flags.OtherFlags, flag: Flags.OtherFlags, value: Option<bool>): (r: Flags.OtherFlags)
    ensures IsTicked(value) ==> Flags.HasFlag(r, flag)
    ensures !IsTicked(value) ==> r & flag == Flags.None
    ensures r & !flag == storage & !flag
  {
    if IsTicked(value) then storage | flag else storage & !flag
  }

  /**
   * What the record's public setter does with a write. A changed enum, flag
   * set or checkbox runs `OnSettingsChanged`, which marks the record
   * changed; a new additional-flag collection is always a different
   * reference and so always marks it. A checkbox first adjusts its enum or
   * bit, without marking the record. So a write touches only its own value,
   * or its own box with that box's enum or bit, and never clears the mark
   * unless it is a write of `HasChanged` itself.
   */
  function Assign(s: Settings, last: LastUsed, w: Write): (r: Settings)
    ensures r.compatibilityMode != s.compatibilityMode ==>
      w.WriteCompatibilityMode? || (w.WriteChecked? && w.box == CompatibilityModeBox)
    ensures r.colorMode != s.colorMode ==> w.WriteColorMode? || (w.WriteChecked? && w.box == ColorModeBox)
    ensures r.dpiScaling != s.dpiScaling ==> w.WriteDPIScaling? || (w.WriteChecked? && w.box == DPIScalingBox)
    ensures r.otherFlags != s.otherFlags ==> w.WriteOtherFlags? || (w.WriteChecked? && BoxFlag(w.box) != Flags.None)
    ensures forall box :: r.Checked(box) != s.Checked(box) ==> w.WriteChecked? && w.box == box
    ensures w.WriteChecked? ==> r.Checked(w.box) == w.value
    ensures s.hasChanged && !w.WriteHasChanged? ==> r.hasChanged
  {
    match w
    case WriteCompatibilityMode(v) => s.(compatibilityMode := v, hasChanged := s.hasChanged || s.compatibilityMode != v)
    case WriteColorMode(v) => s.(colorMode := v, hasChanged := s.hasChanged || s.colorMode != v)
    case WriteDPIScaling(v) => s.(dpiScaling := v, hasChanged := s.hasChanged || s.dpiScaling != v)
    case WriteOtherFlags(v) => s.(otherFlags := v, hasChanged := s.hasChanged || s.otherFlags != v)
    case WriteAdditionalFlags(_) => s.(hasChanged := true)
    case WriteHasChanged(b) => s.(hasChanged := b)
    case WriteChecked(box, v) =>
      var adjusted := match box
        case CompatibilityModeBox =>
          s.(compatibilityMode := SetEnumProperty(s.compatibilityMode, last.compatibilityMode, v, CM.None))
        case ColorModeBox =>
          s.(colorMode := SetEnumProperty(s.colorMode, last.colorMode, v, Color.None))
        case DPIScalingBox =>
          s.(dpiScaling := SetEnumProperty(s.dpiScaling, last.dpiScaling, v, DPI.None))
        case _ =>
          s.(otherFlags := SetFlagProperty(s.otherFlags, BoxFlag(box), v));
      adjusted.WithChecked(box, v).(hasChanged := s.hasChanged || s.Checked(box) != v)
  }

  /** The enum setters save the value written as the last-used one; no other write saves. */
  function Saved(last: LastUsed, w: Write): LastUsed {
    match w
    case WriteCompatibilityMode(v) => last.(compatibilityMode := v)
    case WriteColorMode(v) => last.(colorMode := v)
    case WriteDPIScaling(v) => last.(dpiScaling := v)
    case _ => last
  }

  /** The additional flags after a write. */
  function AdditionalFlagsAfter(additionalFlags: seq<string>, w: Write): seq<string> {
    if w.WriteAdditionalFlags? then w.additionalFlags else additionalFlags
  }

  /** Each box shows whether its enum is set or its bit is on, as after loading from a registry string. */
  predicate Consistent(s: Settings) {
    && s.compatibilityModeChecked == Some(s.compatibilityMode != CM.None)
    && s.colorModeChecked == Some(s.colorMode != Color.None)
    && s.dpiScalingChecked == Some(s.dpiScaling != DPI.None)
    && s.resolution640x480Checked == Some(Flags.HasFlag(s.otherFlags, Flags.RESOLUTION640X480))
    && s.disableFullscreenOptimizationsChecked == Some(Flags.HasFlag(s.otherFlags, Flags.DISABLEDXMAXIMIZEDWINDOWEDMODE))
    && s.runAsAdministratorChecked == Some(Flags.HasFlag(s.otherFlags, Flags.RUNASADMIN))
  }

  /** The tuple the whole-line decoder returns: the three enums, the flags and the unrecognised words. */
  datatype Decoded = Decoded(compatibilityMode: CM.CompatibilityMode, colorMode: Color.ColorMode,
                             dpiScaling: DPI.DPIScaling, otherFlags: Flags.OtherFlags,
                             additionalFlags: seq<string>)

  /**
   * The record the registry-string constructor builds, with its additional
   * flags: the defaults for a blank string; otherwise the decoded values,
   * shown by their getters, with every box matching its value and nothing
   * marked changed.
   */
  function Load(registryString: string, decode: string -> Decoded): (r: (Settings, seq<string>))
    ensures Strings.IsNullOrWhiteSpace(registryString) ==> r == (Default, [])
    ensures !Strings.IsNullOrWhiteSpace(registryString) ==>
      var d := decode(registryString);
      && r.0.CompatibilityMode() == d.compatibilityMode && r.0.ColorMode() == d.colorMode
      && r.0.DPIScaling() == d.dpiScaling && r.0.otherFlags == d.otherFlags
      && r.1 == d.additionalFlags
    ensures Consistent(r.0) && !r.0.hasChanged
  {
    if Strings.IsNullOrWhiteSpace(registryString) then (Default, [])
    else
      var d := decode(registryString);
      (Settings(d.compatibilityMode, d.colorMode, d.dpiScaling, d.otherFlags,
                Some(d.compatibilityMode != CM.None), Some(d.colorMode != Color.None),
                Some(d.dpiScaling != DPI.None),
                Some(Flags.HasFlag(d.otherFlags, Flags.RESOLUTION640X480)),
                Some(Flags.HasFlag(d.otherFlags, Flags.DISABLEDXMAXIMIZEDWINDOWEDMODE)),
                Some(Flags.HasFlag(d.otherFlags, Flags.RUNASADMIN)), false),
       d.additionalFlags)
  }

  /**
   * The record after `Clear`: every box unticked and every bit cleared, so
   * `IsCleared` holds once the additional flags are emptied; the raw enum
   * values stay behind the unticked boxes, and the new additional-flag
   * collection marks the record changed.
   */
  function ClearedState(s: Settings): (r: Settings)
    ensures IsCleared(r, [])
    ensures forall box :: r.Checked(box) == Some(false)
    ensures r.compatibilityMode == s.compatibilityMode && r.colorMode == s.colorMode && r.dpiScaling == s.dpiScaling
    ensures r.hasChanged
  {
    Settings(s.compatibilityMode, s.colorMode, s.dpiScaling, Flags.None,
             Some(false), Some(false), Some(false), Some(false), Some(false), Some(false), true)
  }

  /** The enum `ReloadFromRegistryString` writes: the loaded one unless it is `None`, else the current one. */
  function Pick<E(==)>(loaded: E, current: E, none: E): (r: E)
    ensures r == loaded || r == current
    ensures r == none <==> loaded == none && current == none
    ensures loaded != none ==> r == loaded
  {
    if loaded != none then loaded else current
  }

  /** The last-used values after `ReloadFromRegistryString`: the three enums it wrote. */
  function ReloadedLastUsed(s: Settings, loaded: Settings): LastUsed {
    LastUsed(Pick(loaded.CompatibilityMode(), s.CompatibilityMode(), CM.None),
             Pick(loaded.ColorMode(), s.ColorMode(), Color.None),
             Pick(loaded.DPIScaling(), s.DPIScaling(), DPI.None))
  }

  /**
   * The record after `ReloadFromRegistryString` on a record in state `s`
   * with `loaded` built from the string: the written enums, the loaded
   * flags with each flag box applied again, the loaded boxes, and no
   * change marked.
   */
  function Reloaded(s: Settings, loaded: Settings): Settings {
    var last := ReloadedLastUsed(s, loaded);
    var flags := SetFlagProperty(SetFlagProperty(SetFlagProperty(loaded.otherFlags,
        Flags.RESOLUTION640X480, loaded.resolution640x480Checked),
        Flags.DISABLEDXMAXIMIZEDWINDOWEDMODE, loaded.disableFullscreenOptimizationsChecked),
        Flags.RUNASADMIN, loaded.runAsAdministratorChecked);
    Settings(last.compatibilityMode, last.colorMode, last.dpiScaling, flags,
             loaded.compatibilityModeChecked, loaded.colorModeChecked, loaded.dpiScalingChecked,
             loaded.resolution640x480Checked, loaded.disableFullscreenOptimizationsChecked,
             loaded.runAsAdministratorChecked, false)
  }

  /** The five-argument encoder the record hands its gated values to. */
  type Encoder = (CM.CompatibilityMode, Color.ColorMode, DPI.DPIScaling, Flags.OtherFlags, seq<string>) -> string

  class SettingsViewModel {
    var compatibilityMode: CM.CompatibilityMode
    var colorMode: Color.ColorMode
    var dpiScaling: DPI.DPIScaling
    var otherFlags: Flags.OtherFlags
    var additionalFlags: seq<string>
    var compatibilityModeChecked: Option<bool>
    var colorModeChecked: Option<bool>
    var dpiScalingChecked: Option<bool>
    var resolution640x480Checked: Option<bool>
    var disableFullscreenOptimizationsChecked: Option<bool>
    var runAsAdministratorChecked: Option<bool>
    var hasChanged: bool

    /** Every field but the additional flags, as one value. */
    function State(): Settings
      reads this
    {
      Settings(compatibilityMode, colorMode, dpiScaling, otherFlags,
               compatibilityModeChecked, colorModeChecked, dpiScalingChecked,
               resolution640x480Checked, disableFullscreenOptimizationsChecked, runAsAdministratorChecked,
               hasChanged)
    }

    /** Store a whole state in the fields. */
    method Put(s: Settings)
      modifies this
      ensures State() == s && additionalFlags == old(additionalFlags)
    {
      compatibilityMode, colorMode, dpiScaling, otherFlags := s.compatibilityMode, s.colorMode, s.dpiScaling, s.otherFlags;
      compatibilityModeChecked, colorModeChecked, dpiScalingChecked := s.compatibilityModeChecked, s.colorModeChecked, s.dpiScalingChecked;
      resolution640x480Checked, disableFullscreenOptimizationsChecked := s.resolution640x480Checked, s.disableFullscreenOptimizationsChecked;
      runAsAdministratorChecked, hasChanged := s.runAsAdministratorChecked, s.hasChanged;
    }

    /** The parameterless constructor: the field initialisers. */
    constructor ()
      ensures State() == Default && additionalFlags == []
    {
      compatibilityMode, colorMode, dpiScaling, otherFlags := CM.None, Color.None, DPI.None, Flags.None;
      additionalFlags := [];
      compatibilityModeChecked, colorModeChecked, dpiScalingChecked := Some(false), Some(false), Some(false);
      resolution640x480Checked, disableFullscreenOptimizationsChecked, runAsAdministratorChecked := Some(false), Some(false), Some(false);
      hasChanged := false;
    }

    /**
     * The registry-string constructor: a blank string leaves the defaults;
     * otherwise the decoded values are stored and each box is ticked exactly
     * when its enum is not `None` or its bit is set.
     */
    constructor FromRegistryString(registryString: string, decode: string -> Decoded)
      ensures (State(), additionalFlags) == Load(registryString, decode)
    {
      compatibilityMode, colorMode, dpiScaling, otherFlags := CM.None, Color.None, DPI.None, Flags.None;
      additionalFlags := [];
      compatibilityModeChecked, colorModeChecked, dpiScalingChecked := Some(false), Some(false), Some(false);
      resolution640x480Checked, disableFullscreenOptimizationsChecked, runAsAdministratorChecked := Some(false), Some(false), Some(false);
      hasChanged := false;
      if !Strings.IsNullOrWhiteSpace(registryString) {
        var d := decode(registryString);
        compatibilityMode, colorMode, dpiScaling, otherFlags := d.compatibilityMode, d.colorMode, d.dpiScaling, d.otherFlags;
        additionalFlags := d.additionalFlags;
        compatibilityModeChecked := Some(d.compatibilityMode != CM.None);
        colorModeChecked := Some(d.colorMode != Color.None);
        dpiScalingChecked := Some(d.dpiScaling != DPI.None);
        resolution640x480Checked := Some(Flags.HasFlag(d.otherFlags, Flags.RESOLUTION640X480));
        disableFullscreenOptimizationsChecked := Some(Flags.HasFlag(d.otherFlags, Flags.DISABLEDXMAXIMIZEDWINDOWEDMODE));
        runAsAdministratorChecked := Some(Flags.HasFlag(d.otherFlags, Flags.RUNASADMIN));
      }
    }

    /** A write through the public property setter; the enum setters also save the value as last used. */
    method Set(w: Write, store: LastUsedSettings)
      modifies this, store
      ensures State() == Assign(old(State()), old(store.Value()), w)
      ensures additionalFlags == AdditionalFlagsAfter(old(additionalFlags), w)
      ensures store.Value() == Saved(old(store.Value()), w)
    {
      var last := store.Value();
      Put(Assign(State(), last, w));
      match w
      case WriteCompatibilityMode(v) => store.lastCompatibilityMode := v;
      case WriteColorMode(v) => store.lastColorMode := v;
      case WriteDPIScaling(v) => store.lastDPIScaling := v;
      case WriteAdditionalFlags(flags) => additionalFlags := flags;
      case _ =>
    }

    /** `IsCleared` on the record's current fields. */
    predicate Cleared()
      reads this
    {
      IsCleared(State(), additionalFlags)
    }

    /**
     * `ToRegistryString`: the encoder applied to the gated enums, the flags
     * and the additional flags. An enum kept behind an unticked box never
     * reaches the encoder; `None` goes in its place.
     */
    function ToRegistryString(encode: Encoder): (r: string)
      reads this
      ensures !IsTicked(compatibilityModeChecked) ==>
        r == encode(CM.None, State().ColorMode(), State().DPIScaling(), otherFlags, additionalFlags)
      ensures !IsTicked(colorModeChecked) ==>
        r == encode(State().CompatibilityMode(), Color.None, State().DPIScaling(), otherFlags, additionalFlags)
      ensures !IsTicked(dpiScalingChecked) ==>
        r == encode(State().CompatibilityMode(), State().ColorMode(), DPI.None, otherFlags, additionalFlags)
    {
      encode(State().CompatibilityMode(), State().ColorMode(), State().DPIScaling(), otherFlags, additionalFlags)
    }

    /** `Clear`: untick every box through its setter, then install an empty additional-flag collection. */
    method Clear(store: LastUsedSettings)
      modifies this, store
      ensures State() == ClearedState(old(State())) && additionalFlags == []
      ensures store.Value() == old(store.Value())
    {
      Set(WriteChecked(CompatibilityModeBox, Some(false)), store);
      Set(WriteChecked(ColorModeBox, Some(false)), store);
      Set(WriteChecked(DPIScalingBox, Some(false)), store);
      Set(WriteChecked(Resolution640x480Box, Some(false)), store);
      Set(WriteChecked(DisableFullscreenOptimizationsBox, Some(false)), store);
      Set(WriteChecked(RunAsAdministratorBox, Some(false)), store);
      Set(WriteAdditionalFlags([]), store);
    }

    /**
     * `ReloadFromRegistryString`: build a record from the string, then copy
     * it in through the public setters, keeping the current enum where the
     * loaded one is `None`, and finally reset the changed mark.
     */
    method ReloadFromRegistryString(registryString: string, decode: string -> Decoded, store: LastUsedSettings)
      modifies this, store
      ensures State() == Reloaded(old(State()), Load(registryString, decode).0)
      ensures additionalFlags == Load(registryString, decode).1
      ensures store.Value() == ReloadedLastUsed(old(State()), Load(registryString, decode).0)
    {
      var settings := new SettingsViewModel.FromRegistryString(registryString, decode);
      var loaded := settings.State();
      WriteValues(loaded, settings.additionalFlags, store);
      WriteBoxes(old(State()), loaded, store);
      Set(WriteHasChanged(false), store);
    }

    /** The first half of a reload: the enums, the flags and the additional flags. */
    method WriteValues(loaded: Settings, flags: seq<string>, store: LastUsedSettings)
      modifies this, store
      ensures var last := ReloadedLastUsed(old(State()), loaded);
        && store.Value() == last && additionalFlags == flags
        && State().(hasChanged := false) == old(State()).(compatibilityMode := last.compatibilityMode,
             colorMode := last.colorMode, dpiScaling := last.dpiScaling, otherFlags := loaded.otherFlags, hasChanged := false)
    {
      var current := State();
      Set(WriteCompatibilityMode(Pick(loaded.CompatibilityMode(), current.CompatibilityMode(), CM.None)), store);
      Set(WriteColorMode(Pick(loaded.ColorMode(), current.ColorMode(), Color.None)), store);
      Set(WriteDPIScaling(Pick(loaded.DPIScaling(), current.DPIScaling(), DPI.None)), store);
      Set(WriteOtherFlags(loaded.otherFlags), store);
      Set(WriteAdditionalFlags(flags), store);
    }

    /** The second half of a reload: the six boxes, each seeing the enum the first half wrote. */
    method WriteBoxes(ghost before: Settings, loaded: Settings, store: LastUsedSettings)
      modifies this, store
      requires store.Value() == ReloadedLastUsed(before, loaded)
      requires State().(hasChanged := false) == before.(compatibilityMode := store.Value().compatibilityMode,
        colorMode := store.Value().colorMode, dpiScaling := store.Value().dpiScaling, otherFlags := loaded.otherFlags, hasChanged := false)
      ensures store.Value() == old(store.Value()) && additionalFlags == old(additionalFlags)
      ensures State().(hasChanged := false) == Reloaded(before, loaded)
    {
      Set(WriteChecked(CompatibilityModeBox, loaded.compatibilityModeChecked), store);
      Set(WriteChecked(ColorModeBox, loaded.colorModeChecked), store);
      Set(WriteChecked(DPIScalingBox, loaded.dpiScalingChecked), store);
      Set(WriteChecked(Resolution640x480Box, loaded.resolution640x480Checked), store);
      Set(WriteChecked(DisableFullscreenOptimizationsBox, loaded.disableFullscreenOptimizationsChecked), store);
      Set(WriteChecked(RunAsAdministratorBox, loaded.runAsAdministratorChecked), store);
    }

    /** `AddFlag`: append one empty additional flag and mark the record changed. */
    method AddFlag()
      modifies this
      ensures additionalFlags == old(additionalFlags) + [""]
      ensures State() == old(State()).(hasChanged := true)
    {
      additionalFlags := additionalFlags + [""];
      hasChanged := true;
    }

    /** `RemoveFlag`: remove the first occurrence of the flag, if any, and mark the record changed. */
    method RemoveFlag(flag: string)
      modifies this
      ensures additionalFlags == Strings.RemoveFirst(old(additionalFlags), flag)
      ensures State() == old(State()).(hasChanged := true)
    {
      additionalFlags := Strings.RemoveFirst(additionalFlags, flag);
      hasChanged := true;
    }
  }

  /**
   * Ticking an enum box shows the stored value, or the last-used one when
   * nothing is stored; unticking hides the value as `None` but keeps it
   * stored; nothing but the enum, its box and the changed mark moves.
   */
  lemma EnumBoxWrite(s: Settings, last: LastUsed, v: Option<bool>)
    ensures var t := Assign(s, last, WriteChecked(CompatibilityModeBox, v));
      && t.CompatibilityMode() == (if !IsTicked(v) then CM.None else if s.compatibilityMode != CM.None then s.compatibilityMode else last.compatibilityMode)
      && t.compatibilityModeChecked == v
      && (IsTicked(v) || t.compatibilityMode == s.compatibilityMode)
      && t.(compatibilityMode := s.compatibilityMode, compatibilityModeChecked := s.compatibilityModeChecked, hasChanged := s.hasChanged) == s
    ensures var t := Assign(s, last, WriteChecked(ColorModeBox, v));
      && t.ColorMode() == (if !IsTicked(v) then Color.None else if s.colorMode != Color.None then s.colorMode else last.colorMode)
      && t.colorModeChecked == v
      && (IsTicked(v) || t.colorMode == s.colorMode)
      && t.(colorMode := s.colorMode, colorModeChecked := s.colorModeChecked, hasChanged := s.hasChanged) == s
    ensures var t := Assign(s, last, WriteChecked(DPIScalingBox, v));
      && t.DPIScaling() == (if !IsTicked(v) then DPI.None else if s.dpiScaling != DPI.None then s.dpiScaling else last.dpiScaling)
      && t.dpiScalingChecked == v
      && (IsTicked(v) || t.dpiScaling == s.dpiScaling)
      && t.(dpiScaling := s.dpiScaling, dpiScalingChecked := s.dpiScalingChecked, hasChanged := s.hasChanged) == s
  {
  }

  /**
   * A flag box write turns its bit on exactly when the box is ticked and
   * leaves every other bit, and every other field but the box and the
   * changed mark, as it was.
   */
  lemma FlagBoxWrite(s: Settings, last: LastUsed, box: Checkbox, v: Option<bool>)
    requires BoxFlag(box) != Flags.None
    ensures var t := Assign(s, last, WriteChecked(box, v));
      && (Flags.HasFlag(t.otherFlags, BoxFlag(box)) <==> IsTicked(v))
      && t.otherFlags & !BoxFlag(box) == s.otherFlags & !BoxFlag(box)
      && t.Checked(box) == v
      && t.(otherFlags := s.otherFlags, hasChanged := s.hasChanged).WithChecked(box, s.Checked(box)) == s
  {
    var t := Assign(s, last, WriteChecked(box, v));
    var f := BoxFlag(box);
    if !IsTicked(v) {
      assert t.otherFlags & f == Flags.None;
    }
  }

  /**
   * Only the explicit `HasChanged` write lowers the changed mark; writing a
   * different value to a property, or any new additional-flag collection,
   * raises it.
   */
  lemma ChangedMark(s: Settings, last: LastUsed, w: Write)
    ensures var t := Assign(s, last, w);
      && (!w.WriteHasChanged? && s.hasChanged ==> t.hasChanged)
      && (w.WriteChecked? && s.Checked(w.box) != w.value ==> t.hasChanged)
      && (w.WriteCompatibilityMode? && s.compatibilityMode != w.compatibilityMode ==> t.hasChanged)
      && (w.WriteColorMode? && s.colorMode != w.colorMode ==> t.hasChanged)
      && (w.WriteDPIScaling? && s.dpiScaling != w.dpiScaling ==> t.hasChanged)
      && (w.WriteOtherFlags? && s.otherFlags != w.otherFlags ==> t.hasChanged)
      && (w.WriteAdditionalFlags? ==> t.hasChanged)
  {
  }

  /**
   * Writing `true` to a compatibility-mode box that is already ticked over
   * an empty mode fills in the last-used mode, so the getter shows a new
   * value, yet the record is not marked changed: the enum is written
   * without `OnSettingsChanged`, and the box itself does not change.
   */
  lemma RetickFillsUnmarked(s: Settings, last: LastUsed)
    requires s.compatibilityModeChecked == Some(true) && s.compatibilityMode == CM.None
    requires last.compatibilityMode != CM.None
    ensures var t := Assign(s, last, WriteChecked(CompatibilityModeBox, Some(true)));
      && s.CompatibilityMode() == CM.None
      && t.CompatibilityMode() == last.compatibilityMode
      && t.hasChanged == s.hasChanged
  {
  }

  /**
   * Reloading from a registry string shows what was loaded: the getters
   * and the boxes agree with the loaded record, the flags are the loaded
   * flags, and nothing is marked changed; where the loaded enum is `None`
   * the current shown value stays stored behind the unticked box.
   */
  lemma ReloadShowsLoaded(s: Settings, loaded: Settings)
    requires Consistent(loaded)
    ensures var t := Reloaded(s, loaded);
      && t.CompatibilityMode() == loaded.CompatibilityMode()
      && t.ColorMode() == loaded.ColorMode()
      && t.DPIScaling() == loaded.DPIScaling()
      && t.otherFlags == loaded.otherFlags
      && (forall box :: t.Checked(box) == loaded.Checked(box))
      && !t.hasChanged
      && (loaded.compatibilityMode == CM.None ==> t.compatibilityMode == s.CompatibilityMode())
      && (loaded.colorMode == Color.None ==> t.colorMode == s.ColorMode())
      && (loaded.dpiScaling == DPI.None ==> t.dpiScaling == s.DPIScaling())
  {
    var f := loaded.otherFlags;
    FlagsRestored(f);
  }

  /** Applying each flag box that matches its bit leaves the flag set as it was. */
  lemma FlagsRestored(f: Flags.OtherFlags)
    ensures SetFlagProperty(SetFlagProperty(SetFlagProperty(f,
        Flags.RESOLUTION640X480, Some(Flags.HasFlag(f, Flags.RESOLUTION640X480))),
        Flags.DISABLEDXMAXIMIZEDWINDOWEDMODE, Some(Flags.HasFlag(f, Flags.DISABLEDXMAXIMIZEDWINDOWEDMODE))),
        Flags.RUNASADMIN, Some(Flags.HasFlag(f, Flags.RUNASADMIN))) == f
  {
  }

  /** A cleared record hands the encoder nothing but `None` values and no additional flag. */
  lemma ClearedEncodesNothing(m: SettingsViewModel, encode: Encoder)
    requires m.Cleared()
    ensures m.ToRegistryString(encode) == encode(CM.None, Color.None, DPI.None, Flags.None, [])
  {
  }
}

=== FILE: strings.dfy ===
/**
 * The .NET string and list primitives that the codec calls, written out:
 * `Char.IsWhiteSpace`, `string.IsNullOrWhiteSpace`, `string.Split(null)`,
 * `string.Join(" ", ...)`, `string.Contains` and `List<string>.Remove`.
 * Strings are sequences of UTF-16 code units, modelled as `seq<char>`.
 */
module Strings {

  /** `Char.IsWhiteSpace`: the Unicode space separators plus the C0/C1 spacing controls. */
  predicate IsWhiteSpace(c: char) {
    c == ' ' || c == '\t' || c == '\n' || c == '\U{000B}' || c == '\U{000C}' || c == '\r'
    || c == '\U{0085}' || c == '\U{00A0}' || c == '\U{1680}' || ('\U{2000}' <= c <= '\U{200A}')
    || c == '\U{2028}' || c == '\U{2029}' || c == '\U{202F}' || c == '\U{205F}' || c == '\U{3000}'
  }

  /** A string without whitespace: what `Split(null)` leaves whole. */
  predicate IsWord(s: string) {
    forall c :: c in s ==> !IsWhiteSpace(c)
  }

  /** `string.IsNullOrWhiteSpace` on a non-null string. */
  predicate IsNullOrWhiteSpace(s: string) {
    forall c :: c in s ==> IsWhiteSpace(c)
  }

  /**
   * `s.Split(null)`: cut at every whitespace character, keeping the empty
   * pieces between adjacent separators (so `Split("")` is `[""]`).
   */
  function Split(s: string): (r: seq<string>)
    ensures |r| >= 1
    ensures forall k :: 0 <= k < |r| ==> IsWord(r[k])
  {
    if s == [] then [""]
    else if IsWhiteSpace(s[0]) then [""] + Split(s[1..])
    else
      var t := Split(s[1..]);
      [[s[0]] + t[0]] + t[1..]
  }

  /** `string.Join(" ", parts)`. */
  function Join(parts: seq<string>): string {
    if parts == [] then ""
    else if |parts| == 1 then parts[0]
    else parts[0] + " " + Join(parts[1..])
  }

  /** The words of every part, in order. */
  function SplitAll(parts: seq<string>): seq<string> {
    if parts == [] then [] else Split(parts[0]) + SplitAll(parts[1..])
  }

  /** `t` occurs in `s` starting at offset `i`. */
  predicate OccursAt(s: string, t: string, i: int) {
    0 <= i && i + |t| <= |s| && s[i..i + |t|] == t
  }

  /** `s.Contains(t)` (ordinal): `t` occurs in `s` at some offset. */
  function Contains(s: string, t: string): (r: bool)
    ensures r <==> exists i :: OccursAt(s, t, i)
    decreases |s|
  {
    if |t| > |s| then false
    else if s[..|t|] == t then
      assert OccursAt(s, t, 0);
      true
    else
      var r := Contains(s[1..], t);
      assert r ==> exists i :: OccursAt(s, t, i) by {
        if r {
          var i :| OccursAt(s[1..], t, i);
          assert s[1..][i..i + |t|] == s[i + 1..i + 1 + |t|];
          assert OccursAt(s, t, i + 1);
        }
      }
      assert (exists i :: OccursAt(s, t, i)) ==> r by {
        if i :| OccursAt(s, t, i) {
          assert i != 0;
          assert s[1..][i - 1..i - 1 + |t|] == s[i..i + |t|];
          assert OccursAt(s[1..], t, i - 1);
        }
      }
      r
  }

  /** The position of the first occurrence of `x` in `l`. */
  function IndexOf<T(==)>(l: seq<T>, x: T): (i: nat)
    requires x in l
    ensures i < |l| && l[i] == x && x !in l[..i]
  {
    if l[0] == x then 0 else 1 + IndexOf(l[1..], x)
  }

  /**
   * `List<T>.Remove(x)`: drop the first occurrence of `x`, keeping every
   * other element in its order; no change when `x` is absent.
   */
  function RemoveFirst<T(==)>(l: seq<T>, x: T): (r: seq<T>)
    ensures x !in l ==> r == l
    ensures x in l ==> r == l[..IndexOf(l, x)] + l[IndexOf(l, x) + 1..]
  {
    if l == [] then []
    else if l[0] == x then l[1..]
    else
      var r := [l[0]] + RemoveFirst(l[1..], x);
      assert x in l ==> r == l[..IndexOf(l, x)] + l[IndexOf(l, x) + 1..] by {
        if x in l {
          assert x in l[1..];
          assert l[..IndexOf(l, x)] == [l[0]] + l[1..][..IndexOf(l[1..], x)];
          assert l[IndexOf(l, x) + 1..] == l[1..][IndexOf(l[1..], x) + 1..];
        }
      }
      r
  }

  /** `foreach (var w in ws) { l.Remove(w); }` */
  function RemoveAll<T(==)>(l: seq<T>, ws: seq<T>): seq<T> {
    if ws == [] then l else RemoveFirst(RemoveAll(l, ws[..|ws| - 1]), ws[|ws| - 1])
  }

  /** A word splits into itself. */
  lemma {:induction false} SplitWord(s: string)
    requires IsWord(s)
    ensures Split(s) == [s]
  {
    if s != [] {
      assert s[0] in s;
      SplitWord(s[1..]);
      assert [s[0]] + s[1..] == s;
    }
  }

  /** Two words joined by one space split back into the two words. */
  lemma SplitTwoWords(a: string, b: string)
    requires IsWord(a) && IsWord(b)
    ensures Split(a + " " + b) == [a, b]
  {
    SplitSpace(a, b);
    SplitWord(a);
    SplitWord(b);
  }

  /** Every character of the first part is in the joined string. */
  lemma JoinHead(parts: seq<string>, c: char)
    requires parts != [] && c in parts[0]
    ensures c in Join(parts)
  {
    if |parts| > 1 {
      assert Join(parts) == parts[0] + " " + Join(parts[1..]);
      assert Join(parts)[..|parts[0]|] == parts[0];
    }
  }

  /** A word put in front with one space becomes the first piece. */
  lemma SplitPrefixed(w: string, s: string)
    requires IsWord(w)
    ensures Split(w + " " + s) == [w] + Split(s)
  {
    SplitSpace(w, s);
    SplitWord(w);
  }

  /** Cutting at one space splits the words of both sides apart. */
  lemma {:induction false} SplitSpace(a: string, b: string)
    ensures Split(a + " " + b) == Split(a) + Split(b)
  {
    if a == [] {
      assert a + " " + b == [' '] + b;
      assert (a + " " + b)[1..] == b;
    } else {
      assert (a + " " + b)[0] == a[0];
      assert (a + " " + b)[1..] == a[1..] + " " + b;
      SplitSpace(a[1..], b);
    }
  }

  /** Splitting a join gives the words of every part, in order. */
  lemma {:induction false} SplitJoin(parts: seq<string>)
    requires parts != []
    ensures Split(Join(parts)) == SplitAll(parts)
  {
    if |parts| == 1 {
      assert SplitAll(parts[1..]) == [];
    } else {
      SplitSpace(parts[0], Join(parts[1..]));
      SplitJoin(parts[1..]);
    }
  }

  /** Joining words and splitting again gives the words back. */
  lemma {:induction false} SplitJoinWords(parts: seq<string>)
    requires parts != []
    requires forall k :: 0 <= k < |parts| ==> IsWord(parts[k])
    ensures Split(Join(parts)) == parts
  {
    SplitJoin(parts);
    SplitAllWords(parts);
  }

  /** A list of words splits into itself. */
  lemma {:induction false} SplitAllWords(parts: seq<string>)
    requires forall k :: 0 <= k < |parts| ==> IsWord(parts[k])
    ensures SplitAll(parts) == parts
  {
    if parts != [] {
      SplitWord(parts[0]);
      SplitAllWords(parts[1..]);
    }
  }

  /** Removing `[x] + ws` is removing `x` first and then `ws`. */
  lemma {:induction false} RemoveAllFront<T>(l: seq<T>, x: T, ws: seq<T>)
    ensures RemoveAll(l, [x] + ws) == RemoveAll(RemoveFirst(l, x), ws)
    decreases |ws|
  {
    if ws != [] {
      var ws' := ws[..|ws| - 1];
      assert ([x] + ws)[..|[x] + ws| - 1] == [x] + ws';
      RemoveAllFront(l, x, ws');
    } else {
      assert ([x] + ws)[..0] == [];
    }
  }

  /**
   * Removing the words `ws` from `pre + ws + rest`, when none of them occurs
   * in `pre`, takes out exactly that middle stretch.
   */
  lemma {:induction false} RemoveAllMiddle<T>(pre: seq<T>, ws: seq<T>, rest: seq<T>)
    requires forall w :: w in ws ==> w !in pre
    ensures RemoveAll(pre + ws + rest, ws) == pre + rest
    decreases |ws|
  {
    if ws != [] {
      var x, ws' := ws[0], ws[1..];
      assert ws == [x] + ws';
      var l := pre + ws + rest;
      assert x in ws;
      assert l == pre + [x] + (ws' + rest);
      RemoveFirstAfter(pre, x, ws' + rest);
      assert pre + (ws' + rest) == pre + ws' + rest;
      RemoveAllFront(l, x, ws');
      forall w | w in ws' ensures w !in pre {
        assert w in ws;
      }
      RemoveAllMiddle(pre, ws', rest);
    } else {
      assert pre + ws + rest == pre + rest;
    }
  }

  /** Removing the first `x` drops the occurrence after an `x`-free prefix. */
  lemma {:induction false} RemoveFirstAfter<T>(pre: seq<T>, x: T, tail: seq<T>)
    requires x !in pre
    ensures RemoveFirst(pre + [x] + tail, x) == pre + tail
  {
    var l := pre + [x] + tail;
    assert l[|pre|] == x;
    IndexOfAfter(pre, x, tail);
    assert l[..|pre|] == pre;
    assert l[|pre| + 1..] == tail;
  }

  /** The first `x` sits right after an `x`-free prefix. */
  lemma {:induction false} IndexOfAfter<T>(pre: seq<T>, x: T, tail: seq<T>)
    requires x !in pre
    ensures x in pre + [x] + tail && IndexOf(pre + [x] + tail, x) == |pre|
  {
    var l := pre + [x] + tail;
    assert l[|pre|] == x;
    if pre != [] {
      assert l[1..] == pre[1..] + [x] + tail;
      IndexOfAfter(pre[1..], x, tail);
    }
  }

  /** A character of `t` that `s` lacks keeps `t` out of `s`. */
  lemma NotContainsByChar(s: string, t: string, c: char)
    requires c in t && c !in s
    ensures !Contains(s, t)
  {
    forall i | OccursAt(s, t, i) ensures false {
    }
  }

  /** A longer string, or a different one of the same length, does not occur in `s`. */
  lemma NotContainsBySize(s: string, t: string)
    requires |t| > |s| || (|t| == |s| && t != s)
    ensures !Contains(s, t)
  {
    forall i | OccursAt(s, t, i) ensures false {
    }
  }
}

=== FILE: wrappers.dfy ===
/** Stand-ins for C#'s nullable values and thrown exceptions. */
module Wrappers {

  /** A value that may be absent (a C# null or a `T?` without a value). */
  datatype Option<+T> = None | Some(value: T)

  /** The exceptions the core throws, named after their .NET classes. */
  datatype Exception =
    | ArgumentNullException(paramName: string)
    | InvalidOperationException

  /** The outcome of a call that either returns a value or throws. */
  datatype Result<+T> = Success(value: T) | Failure(error: Exception)
}
